=== FILE: README.md ===
# Ojo de Zeus 2 — a verified model of the learner, the searcher and the pruner

Ojo de Zeus 2 checks whether a username or e-mail address is registered on a set of web
sites. It has three parts, and this project models them as pure Dafny functions with proved
contracts.

1. **The learner** (`creador_auto_graficos.py`) probes one site with identities known to exist
   ("reales") and identities known not to exist ("falsos"). From the answers it derives
   candidate detection methods: status code, final URL, redirect, status plus text, HTML
   words, JSON keys, challenge page, operator keywords and rendered DOM. For each method it
   records the outcome signatures seen on each side. It classifies the method as GOOD or BAD,
   lets the operator choose which methods to keep (`1,3`, `2-5`, `all`, empty) and appends the
   chosen ones to the catalog, numbering them on.
2. **The searcher** (`buscador_auto_graficos.py`) replays every catalog method against one
   identity. For each method it computes the same outcome signature and looks it up in the
   learned lists (`Existe` / `No existe` / `Indeterminado`). It then aggregates per site: any
   "does not exist" wins over "exists". When the methods leave a site undecided, a
   page-content heuristic may confirm existence.
3. **The pruner** (`borrador.py`) lists the alphabetic base names of the catalog's sites. It
   lets the operator pick one base and then some of the methods under it, and removes the
   picked methods.

Network access, the browser, the clock and the operator's answers are parameters. A probe is
a `Sample` (the plain HTTP answer plus an optional browser rendering). Fetching is a function
`string -> Fetch` from URL to answer or failure. Typed answers are strings.

Modules, one file each:

| module | models |
|---|---|
| `Probe` | the HTTP/browser answer, the effective page text and the final URL |
| `Methods` | method types and their parameters |
| `LearnerSignature` | the learner's outcome signature |
| `TextMining` | word extraction and the stable-word intersection |
| `Templates` | candidate-method derivation |
| `Discrimination` | outcome lists and GOOD/BAD classification |
| `Review` | the operator's selection and the catalog append; the whole learning run |
| `SearcherSignature` | the searcher's signature, as written and corrected |
| `Decision` | the per-method verdict |
| `Heuristic` | the page heuristic |
| `Search` | the per-site and whole-catalog search |
| `Pruning` | the pruner |

Shared modules:
- `Text` models the Python string operations used: `lower`, `strip`, `split`, `replace`,
  `int()` and `str()` of integers, and substring search.
- `Order` models sorting and sets of strings.
- `Wrappers` defines `Option`.

## Model

| member | source | states |
|---|---|---|
| Probe.TransportFailure | motores/creador_auto_graficos.py:151-172 | a failed HTTP fetch is reported with status -1, as a non-JSON answer whose final URL is the requested URL |
| Probe.EffectiveText | motores/creador_auto_graficos.py:290-292 | the page text used is the browser text only when it is strictly longer than the HTTP text; it is never shorter than either text |
| Probe.FinalUrl | motores/creador_auto_graficos.py:285-288 | the final URL is the browser's when the browser reported a non-empty one, and otherwise the HTTP answer's |
| LearnerSignature.Signature | motores/creador_auto_graficos.py:294-341 | an unknown method type has no signature and every known type has one; no signature is the literal `None`; status is `status=<code>`; URL and redirect checks are `final_url=<url>` |
| LearnerSignature.SignatureFlags | motores/creador_auto_graficos.py:306-337 | each flag-type method yields exactly `<tag>=True` or `<tag>=False` |
| LearnerSignature.StatusTextFlag | motores/creador_auto_graficos.py:306-311 | `status_text_hit` is True iff the status equals the stored code and the first five required texts all occur in the lower-cased page |
| LearnerSignature.HtmlFlag | motores/creador_auto_graficos.py:313-317 | `html_hit` is True iff the key list is non-empty and its first five keys all occur in the lower-cased page |
| LearnerSignature.JsonFlag | motores/creador_auto_graficos.py:319-324 | `json_hit` is True iff the answer is a JSON object holding each of the first five required keys |
| LearnerSignature.CaptchaFlag | motores/creador_auto_graficos.py:326-328 | `captcha` is True iff a challenge marker occurs, case-insensitively, in the effective text |
| LearnerSignature.KeywordFlag | motores/creador_auto_graficos.py:330-334 | `kw_hit` is True iff some stored keyword occurs in the lower-cased page |
| LearnerSignature.SelectorFlag | motores/creador_auto_graficos.py:336-337 | `dom_loaded` is True iff the identity was rendered by a browser |
| LearnerSignature.TransportFailureSignature | motores/creador_auto_graficos.py:168-169 | a failed fetch shows up as `status=-1` |
| LearnerSignature.OnlyFirstFiveKeys | motores/creador_auto_graficos.py:306-324 | keys after the fifth never change a signature |
| LearnerSignature.EmptyHtmlKeysMiss | motores/creador_auto_graficos.py:313-317 | an HTML check without keys always misses |
| LearnerSignature.JsonNeedsPlainObject | motores/creador_auto_graficos.py:319-324 | a non-JSON answer, or JSON that is not an object, never hits |
| TextMining.PageTokens | motores/creador_auto_graficos.py:345-350 | every token is a lower-case word of at least the minimum length |
| TextMining.TokensOfWords | motores/creador_auto_graficos.py:346 | words separated by single spaces are matched back as exactly the words of at least the minimum length, in order, repeats included |
| TextMining.PageTokensOfWords | motores/creador_auto_graficos.py:345-350 | a page of lower-case words separated by single spaces yields exactly its words of at least the minimum length, in order, repeats included |
| TextMining.RankSort | motores/creador_auto_graficos.py:351 | the ranking is a permutation of the distinct words, ordered by descending count and then alphabetically |
| TextMining.ExtractWords | motores/creador_auto_graficos.py:344-352 | at most `max_words` distinct page words, rank-ordered; a page word is left out only when the list is full of words that outrank it |
| TextMining.TopRanked | motores/creador_auto_graficos.py:351 | cutting a ranked list keeps exactly the words that outrank every dropped word |
| TextMining.CommonIntersection | motores/creador_auto_graficos.py:354-359 | a word is kept iff it is in every list; no lists gives nothing |
| TextMining.CommonToAllPages | motores/creador_auto_graficos.py:361-363 | the intersection of the per-page word lists holds exactly the words extracted from every page |
| TextMining.SharedWords | motores/creador_auto_graficos.py:361-365 | the shared words are those on every page, minus the ten stop words |
| TextMining.StableContains | motores/creador_auto_graficos.py:361-366 | sorted shared words, at most 30; a shared word is left out only when 30 words are kept that all precede it alphabetically |
| Templates.MostFrequent | motores/creador_auto_graficos.py:398 | the chosen status code occurs at least as often as any other code in the list |
| Templates.HtmlKeys | motores/creador_auto_graficos.py:386-396 | the HTML keys are the sorted stable words of the real pages that are not stable words of the fake pages; no real pages gives no keys |
| Templates.HtmlMethods | motores/creador_auto_graficos.py:386-401 | `html_contains` is proposed iff there are keys, and carries the first 25 keys; `status_code_y_texto` is proposed iff there are keys and real status codes, and carries a most frequent code and the first 10 keys |
| Templates.JsonKeyLists | motores/creador_auto_graficos.py:405-409 | the lists are exactly the key sets of the real samples that answered with a JSON object |
| Templates.JsonMethods | motores/creador_auto_graficos.py:403-415 | `json_response_check` is proposed iff some sample answered with JSON and the real key sets share a key; it carries 1-20 sorted keys present in every real object, and a shared key is left out only when 20 keys are kept that all precede it alphabetically |
| Templates.JsonKeys | motores/creador_auto_graficos.py:410-412 | the keys are all the shared keys when there are at most 20 of them, and otherwise the 20 alphabetically smallest |
| Templates.KeywordMethods | motores/creador_auto_graficos.py:423-430 | `palabras_clave` is proposed iff some operator keyword is absent from the fake pages; it keeps 1-20 such keywords, and a surviving keyword is left out only when 20 are kept |
| Templates.KeywordsInOrder | motores/creador_auto_graficos.py:426-430 | when the operator's list opens with at most 20 surviving keywords, the kept keywords open with exactly those, in the operator's order |
| Templates.DeriveTemplates | motores/creador_auto_graficos.py:369-438 | the list starts with the status, URL and redirect checks; every template carries the site and URL template and has a known type |
| Templates.TemplatesHtml | motores/creador_auto_graficos.py:386-396 | `html_contains` is proposed iff some stable real word is not a stable fake word, and lists only such words |
| Templates.NoRealsNoMarkup | motores/creador_auto_graficos.py:386-401 | without real samples neither markup method is proposed |
| Templates.TemplatesStatusText | motores/creador_auto_graficos.py:397-401 | `status_code_y_texto` stores a status that some real sample returned and that is at least as frequent as every other real status |
| Templates.TemplatesJson | motores/creador_auto_graficos.py:403-415 | `json_response_check` appears only if some sample answered with JSON; each required key is a key of every real JSON object |
| Templates.TemplatesSignals | motores/creador_auto_graficos.py:417-436 | the challenge method is proposed iff some sample showed a challenge marker; the rendered-DOM method iff some sample was rendered by a browser |
| Templates.TemplatesKeywords | motores/creador_auto_graficos.py:423-430 | `palabras_clave` is proposed iff some lower-cased keyword is missing from the fake text, and keeps only such keywords |
| Discrimination.Collect | motores/creador_auto_graficos.py:441-465 | the collected outcomes are exactly the signatures observed on the samples; `None` is never collected |
| Discrimination.Discriminate | motores/creador_auto_graficos.py:467-511 | the real-only, fake-only and overlap lists are sorted and hold exactly the signatures seen on that side only or on both; GOOD iff one of the one-sided lists is non-empty; the counts are the list lengths |
| Discrimination.BuildMethods | motores/creador_auto_graficos.py:467-511 | one classified entry per template, in template order |
| Discrimination.OutcomesDisjoint | motores/creador_auto_graficos.py:475-478 | the three lists never share an outcome and never contain `None` |
| Discrimination.BadIffSameOutcomes | motores/creador_auto_graficos.py:481-492 | a method is BAD iff both groups produced the same set of outcomes |
| Discrimination.CountsAreSetSizes | motores/creador_auto_graficos.py:505-509 | each stored count is the number of distinct outcomes on that side |
| Discrimination.SampleOrderIrrelevant | motores/creador_auto_graficos.py:467-511 | the classification depends only on which samples were seen, not on their order or repetition |
| Review.CommaItems | motores/creador_auto_graficos.py:577 | each item is non-empty and its own strip; a string is an item iff it is the non-empty strip of some comma-separated piece of the answer |
| Review.RangePositions | motores/creador_auto_graficos.py:579-585 | a range `a-b` keeps the listed positions between min(a,b) and max(a,b); an unparsable end keeps nothing |
| Review.SinglePosition | motores/creador_auto_graficos.py:586-590 | a single number keeps that position if it is listed |
| Review.ItemsSelection | motores/creador_auto_graficos.py:577-590 | the kept positions are the union of what each item keeps, and all of them are listed positions |
| Review.SelectionKeep | motores/creador_auto_graficos.py:569-590 | `all`, in any case and with surrounding blanks, keeps every position; empty or `none` keeps nothing; every kept position is listed |
| Review.SelectFromSubMultiset | motores/creador_auto_graficos.py:592 | the chosen methods are a sub-multiset of those offered |
| Review.SelectInOrder | motores/creador_auto_graficos.py:592 | the chosen methods are exactly those at the kept positions, in listed order |
| Review.SelectAllOrNone | motores/creador_auto_graficos.py:572-575 | keeping all positions returns the list unchanged; keeping none returns nothing |
| Review.RangeSelection | motores/creador_auto_graficos.py:579-585 | a typed range `a-b` keeps exactly the listed positions between its two ends, whatever their order |
| Review.NumberSelection | motores/creador_auto_graficos.py:586-590 | a typed number keeps that position iff it is between 1 and the list length |
| Review.CommaListSelection | motores/creador_auto_graficos.py:576-590 | for any answer other than `all`, empty or `none`, a position is kept iff some non-blank comma-separated item keeps it |
| Review.NumberListSelection | motores/creador_auto_graficos.py:576-590 | an answer of numbers separated by commas, such as `1,3`, keeps exactly the typed numbers between 1 and the list length |
| Review.AnswerAll | motores/creador_auto_graficos.py:569-573 | the answer `all` keeps every position |
| Review.AppendCatalog | motores/creador_auto_graficos.py:530-539 | the old catalog is kept as a prefix, the new methods follow in order, and each new entry at catalog position i, counted from 0, gets id i+1, whatever ids the old entries carry |
| Review.AppendKeepsNumbering | motores/creador_auto_graficos.py:533-535 | appending to a catalog numbered 1..n numbers the new methods n+1, n+2, … |
| Review.AppendAfterRemovalRepeatsId | motores/creador_auto_graficos.py:533-535 | numbering by catalog length repeats an id: after a removal has left an entry with id n+1 in a catalog of n entries, the first appended method gets that same id |
| Review.AppendTwice | motores/creador_auto_graficos.py:530-539 | two appends equal one append of both batches |
| Review.Successes | motores/creador_auto_graficos.py:628-646 | the kept samples are exactly those of the identities that could be probed |
| Review.Offered | motores/creador_auto_graficos.py:651-658 | a run always offers at least the three URL/status methods |
| Review.Learn | motores/creador_auto_graficos.py:618-665 | the run stops with no real sample iff no real identity could be probed; it never lacks methods; nothing is saved iff a real identity was probed and the answer keeps no offered position; otherwise the catalog is the old one with the chosen methods appended, as many as the positions kept |
| Review.SaveSelection | motores/creador_auto_graficos.py:660-664 | with methods offered, nothing is saved iff the answer keeps no position; otherwise the chosen methods are appended and counted |
| Review.SelectCount | motores/creador_auto_graficos.py:592 | keeping a set of listed positions chooses exactly that many methods |
| Review.LearnAllSavesEverything | motores/creador_auto_graficos.py:657-664 | answering `all` after a real sample saves every offered method, numbered on from the catalog |
| SearcherSignature.SameCaptchaDetection | motores/buscador_auto_graficos.py:47 | the searcher's lower-case marker list detects exactly what the learner's mixed-case list detects |
| SearcherSignature.MarkersLowered | motores/buscador_auto_graficos.py:47 | the searcher's markers are the learner's markers lower-cased, one by one |
| SearcherSignature.SearchSignatureAsWritten | motores/buscador_auto_graficos.py:189-221 | the searcher's signature agrees with the learner's for every type except the challenge flag, which it writes `true`/`false` |
| SearcherSignature.CaptchaNeverReplays | motores/buscador_auto_graficos.py:209-211 | as written, no challenge outcome the searcher computes equals one the learner stored |
| SearcherSignature.SearchSignature | motores/buscador_auto_graficos.py:189-221 | the corrected searcher signature equals the learner's signature on every method and sample |
| SearcherSignature.Outcome | motores/buscador_auto_graficos.py:223-229 | corrected half: the recorded outcome is `None` iff the method type is unknown, and otherwise the learner's signature |
| Decision.Decide | motores/buscador_auto_graficos.py:231-236 | `Existe` iff the outcome is only in the real list; `No existe` iff only in the fake list; otherwise undecided |
| Decision.DecideListOrderIrrelevant | motores/buscador_auto_graficos.py:231-236 | the verdict depends only on the members of the two lists |
| Decision.ReplayVerdict | motores/buscador_auto_graficos.py:231-236 | a learned method reports `Existe` iff the outcome now observed was seen for some real identity and no fake one, and `No existe` in the mirror case |
| Decision.ReplayLearnedSample | motores/buscador_auto_graficos.py:223-236 | corrected half: replaying a real learning sample reports `Existe` unless a fake sample produced the same outcome; the mirror holds for fake samples |
| Decision.UnrecognisedUndecided | motores/buscador_auto_graficos.py:229-236 | a method of unknown type never decides |
| Decision.OutcomeAsWritten | motores/buscador_auto_graficos.py:209-229 | as written, the recorded challenge outcome is `captcha=true` or `captcha=false` |
| Decision.CaptchaUndecidedAsWritten | motores/buscador_auto_graficos.py:209-211 | as written, a learned challenge method is undecided on every page |
| Decision.CaptchaExample | motores/buscador_auto_graficos.py:209-211 | for a method learned from a challenge page and a clean page, replaying the challenge page is undecided as written and `Existe` when corrected |
| Heuristic.Host | motores/buscador_auto_graficos.py:278-282 | the extracted host never contains `/` |
| Heuristic.HostOfUrl | motores/buscador_auto_graficos.py:280 | for `http(s)://h/rest` the host is `h` lower-cased |
| Heuristic.Plain | motores/buscador_auto_graficos.py:285-286 | the plain text is no longer than the page |
| Heuristic.PlainOfText | motores/buscador_auto_graficos.py:285-286 | lower-case text without `<` whose only whitespace is single plain spaces (no tab, no no-break space, no other Unicode space) is its own plain text |
| Heuristic.PlainSpaceBetween | motores/buscador_auto_graficos.py:285-286 | any whitespace character, Unicode ones included, between two lower-case words reads as one plain space: `"me\u00a0gusta"` is seen as `"me gusta"` |
| Heuristic.TitleSpan | motores/buscador_auto_graficos.py:239-240 | `re.search` of `<title[^>]*>(.*?)</title>` on the lower-cased page: a span is found iff the pattern matches anywhere, and it is the group of the match at the first `<title`, ending at the first `</title>` after the tag |
| Heuristic.Title | motores/buscador_auto_graficos.py:301 | the title is empty when the pattern matches nowhere |
| Heuristic.TitleOfMatch | motores/buscador_auto_graficos.py:239-240 | for the leftmost match, the title is its group cut from the page as written, stripped and lower-cased |
| Heuristic.TitleOfPage | motores/buscador_auto_graficos.py:302 | for a page starting `<title>body</title>` the title is the lower-cased, stripped body |
| Heuristic.HeuristicVerdict | motores/buscador_auto_graficos.py:276-307 | the heuristic never denies existence; it confirms iff the TikTok, Pinterest or generic rule fires, each site rule only on its own host |
| Heuristic.OtherHostsGenericOnly | motores/buscador_auto_graficos.py:301-305 | away from TikTok and Pinterest only the generic rule decides |
| Heuristic.NoHostNoSiteRules | motores/buscador_auto_graficos.py:279-282 | a URL without `http(s)://host/` gives no host, so only the generic rule applies |
| Heuristic.TikTokUniqueId | motores/buscador_auto_graficos.py:289-292 | a TikTok page carrying `uniqueid":"` confirms existence |
| Heuristic.NoCountersUndecided | motores/buscador_auto_graficos.py:302-305 | away from the special hosts, a page with no profile counter word is undecided |
| Heuristic.UserCaseIgnored | motores/buscador_auto_graficos.py:277 | the heuristic ignores the identity's case |
| Search.SubstituteUser | motores/buscador_auto_graficos.py:224 | a template without a placeholder is left as it is |
| Search.SubstituteUserTag | motores/buscador_auto_graficos.py:224 | `{user}` is replaced by the identity |
| Search.SubstituteUsuarioTag | motores/buscador_auto_graficos.py:224 | `{usuario}` is replaced by the identity |
| Search.FirstPassKeepsUsuario | motores/buscador_auto_graficos.py:224 | the `{user}` pass leaves `{usuario}` intact |
| Search.Attempt | motores/buscador_auto_graficos.py:357-370 | a method is observed iff its template has a placeholder and the fetch succeeded |
| Search.HasPlaceholder | motores/buscador_auto_graficos.py:357 | a template names the identity iff it contains `{user}` or `{usuario}` (a predicate; its partners are the two lemmas below) |
| Search.TagIsPlaceholder | motores/buscador_auto_graficos.py:357 | a template holding either tag anywhere names the identity |
| Search.BracelessNoPlaceholder | motores/buscador_auto_graficos.py:357-359 | a template without any `{` names no identity, so its method is never probed |
| Search.Rows | motores/buscador_auto_graficos.py:353-370 | one listing line per method of the site, in catalog order, each the (corrected) line of that method |
| Search.RunMethod | motores/buscador_auto_graficos.py:357-370 | corrected half: the listing line is undecided without a placeholder or on failure; otherwise it holds the learner-compatible outcome, its exact-match verdict and the final URL |
| Search.RunMethodAsWritten | motores/buscador_auto_graficos.py:357-370 | as written: the same listing line, except that a challenge method records `captcha=true`/`captcha=false`; for every other method type it equals `RunMethod` |
| Search.LearnedCaptchaUndecidedAsWritten | motores/buscador_auto_graficos.py:209-236 | as written, a challenge method the learner stored never decides, whatever page is fetched |
| Search.Flags | motores/buscador_auto_graficos.py:349-364 | the two flags say whether some method decided `Existe` and whether some method decided `No existe` |
| Search.MethodsVerdict | motores/buscador_auto_graficos.py:378-383 | `No existe` iff some method says so; `Existe` iff some method says so and none denies; otherwise undecided |
| Search.MethodsVerdictOrderIrrelevant | motores/buscador_auto_graficos.py:378-383 | the aggregate depends only on the set of listing lines |
| Search.MethodOrderIrrelevant | motores/buscador_auto_graficos.py:353-383 | the aggregate does not depend on the order of a site's methods |
| Search.Consider | motores/buscador_auto_graficos.py:366-368 | a browser-rendered page always replaces the kept page; a plain page replaces it only when strictly longer |
| Search.BestCapture | motores/buscador_auto_graficos.py:351-368 | the kept page is nothing or the page of some observed method |
| Search.CaptureLongestWithoutBrowser | motores/buscador_auto_graficos.py:366-368 | without the browser the kept page is at least as long as every observed page |
| Search.CaptureKeepsRendered | motores/buscador_auto_graficos.py:366-368 | a rendered page is kept unless a later method also rendered or returned a longer page |
| Search.SearchSite | motores/buscador_auto_graficos.py:343-391 | the site says `No existe` iff some method says so; the heuristic is used only on an undecided site with a kept page and only to confirm existence |
| Search.MethodsDecideFirst | motores/buscador_auto_graficos.py:386-391 | a decided method is never overruled by the heuristic |
| Search.NothingObserved | motores/buscador_auto_graficos.py:351-391 | a site none of whose methods could be observed stays undecided |
| Search.SiteNames | motores/buscador_auto_graficos.py:336-340 | each site of the catalog is listed once |
| Search.MethodsOf | motores/buscador_auto_graficos.py:336-340 | a site's group holds exactly its methods |
| Search.SearchAll | motores/buscador_auto_graficos.py:310-391 | nothing runs for a blank identity or an empty catalog; otherwise one report per site, probed with the stripped identity |
| Search.GroupsPartitionCatalog | motores/buscador_auto_graficos.py:336-347 | every catalog method is run in exactly one site group, and no group is empty |
| Pruning.BaseName | motores/borrador.py:19-23 | the base is the longest alphabetic prefix of the name; there is none iff the name is empty or starts with a non-letter |
| Pruning.BaseIsLetterRun | motores/borrador.py:20-23 | the base name is exactly the leading run of letters |
| Pruning.BaseNames | motores/borrador.py:16-24 | the base names are sorted, without repeats, and are exactly the bases of the catalog's names |
| Pruning.PyIndex | motores/borrador.py:41-42 | Python indexing accepts -n..n-1 and fails otherwise |
| Pruning.ChooseBase | motores/borrador.py:39-44 | a chosen base is one of the listed bases, and only an answer that parses as an integer chooses anything; `ChooseListed`, `ZeroChoosesLast` and `ChooseBeyondList` pin down which |
| Pruning.ChooseListed | motores/borrador.py:39-44 | typing a listed number k chooses the k-th base |
| Pruning.ZeroChoosesLast | motores/borrador.py:40-41 | typing 0 chooses the last base |
| Pruning.ChooseBeyondList | motores/borrador.py:39-44 | a number past the list is rejected |
| Pruning.Related | motores/borrador.py:46 | the related methods are exactly the catalog entries whose name starts with the base |
| Pruning.BaseHasRelated | motores/borrador.py:46-49 | every listed base has a related method, so the "no methods" branch is unreachable |
| Pruning.Picks | motores/borrador.py:58-63 | the picked positions are exactly the numbered tokens that name a listed method, shifted to 0-based |
| Pruning.PicksConcat | motores/borrador.py:58-63 | the tokens are read one by one: the picks of concatenated token lists are the concatenated picks |
| Pruning.PicksOne | motores/borrador.py:58-63 | one token picks its number minus one when it is all digits and names a listed method, and nothing otherwise |
| Pruning.PicksOfNumerals | motores/borrador.py:58-63 | the decimal texts of numbers pick what the reference reading `NumberPicks` picks: each number in 1..n, minus one, in order, repeats kept |
| Pruning.RemovalPicksOfNumbers | motores/borrador.py:55-63 | an answer of numbers separated by commas, such as `1,3`, picks those numbers that name listed methods, minus one, in the order typed, repeats included |
| Pruning.RemovalPicks | motores/borrador.py:55-63 | every pick is a valid position |
| Pruning.PlanRemoval | motores/borrador.py:26-67 | each stop happens exactly when its cause holds: an empty catalog, a choice that does not parse or index the list, or an answer picking nothing under the chosen base; otherwise the plan deletes under the base the operator typed, with that base's related methods and at least one pick |
| Pruning.RemoveFirst | motores/borrador.py:69-70 | `list.remove` succeeds iff the entry is present, deletes its first occurrence, and leaves the other entries in their order |
| Pruning.RemoveEachCount | motores/borrador.py:69-70 | removing items one at a time succeeds iff they form a sub-multiset of the catalog, and leaves the difference |
| Pruning.RemoveEachInOrder | motores/borrador.py:69-70 | the entries a run of removals leaves behind keep their relative order |
| Pruning.PruneAsWritten | motores/borrador.py:26-76 | the run halts as planned, aborts iff the listed removals are not a sub-multiset of the catalog, and otherwise leaves the catalog minus exactly the listed removals, one copy per typed number, with the remaining entries in their order |
| Pruning.RepeatedNumberAborts | motores/borrador.py:69-70 | on a numbered catalog, typing `1,1` aborts the written run, while the corrected run prunes |
| Pruning.Prune | motores/borrador.py:26-76 | the corrected run never aborts, and removes exactly the picked methods, one copy each, keeping the remaining entries in their order |
| Pruning.PrunedOnlyOffered | motores/borrador.py:40-71 | only methods offered under the chosen base are removed, and their names start with the base the operator typed |
| Pruning.PrunedAllPicked | motores/borrador.py:58-71 | every picked method is removed |
| Text.SplitJoin | motores/borrador.py:56 | splitting a join of separator-free pieces gives back the pieces |
| Text.CollapseSingleSpaced | motores/buscador_auto_graficos.py:286 | collapsing whitespace leaves text unchanged when every whitespace character in it, in Python's full Unicode sense, is a plain space with no whitespace next to it |
| Text.CollapseSpaceBetween | motores/buscador_auto_graficos.py:286 | one whitespace character of any kind between two whitespace-free strings becomes a single plain space |
| Text.IntToStringRoundTrip | motores/creador_auto_graficos.py:582-588 | parsing the decimal text of an integer gives the integer back |
| Text.ReplaceAllPrefix | motores/creador_auto_graficos.py:599 | a prefix that does not contain the pattern's first character passes through the replacement unchanged |

## Left out

- Network, browser and timing. HTTP fetching, the browser, headers, user agents, `via`, timings
  and the sleeps between probes are not modelled. A probe is given as a `Sample`, and fetching
  is a parameter `string -> Fetch`, so a URL always gets the same answer.
- Exceptions. An exception while probing one method is the `Failed` fetch. In the searcher it
  produces an undecided listing line.
- Files and console. Reading and writing the catalog file, the optional text report, colours,
  banners, counts printed to the console and `extraer_info_relevante` (report-only regex
  extraction) are not modelled. The pruner's save is its returned catalog.
- Evidence notes. The free-text notes stored with each method are not modelled. The marker
  list stored with the challenge method and the CSS selectors stored with the rendered-DOM
  method are never read, so they are dropped.
- The `general` default site name for catalog entries without a name is not modelled: every
  entry has a site.
- `motores/comparador.py` and `motores/utils.py` are not part of this model.
- Text.Lower: `str.lower` and `str.isalpha` are modelled on ASCII letters plus the seven Spanish
  letters in both cases (á é í ó ú ü ñ, Á É Í Ó Ú Ü Ñ) that the learner's word class names.
  Other Unicode letters are left unchanged and count as non-letters. Whitespace, by contrast,
  is Python's full `str.isspace` set (`Text.IsSpace`).
- Text.ParseInt: `int()` accepts an optional sign, surrounding whitespace and ASCII digits. It
  does not accept the underscores or non-ASCII digits that Python also accepts.
- Templates.MostFrequent: promises only "a most frequent code". The source takes the maximum
  over a Python set, so ties are broken by set iteration order, which the model cannot
  reproduce. The model picks the first most frequent code in list order.
- Review.Learn: the `not methods` branch of the learning run cannot be reached, because the
  status, URL and redirect templates are always produced. The model states this as
  `!r.NoMethods?` instead of modelling an empty method list.
- Probe.EffectiveText: the learner uses the browser text only when it is strictly longer than
  the HTTP text (creador_auto_graficos.py:290-292). The searcher's kept page
  (`Search.Consider`, buscador_auto_graficos.py:366-368) is different: it takes a rendered
  capture whatever its length.
- Pruning.Picks: `str.isdigit()` is modelled on the ASCII digits only. Python also accepts
  other Unicode digits: a superscript such as `²` passes the test and then makes `int()` raise
  `ValueError`, and an Arabic-Indic digit such as `١` is read as 1. The model skips both kinds.
- Search.RunMethod: models the corrected searcher, which renders the challenge flag as the
  learner does. The code as written is `Search.RunMethodAsWritten`, under which a learned
  challenge method never decides (`Search.LearnedCaptchaUndecidedAsWritten`). The per-site
  and whole-catalog search (`Search.Rows`, `Search.SearchSite`, `Search.SearchAll`) is built
  on the corrected line.
- SearcherSignature.Outcome: the corrected outcome. As written, a challenge method records
  `captcha=true`/`captcha=false` (`Decision.OutcomeAsWritten`).
- Decision.ReplayLearnedSample: holds for the corrected outcome only. As written it fails for
  challenge methods, which never decide (`Decision.CaptchaUndecidedAsWritten`).
- Probe.TransportFailure: does not model a failure after the final URL was already updated.
  It always reports the requested URL.

## Findings

| source | as written | input that shows it | evidently intended | confidence | as-written member | corrected member |
|---|---|---|---|---|---|---|
| motores/buscador_auto_graficos.py:209-211 | the searcher writes the challenge flag as `captcha=true`/`captcha=false`; the learner stores `captcha=True`/`captcha=False` (creador_auto_graficos.py:326-328) | a challenge method learned from a challenge page and a clean page, replayed on the challenge page: the outcome `captcha=true` is in neither list, so the method is undecided | the searcher reproduces the learner's signature, so a learned challenge method can decide | not executed | Decision.CaptchaUndecidedAsWritten, Search.LearnedCaptchaUndecidedAsWritten | SearcherSignature.SearchSignature, Search.RunMethod |
| motores/borrador.py:69-70 | the pruner removes one catalog entry per typed number, repeats included, with `list.remove` | on a catalog whose entries are numbered, choose a base and answer `1,1`: the second `remove` finds nothing and raises `ValueError`, so the run aborts without saving | each chosen method is removed once | not executed | Pruning.RepeatedNumberAborts | Pruning.Prune |

=== FILE: decision.dfy ===
/** Deciding one method by exact outcome match: the outcome observed now is looked up in the
    outcome lists the learner stored for that method. */
module Decision {
  import opened Wrappers
  import opened Text
  import opened Probe
  import opened Methods
  import opened LearnerSignature
  import opened Discrimination
  import opened SearcherSignature

  /** The three verdicts the searcher prints: `Existe`, `No existe`, `Indeterminado`. */
  datatype Verdict = Exists | NotExists | Indeterminate

  /** An outcome seen only with real identities means the identity exists, one seen only with
      fake identities means it does not, and anything else (in both lists or in neither) leaves
      the method undecided. */
  function Decide(outcome: string, reals: seq<string>, fakes: seq<string>): (v: Verdict)
    ensures v == Exists <==> outcome in reals && outcome !in fakes
    ensures v == NotExists <==> outcome in fakes && outcome !in reals
    ensures v == Indeterminate <==> (outcome in reals <==> outcome in fakes)
  {
    var r := outcome in reals;
    var f := outcome in fakes;
    if r && !f then Exists
    else if f && !r then NotExists
    else Indeterminate
  }

  /** The verdict depends only on which outcomes each list holds, not on their order. */
  lemma DecideListOrderIrrelevant(outcome: string, reals: seq<string>, fakes: seq<string>,
                                  reals2: seq<string>, fakes2: seq<string>)
    requires forall x :: x in reals <==> x in reals2
    requires forall x :: x in fakes <==> x in fakes2
    ensures Decide(outcome, reals, fakes) == Decide(outcome, reals2, fakes2)
  {
  }

  /** The verdict of a learned method on a new observation `e`: `Exists` exactly when the
      signature observed now was produced by some real sample and by no fake sample during
      learning, `NotExists` in the mirror case. */
  lemma ReplayVerdict(spec: MethodSpec, reales: seq<Sample>, falsos: seq<Sample>, e: Sample)
    ensures var entry := Discriminate(spec, reales, falsos);
      var o := Outcome(spec.kind, e);
      && (Decide(o, entry.outcomesReal, entry.outcomesFake) == Exists
          <==> Observed(spec.kind, reales, o) && !Observed(spec.kind, falsos, o))
      && (Decide(o, entry.outcomesReal, entry.outcomesFake) == NotExists
          <==> Observed(spec.kind, falsos, o) && !Observed(spec.kind, reales, o))
  {
    var entry := Discriminate(spec, reales, falsos);
    OutcomesDisjoint(spec, reales, falsos);
  }

  /** Replaying a real learning sample through a method that never produced its signature for
      a fake sample reports that the identity exists; the mirror holds for fake samples. */
  lemma ReplayLearnedSample(spec: MethodSpec, reales: seq<Sample>, falsos: seq<Sample>, e: Sample)
    requires !spec.kind.Unrecognised?
    ensures var entry := Discriminate(spec, reales, falsos);
      var o := Outcome(spec.kind, e);
      && (e in reales && !Observed(spec.kind, falsos, o) ==>
            Decide(o, entry.outcomesReal, entry.outcomesFake) == Exists)
      && (e in falsos && !Observed(spec.kind, reales, o) ==>
            Decide(o, entry.outcomesReal, entry.outcomesFake) == NotExists)
  {
    ReplayVerdict(spec, reales, falsos, e);
  }

  /** A method of an unrecognised type records `None`, which no learned list holds. */
  lemma UnrecognisedUndecided(spec: MethodSpec, reales: seq<Sample>, falsos: seq<Sample>, e: Sample)
    requires spec.kind.Unrecognised?
    ensures var entry := Discriminate(spec, reales, falsos);
      Decide(Outcome(spec.kind, e), entry.outcomesReal, entry.outcomesFake) == Indeterminate
  {
    OutcomesDisjoint(spec, reales, falsos);
  }

  /** The outcome the searcher records with the challenge flag as written. */
  function OutcomeAsWritten(kind: Kind, e: Sample): (r: string)
    ensures !kind.CaptchaDetect? ==> r == Outcome(kind, e)
    ensures kind.CaptchaDetect? ==> r == "captcha=true" || r == "captcha=false"
  {
    SearchSignatureAsWritten(kind, e).GetOr("None")
  }

  /** As written, a learned challenge method is never decided: every outcome it stored was
      rendered `captcha=True` or `captcha=False`, and the searcher looks up `captcha=true` or
      `captcha=false`. With the learner's rendering the same method does decide, as
      `ReplayVerdict` states. */
  lemma CaptchaUndecidedAsWritten(spec: MethodSpec, reales: seq<Sample>, falsos: seq<Sample>, e: Sample)
    requires spec.kind.CaptchaDetect?
    ensures var entry := Discriminate(spec, reales, falsos);
      Decide(OutcomeAsWritten(spec.kind, e), entry.outcomesReal, entry.outcomesFake) == Indeterminate
  {
    var entry := Discriminate(spec, reales, falsos);
    var o := OutcomeAsWritten(spec.kind, e);
    forall learned | learned in reales + falsos
      ensures Signature(spec.kind, learned) != Some(o)
    {
      CaptchaNeverReplays(e, learned);
    }
    assert !Observed(spec.kind, reales, o);
    assert !Observed(spec.kind, falsos, o);
  }

  /** A page that shows a challenge marker and one that does not. */
  const ChallengePage := Sample(Resp("u", 200, "captcha", false, None), None)
  const CleanPage := Sample(Resp("u", 200, "ok", false, None), None)

  lemma ExamplePageSignatures()
    ensures Signature(CaptchaDetect, ChallengePage) == Some("captcha=True")
    ensures Signature(CaptchaDetect, CleanPage) == Some("captcha=False")
  {
    ChallengeDetected();
    CleanNotDetected();
    SignatureFlags(CaptchaDetect, ChallengePage);
    SignatureFlags(CaptchaDetect, CleanPage);
  }

  lemma ChallengeDetected()
    ensures DetectCaptcha("captcha")
  {
    assert CaptchaMarkers[0] == "captcha";
    LowerFixed("captcha");
    assert OccursAt(Lower("captcha"), Lower("captcha"), 0);
  }

  lemma CleanNotDetected()
    ensures !DetectCaptcha("ok")
  {
    forall m | m in CaptchaMarkers
      ensures !Contains(Lower("ok"), Lower(m))
    {
      assert |Lower(m)| > 2;
    }
  }

  /** A concrete instance of the discrepancy: a challenge page seen once for a real identity
      and a clean page seen once for a fake one give a method that discriminates, yet replaying
      the very same challenge page decides nothing as written, while the learner's rendering
      reports that the identity exists. */
  lemma CaptchaExample()
    ensures var entry := Discriminate(MethodSpec("site", "u", CaptchaDetect), [ChallengePage], [CleanPage]);
      && entry.status == Good
      && Decide(OutcomeAsWritten(CaptchaDetect, ChallengePage), entry.outcomesReal, entry.outcomesFake) == Indeterminate
      && Decide(Outcome(CaptchaDetect, ChallengePage), entry.outcomesReal, entry.outcomesFake) == Exists
  {
    var spec := MethodSpec("site", "u", CaptchaDetect);
    ExamplePageSignatures();
    assert Observed(CaptchaDetect, [ChallengePage], "captcha=True");
    assert !Observed(CaptchaDetect, [CleanPage], "captcha=True");
    ReplayVerdict(spec, [ChallengePage], [CleanPage], ChallengePage);
    CaptchaUndecidedAsWritten(spec, [ChallengePage], [CleanPage], ChallengePage);
  }
}

=== FILE: discrimination.dfy ===
/** Outcome discrimination: which signatures of a method were seen only for real identities,
    only for fake ones, or for both, and whether the method is worth keeping. */
module Discrimination {
  import opened Wrappers
  import opened Order
  import opened Probe
  import opened Methods
  import opened LearnerSignature

  /** Some sample of the group produced outcome `x` under the method. */
  predicate Observed(kind: Kind, samples: seq<Sample>, x: string) {
    exists e | e in samples :: Signature(kind, e) == Some(x)
  }

  /** The signatures the method produced over a group of samples, in sample order, skipping
      samples for which it produced none. */
  function Collect(kind: Kind, samples: seq<Sample>): (r: seq<string>)
    ensures forall x :: x in r <==> Observed(kind, samples, x)
    ensures "None" !in r
  {
    if |samples| == 0 then []
    else
      var rest := Collect(kind, samples[1..]);
      assert forall e | e in samples :: e == samples[0] || e in samples[1..];
      assert forall e | e in samples[1..] :: e in samples;
      var sig := Signature(kind, samples[0]);
      if sig.Some? then [sig.value] + rest else rest
  }

  datatype Status = Good | Bad

  /** The short explanation stored with each method. */
  datatype Reason =
    | OnlyReal       // some outcomes were seen only with real identities
    | OnlyFake       // some outcomes were seen only with fake identities
    | BothExclusive  // each side has outcomes of its own
    | AllShared      // every outcome was seen on both sides
    | Insufficient   // no outcome was seen at all

  /** A method with its discrimination results and the counts kept as evidence. */
  datatype Entry = Entry(
    spec: MethodSpec,
    outcomesReal: seq<string>,
    outcomesFake: seq<string>,
    outcomesOverlap: seq<string>,
    status: Status,
    reason: Reason,
    realCount: nat,
    fakeCount: nat,
    overlapCount: nat)

  function ReasonFor(realOnly: seq<string>, fakeOnly: seq<string>, overlap: seq<string>): Reason {
    if |realOnly| > 0 || |fakeOnly| > 0 then
      if |fakeOnly| == 0 then OnlyReal
      else if |realOnly| == 0 then OnlyFake
      else BothExclusive
    else if |overlap| > 0 then AllShared
    else Insufficient
  }

  /** `compute_outcomes_for_method` followed by the per-method step of
      `build_methods_with_outcomes`: the outcome sets of both groups, split into exclusive and
      shared parts, each sorted; a method is good when either side has an exclusive outcome. */
  function Discriminate(spec: MethodSpec, reales: seq<Sample>, falsos: seq<Sample>): (r: Entry)
    ensures r.spec == spec
    ensures StrictlySorted(r.outcomesReal) && StrictlySorted(r.outcomesFake) && StrictlySorted(r.outcomesOverlap)
    ensures forall x :: x in r.outcomesReal <==> Observed(spec.kind, reales, x) && !Observed(spec.kind, falsos, x)
    ensures forall x :: x in r.outcomesFake <==> Observed(spec.kind, falsos, x) && !Observed(spec.kind, reales, x)
    ensures forall x :: x in r.outcomesOverlap <==> Observed(spec.kind, reales, x) && Observed(spec.kind, falsos, x)
    ensures r.status == Good <==> |r.outcomesReal| > 0 || |r.outcomesFake| > 0
    ensures r.reason == ReasonFor(r.outcomesReal, r.outcomesFake, r.outcomesOverlap)
    ensures r.realCount == |r.outcomesReal| && r.fakeCount == |r.outcomesFake| && r.overlapCount == |r.outcomesOverlap|
  {
    var ro := Collect(spec.kind, reales);
    var fo := Collect(spec.kind, falsos);
    var realOnly := SortedSet(Filter(ro, x => x !in fo));
    var fakeOnly := SortedSet(Filter(fo, x => x !in ro));
    var overlap := SortedSet(Filter(ro, x => x in fo));
    var status := if |realOnly| > 0 || |fakeOnly| > 0 then Good else Bad;
    Entry(spec, realOnly, fakeOnly, overlap, status, ReasonFor(realOnly, fakeOnly, overlap),
          |realOnly|, |fakeOnly|, |overlap|)
  }

  /** `build_methods_with_outcomes`: one entry per template, in template order. */
  function BuildMethods(templates: seq<MethodSpec>, reales: seq<Sample>, falsos: seq<Sample>): (r: seq<Entry>)
    ensures |r| == |templates|
    ensures forall i | 0 <= i < |r| :: r[i].spec == templates[i]
    ensures forall i | 0 <= i < |r| :: r[i] == Discriminate(templates[i], reales, falsos)
  {
    seq(|templates|, i requires 0 <= i < |templates| => Discriminate(templates[i], reales, falsos))
  }

  /** The three outcome lists never share an element, and "None" is never stored. */
  lemma OutcomesDisjoint(spec: MethodSpec, reales: seq<Sample>, falsos: seq<Sample>)
    ensures var r := Discriminate(spec, reales, falsos);
      && (forall x | x in r.outcomesReal :: x !in r.outcomesFake && x !in r.outcomesOverlap)
      && (forall x | x in r.outcomesFake :: x !in r.outcomesOverlap)
      && "None" !in r.outcomesReal + r.outcomesFake + r.outcomesOverlap
  {
    var r := Discriminate(spec, reales, falsos);
    NeverNone(spec.kind, reales);
    assert "None" !in r.outcomesReal && "None" !in r.outcomesOverlap;
    assert "None" !in r.outcomesFake by {
      NeverNone(spec.kind, falsos);
    }
  }

  /** No sample is ever observed with the literal outcome `None`. */
  lemma NeverNone(kind: Kind, samples: seq<Sample>)
    ensures !Observed(kind, samples, "None")
  {
  }

  /** A method is bad exactly when every outcome seen on one side was also seen on the other:
      the two groups produced the same set of outcomes. */
  lemma BadIffSameOutcomes(spec: MethodSpec, reales: seq<Sample>, falsos: seq<Sample>)
    ensures Discriminate(spec, reales, falsos).status == Bad <==>
      forall x :: Observed(spec.kind, reales, x) <==> Observed(spec.kind, falsos, x)
  {
    var r := Discriminate(spec, reales, falsos);
    if r.status == Bad {
      assert r.outcomesReal == [] && r.outcomesFake == [];
    } else if |r.outcomesReal| > 0 {
      assert r.outcomesReal[0] in r.outcomesReal;
    } else {
      assert r.outcomesFake[0] in r.outcomesFake;
    }
  }

  /** The stored counts are the sizes of the outcome sets. */
  lemma CountsAreSetSizes(spec: MethodSpec, reales: seq<Sample>, falsos: seq<Sample>)
    ensures var r := Discriminate(spec, reales, falsos);
      && r.realCount == |set x | x in r.outcomesReal|
      && r.fakeCount == |set x | x in r.outcomesFake|
      && r.overlapCount == |set x | x in r.outcomesOverlap|
  {
    var r := Discriminate(spec, reales, falsos);
    SortedIsDistinct(r.outcomesReal);
    SortedIsDistinct(r.outcomesFake);
    SortedIsDistinct(r.outcomesOverlap);
    DistinctCardinality(r.outcomesReal);
    DistinctCardinality(r.outcomesFake);
    DistinctCardinality(r.outcomesOverlap);
  }

  /** The entry depends only on which samples were taken, not on their order or repetition. */
  lemma SampleOrderIrrelevant(spec: MethodSpec, reales: seq<Sample>, falsos: seq<Sample>,
                              reales2: seq<Sample>, falsos2: seq<Sample>)
    requires forall e :: e in reales <==> e in reales2
    requires forall e :: e in falsos <==> e in falsos2
    ensures Discriminate(spec, reales, falsos) == Discriminate(spec, reales2, falsos2)
  {
    var a := Discriminate(spec, reales, falsos);
    var b := Discriminate(spec, reales2, falsos2);
    assert forall x :: Observed(spec.kind, reales, x) <==> Observed(spec.kind, reales2, x);
    assert forall x :: Observed(spec.kind, falsos, x) <==> Observed(spec.kind, falsos2, x);
    SortedUnique(a.outcomesReal, b.outcomesReal);
    SortedUnique(a.outcomesFake, b.outcomesFake);
    SortedUnique(a.outcomesOverlap, b.outcomesOverlap);
  }
}

=== FILE: heuristic.dfy ===
/** The existence heuristic the searcher falls back on when no method decided: site-specific
    profile signals for two hosts and a generic "user name next to profile counters" rule. */
module Heuristic {
  import opened Wrappers
  import opened Text
  import opened Decision

  /** The counter words the generic rule looks for in the page text. */
  const ProfileKeywords: seq<string> :=
    ["followers", "seguidores", "following", "siguiendo", "posts", "publicaciones", "likes", "me gusta"]

  // ---------------------------------------------------------------- host

  /** The host of a URL that starts right here: `http://` or `https://`, then at least one
      character other than `/`, up to the next `/` (which must exist). */
  function HostAt(s: string): (r: Option<string>)
    ensures r.Some? ==> |r.value| > 0 && '/' !in r.value
  {
    var rest :=
      if |s| >= 8 && s[..8] == "https://" then Some(s[8..])
      else if |s| >= 7 && s[..7] == "http://" then Some(s[7..])
      else None;
    match rest
    case None => None
    case Some(t) =>
      match IndexOf(t, '/')
      case Some(j) => if j > 0 then Some(t[..j]) else None
      case None => None
  }

  /** The leftmost such host anywhere in the URL (a regular-expression search). */
  function HostSearch(s: string): (r: Option<string>)
    ensures r.Some? ==> |r.value| > 0 && '/' !in r.value
    ensures HostAt(s).Some? ==> r == HostAt(s)
    ensures r.None? ==> HostAt(s).None?
    decreases |s|
  {
    if |s| == 0 then None
    else if HostAt(s).Some? then HostAt(s)
    else HostSearch(s[1..])
  }

  /** The host of the final URL, lower-cased, or empty when none is found. */
  function Host(finalUrl: string): (h: string)
    ensures '/' !in h
  {
    var found := HostSearch(finalUrl).GetOr("");
    var h := Lower(found);
    assert forall i | 0 <= i < |h| :: h[i] != '/' by {
      forall i | 0 <= i < |h|
        ensures h[i] != '/'
      {
        assert found[i] in found;
      }
    }
    h
  }

  /** A URL of the form `scheme://host/rest` has that host, lower-cased. */
  lemma HostOfUrl(secure: bool, h: string, rest: string)
    requires |h| > 0 && '/' !in h
    ensures Host((if secure then "https://" else "http://") + h + "/" + rest) == Lower(h)
  {
    if secure {
      HostAtHttps(h, rest);
    } else {
      HostAtHttp(h, rest);
    }
  }

  lemma HostAtHttps(h: string, rest: string)
    requires |h| > 0 && '/' !in h
    ensures HostAt("https://" + h + "/" + rest) == Some(h)
  {
    var u := "https://" + h + "/" + rest;
    assert u[..8] == "https://";
    assert u[8..] == h + "/" + rest;
    HostTail(h, rest);
  }

  lemma HostAtHttp(h: string, rest: string)
    requires |h| > 0 && '/' !in h
    ensures HostAt("http://" + h + "/" + rest) == Some(h)
  {
    var u := "http://" + h + "/" + rest;
    assert u[4] == ':';
    assert u[..7] == "http://";
    assert u[7..] == h + "/" + rest;
    HostTail(h, rest);
  }

  lemma HostTail(h: string, rest: string)
    requires '/' !in h
    ensures IndexOf(h + "/" + rest, '/') == Some(|h|)
    ensures (h + "/" + rest)[..|h|] == h
  {
    IndexOfAfter(h, '/', rest);
  }

  // ---------------------------------------------------------------- page text

  /** The page with its tags replaced by spaces, whitespace runs collapsed, lower-cased. */
  function Plain(html: string): (r: string)
    ensures |r| <= |html|
  {
    Lower(CollapseWhitespace(StripTags(html)))
  }

  /** Lower-case text without markup and with single spaces is its own plain text: the page
      text keeps every word and only normalises tags, spacing and case. */
  lemma PlainOfText(text: string)
    requires '<' !in text
    requires SingleSpaced(text)
    requires forall i | 0 <= i < |text| :: LowerChar(text[i]) == text[i]
    ensures Plain(text) == text
  {
    CollapseSingleSpaced(text);
    LowerFixed(text);
  }

  /** Any whitespace character between two lower-case words reads as one plain space, so
      `"me\U{00A0}gusta"` is seen as `"me gusta"`. */
  lemma PlainSpaceBetween(a: string, c: char, b: string)
    requires '<' !in a && '<' !in b
    requires NoSpace(a) && NoSpace(b) && IsSpace(c)
    requires forall i | 0 <= i < |a| :: LowerChar(a[i]) == a[i]
    requires forall i | 0 <= i < |b| :: LowerChar(b[i]) == b[i]
    ensures Plain(a + [c] + b) == a + " " + b
  {
    var s := a + [c] + b;
    assert '<' !in s;
    CollapseSpaceBetween(a, c, b);
    var t := a + " " + b;
    forall i | 0 <= i < |t|
      ensures LowerChar(t[i]) == t[i]
    {
      if i < |a| {
        assert t[i] == a[i];
      } else if i > |a| {
        assert t[i] == b[i - |a| - 1];
      }
    }
    LowerFixed(t);
  }

  /** `<title[^>]*>(.*?)</title>` matches the lower-cased page at `i` with its group spanning
      `a..b`: the `>` closing the tag is the first after `<title`, and the group stops at the
      first `</title>` after it. */
  predicate TitleMatch(low: string, i: nat, a: nat, b: nat) {
    && OccursAt(low, "<title", i)
    && i + 6 < a <= b <= |low|
    && low[a - 1] == '>' && '>' !in low[i + 6..a - 1]
    && OccursAt(low, "</title>", b)
    && forall k: nat | a <= k < b :: !OccursAt(low, "</title>", k)
  }

  /** Where the text of the first `<title ...>` element lies in the lower-cased page: the
      search finds a span iff the pattern matches somewhere, and then it is the match that
      starts at the first `<title`. */
  function TitleSpan(low: string): (r: Option<(nat, nat)>)
    ensures r.Some? ==> r.value.0 <= r.value.1 <= |low| && OccursAt(low, "</title>", r.value.1)
    ensures r.Some? <==> exists i: nat, a: nat, b: nat :: TitleMatch(low, i, a, b)
    ensures r.Some? ==> exists i: nat ::
      && TitleMatch(low, i, r.value.0, r.value.1)
      && forall j: nat | j < i :: !OccursAt(low, "<title", j)
  {
    match Find(low, "<title")
    case None =>
      NoTitleOpen(low);
      None
    case Some(i) =>
      match IndexOf(low[i + 6..], '>')
      case None =>
        NoTagEnd(low, i);
        None
      case Some(k) =>
        assert low[i + 6..][..k] == low[i + 6..i + 6 + k];
        var start := i + 6 + k + 1;
        match Find(low[start..], "</title>")
        case None =>
          NoTitleClose(low, i, start);
          None
        case Some(j) =>
          TitleMatchFound(low, i, start, j);
          OccursInSuffix(low, "</title>", start, j);
          Some((start, start + j))
  }

  lemma NoTitleOpen(low: string)
    requires !Contains(low, "<title")
    ensures forall i: nat, a: nat, b: nat :: !TitleMatch(low, i, a, b)
  {
  }

  /** No `>` after the first `<title`: no later `<title` can close either. */
  lemma NoTagEnd(low: string, i0: nat)
    requires i0 + 6 <= |low| && forall j: nat | j < i0 :: !OccursAt(low, "<title", j)
    requires '>' !in low[i0 + 6..]
    ensures forall i: nat, a: nat, b: nat :: !TitleMatch(low, i, a, b)
  {
  }

  /** No `</title>` after the tag that opens the first `<title`: no match anywhere. */
  lemma NoTitleClose(low: string, i0: nat, start: nat)
    requires i0 + 6 < start <= |low| && forall j: nat | j < i0 :: !OccursAt(low, "<title", j)
    requires low[start - 1] == '>' && '>' !in low[i0 + 6..start - 1]
    requires Find(low[start..], "</title>").None?
    ensures forall i: nat, a: nat, b: nat :: !TitleMatch(low, i, a, b)
  {
    forall i: nat, a: nat, b: nat | TitleMatch(low, i, a, b)
      ensures false
    {
      if a >= start {
        OccursInSuffixIff(low, "</title>", start, b - start);
      }
    }
  }

  lemma TitleMatchFound(low: string, i: nat, start: nat, j: nat)
    requires OccursAt(low, "<title", i)
    requires i + 6 < start <= |low| && low[start - 1] == '>' && '>' !in low[i + 6..start - 1]
    requires OccursAt(low[start..], "</title>", j)
    requires forall m: nat | m < j :: !OccursAt(low[start..], "</title>", m)
    ensures TitleMatch(low, i, start, start + j)
  {
    OccursInSuffix(low, "</title>", start, j);
    forall k: nat | start <= k < start + j
      ensures !OccursAt(low, "</title>", k)
    {
      OccursInSuffixIff(low, "</title>", start, k - start);
    }
  }

  /** The first title element's text, stripped and lower-cased; empty when the page has no
      complete title element. Tag names match ignoring case. */
  function Title(html: string): (t: string)
    ensures t != "" ==> Contains(Lower(html), "</title>")
    ensures (forall i: nat, a: nat, b: nat :: !TitleMatch(Lower(html), i, a, b)) ==> t == ""
  {
    match TitleSpan(Lower(html))
    case None => ""
    case Some((a, b)) => Lower(Strip(html[a..b]))
  }

  /** The title is the group of the leftmost match, cut from the page as written, stripped
      and lower-cased. */
  lemma TitleOfMatch(html: string, i: nat, a: nat, b: nat)
    requires TitleMatch(Lower(html), i, a, b)
    requires forall j: nat | j < i :: !OccursAt(Lower(html), "<title", j)
    ensures a <= b <= |html|
    ensures Title(html) == Lower(Strip(html[a..b]))
  {
    var low := Lower(html);
    var v := TitleSpan(low).value;
    var i2: nat :| TitleMatch(low, i2, v.0, v.1) && forall j: nat | j < i2 :: !OccursAt(low, "<title", j);
    assert i2 == i;
    TitleMatchUnique(low, i, a, b, v.0, v.1);
  }

  /** A page that opens with a bare title element whose text has no tag inside. */
  lemma TitleOfPage(body: string, rest: string)
    requires '<' !in body
    ensures Title("<title>" + body + "</title>" + rest) == Lower(Strip(body))
  {
    var html := "<title>" + body + "</title>" + rest;
    TitleSpanOfPage(body, rest);
    TitleFromSpan(html, 7, 7 + |body|);
    Middle("<title>", body, "</title>", rest);
  }

  lemma TitleFromSpan(html: string, a: nat, b: nat)
    requires TitleSpan(Lower(html)) == Some((a, b))
    ensures a <= b <= |html|
    ensures Title(html) == Lower(Strip(html[a..b]))
  {
  }

  /** The second piece of a four-piece concatenation. */
  lemma Middle(a: string, b: string, c: string, d: string)
    ensures (a + b + c + d)[|a|..|a| + |b|] == b
  {
    assert a + b + c + d == a + b + (c + d);
  }

  lemma TitleSpanOfPage(body: string, rest: string)
    requires '<' !in body
    ensures TitleSpan(Lower("<title>" + body + "</title>" + rest)) == Some((7, 7 + |body|))
  {
    LowerPage(body, rest);
    LowerKeepsAngle(body);
    TitleSpanOfLowered(Lower(body), Lower(rest));
  }

  lemma TitleSpanOfLowered(b: string, r: string)
    requires '<' !in b
    ensures TitleSpan("<title>" + b + "</title>" + r) == Some((7, 7 + |b|))
  {
    var low := "<title>" + b + "</title>" + r;
    TitleMatchAtStart(b, r);
    var v := TitleSpan(low).value;
    var i: nat :| TitleMatch(low, i, v.0, v.1) && forall j: nat | j < i :: !OccursAt(low, "<title", j);
    assert i == 0;
    TitleMatchUnique(low, 0, 7, 7 + |b|, v.0, v.1);
  }

  /** A page opening with `<title>` matches there, with the group up to the first `</title>`. */
  lemma TitleMatchAtStart(b: string, r: string)
    requires '<' !in b
    ensures TitleMatch("<title>" + b + "</title>" + r, 0, 7, 7 + |b|)
  {
    var low := "<title>" + b + "</title>" + r;
    assert low[..6] == "<title";
    assert low[6] == '>' && low[6..6] == [];
    assert low[7 + |b|..7 + |b| + 8] == "</title>";
    forall k: nat | 7 <= k < 7 + |b|
      ensures !OccursAt(low, "</title>", k)
    {
      assert low[k] == b[k - 7];
      assert b[k - 7] in b;
    }
  }

  /** The `>` ending the tag and the first `</title>` after it are determined by the start. */
  lemma TitleMatchUnique(low: string, i: nat, a: nat, b: nat, a2: nat, b2: nat)
    requires TitleMatch(low, i, a, b) && TitleMatch(low, i, a2, b2)
    ensures a == a2 && b == b2
  {
  }

  lemma LowerPage(body: string, rest: string)
    ensures Lower("<title>" + body + "</title>" + rest) == "<title>" + Lower(body) + "</title>" + Lower(rest)
  {
    LowerConcat("<title>" + body + "</title>", rest);
    LowerConcat("<title>" + body, "</title>");
    LowerConcat("<title>", body);
    LowerFixed("<title>");
    LowerFixed("</title>");
  }

  lemma LowerKeepsAngle(s: string)
    requires '<' !in s
    ensures '<' !in Lower(s)
  {
    forall k | 0 <= k < |s|
      ensures Lower(s)[k] != '<'
    {
      assert s[k] in s;
    }
  }

  lemma FirstClose(a: string, b: string)
    requires '<' !in a
    ensures Find(a + "</title>" + b, "</title>") == Some(|a|)
  {
    var t := a + "</title>" + b;
    assert t[|a|..|a| + 8] == "</title>";
    assert OccursAt(t, "</title>", |a|);
    forall k: nat | k < |a|
      ensures !OccursAt(t, "</title>", k)
    {
      assert t[k] == a[k];
      assert a[k] in a;
    }
  }

  // ---------------------------------------------------------------- rules

  /** Profile signals on a short-video site: the `@user` handle in the text, a `uniqueId`
      field in the embedded state, or an `og:url` tag together with the handle anywhere. */
  predicate TikTokSignal(u: string, html: string) {
    Contains(Plain(html), "@" + u)
    || Contains(Lower(html), "uniqueid\":\"")
    || (Contains(Lower(html), "og:url") && Contains(Lower(html), "@" + u))
  }

  /** Profile signals on a pin-board site: a profile page type, and the user in the final URL
      or in the text. */
  predicate PinterestSignal(u: string, finalUrl: string, html: string) {
    (Contains(Lower(html), "property=\"og:type\" content=\"profile\"") || Contains(Plain(html), "profile"))
    && (Contains(Lower(finalUrl), u) || Contains(Plain(html), u))
  }

  /** The generic rule: the user appears in the title or the text, and so does one of the
      counter words. */
  predicate GenericSignal(u: string, html: string) {
    Contains(Title(html) + Plain(html), u)
    && exists k | k in ProfileKeywords :: Contains(Plain(html), k)
  }

  /** The heuristic verdict for `user` on the captured page `html` reached at `finalUrl`. It
      can confirm existence but never deny it. */
  function HeuristicVerdict(user: string, finalUrl: string, html: string): (v: Verdict)
    ensures v != NotExists
    ensures v == Exists <==>
      || (Contains(Host(finalUrl), "tiktok.com") && TikTokSignal(Lower(user), html))
      || (Contains(Host(finalUrl), "pinterest.com") && PinterestSignal(Lower(user), finalUrl, html))
      || GenericSignal(Lower(user), html)
  {
    var u := Lower(user);
    var host := Host(finalUrl);
    if Contains(host, "tiktok.com") && TikTokSignal(u, html) then Exists
    else if Contains(host, "pinterest.com") && PinterestSignal(u, finalUrl, html) then Exists
    else if GenericSignal(u, html) then Exists
    else Indeterminate
  }

  /** Away from the two special hosts only the generic rule can confirm existence. */
  lemma OtherHostsGenericOnly(user: string, finalUrl: string, html: string)
    requires !Contains(Host(finalUrl), "tiktok.com") && !Contains(Host(finalUrl), "pinterest.com")
    ensures HeuristicVerdict(user, finalUrl, html) == Exists <==> GenericSignal(Lower(user), html)
  {
  }

  /** A final URL without a recognisable host has an empty host, so the site rules are
      skipped. */
  lemma NoHostNoSiteRules(user: string, finalUrl: string, html: string)
    requires forall i | 0 <= i <= |finalUrl| :: HostAt(finalUrl[i..]).None?
    ensures Host(finalUrl) == ""
    ensures HeuristicVerdict(user, finalUrl, html) == Exists <==> GenericSignal(Lower(user), html)
  {
    NoHostFound(finalUrl);
    NotContainsFirstChar("", "tiktok.com");
    NotContainsFirstChar("", "pinterest.com");
  }

  lemma {:induction false} NoHostFound(s: string)
    requires forall i | 0 <= i <= |s| :: HostAt(s[i..]).None?
    ensures HostSearch(s).None?
    decreases |s|
  {
    if |s| > 0 {
      assert HostAt(s[0..]).None?;
      assert s[0..] == s;
      forall i | 0 <= i <= |s[1..]|
        ensures HostAt(s[1..][i..]).None?
      {
        assert s[1..][i..] == s[i + 1..];
      }
      NoHostFound(s[1..]);
    }
  }

  /** On a short-video profile URL, a page carrying a `uniqueId` field confirms existence,
      whatever the user. */
  lemma TikTokUniqueId(h: string, rest: string, user: string, html: string)
    requires |h| > 0 && '/' !in h && Contains(Lower(h), "tiktok.com")
    requires Contains(Lower(html), "uniqueid\":\"")
    ensures HeuristicVerdict(user, "https://" + h + "/" + rest, html) == Exists
  {
    HostOfUrl(true, h, rest);
  }

  /** A page without any counter word and away from the special hosts is never confirmed,
      however often the user appears on it. */
  lemma NoCountersUndecided(user: string, finalUrl: string, html: string)
    requires !Contains(Host(finalUrl), "tiktok.com") && !Contains(Host(finalUrl), "pinterest.com")
    requires forall k | k in ProfileKeywords :: !Contains(Plain(html), k)
    ensures HeuristicVerdict(user, finalUrl, html) == Indeterminate
  {
  }

  /** The user is compared ignoring case. */
  lemma UserCaseIgnored(user: string, finalUrl: string, html: string)
    ensures HeuristicVerdict(Lower(user), finalUrl, html) == HeuristicVerdict(user, finalUrl, html)
  {
    LowerIdempotent(user);
  }

  lemma LowerIdempotent(s: string)
    ensures Lower(Lower(s)) == Lower(s)
  {
  }
}

=== FILE: learner_signature.dfy ===
/** The learner's outcome-signature extractor: what one method observed for one probe, as a
    short string that is stored and later compared for exact equality. */
module LearnerSignature {
  import opened Wrappers
  import opened Text
  import opened Order
  import opened Probe
  import opened Methods

  /** The challenge markers the learner looks for, in its own spelling (mixed case; compared
      after lower-casing both sides). */
  const CaptchaMarkers: seq<string> :=
    ["captcha", "cf-challenge", "hcaptcha", "g-recaptcha", "Cloudflare", "Attention Required!",
     "/cdn-cgi/challenge-platform", "Are you a human", "Just a moment..."]

  /** Some marker occurs in the text, ignoring case. */
  predicate DetectCaptcha(text: string) {
    exists m | m in CaptchaMarkers :: Contains(Lower(text), Lower(m))
  }

  /** Python's rendering of a boolean in an f-string. */
  function PyBool(b: bool): string {
    if b then "True" else "False"
  }

  /** Every key of the list occurs in `txt` once lower-cased. */
  predicate AllKeysIn(keys: seq<string>, txt: string) {
    forall k | k in keys :: Contains(txt, Lower(k))
  }

  /** Some key of the list occurs in `txt` once lower-cased. */
  predicate AnyKeyIn(keys: seq<string>, txt: string) {
    exists k | k in keys :: Contains(txt, Lower(k))
  }

  /** The text the containment methods search: the effective text, lower-cased. */
  function SearchText(e: Sample): string {
    Lower(EffectiveText(e))
  }

  /** The plain response parsed as a JSON object, and every one of the first five configured keys
      is one of its keys. */
  predicate JsonHit(presentKeys: seq<string>, r: Resp) {
    r.isJson && r.jsonKeys.Some? && forall k | k in Take(presentKeys, 5) :: k in r.jsonKeys.value
  }

  /** The signature of method `kind` on sample `e`, or None for an unrecognised type. Only the
      first five keys are checked for the three key-list types that say so; the keyword type
      tests them all. */
  function Signature(kind: Kind, e: Sample): (r: Option<string>)
    ensures r.None? <==> kind.Unrecognised?
    ensures r != Some("None")
    ensures kind.StatusCode? ==> r == Some("status=" + IntToString(e.http.status))
    ensures kind.UrlCheck? || kind.RedirectCheck? ==> r == Some("final_url=" + FinalUrl(e))
  {
    match kind
    case StatusCode => Some("status=" + IntToString(e.http.status))
    case UrlCheck => Some("final_url=" + FinalUrl(e))
    case RedirectCheck => Some("final_url=" + FinalUrl(e))
    case StatusCodeAndText(code, mustContain) =>
      var hit := code == Some(e.http.status) && AllKeysIn(Take(mustContain, 5), SearchText(e));
      Some("status_text_hit=" + PyBool(hit))
    case HtmlContains(keys) =>
      var hit := if |keys| > 0 then AllKeysIn(Take(keys, 5), SearchText(e)) else false;
      Some("html_hit=" + PyBool(hit))
    case JsonResponseCheck(presentKeys) =>
      if e.http.isJson && e.http.jsonKeys.Some? then Some("json_hit=" + PyBool(JsonHit(presentKeys, e.http)))
      else Some("json_hit=False")
    case CaptchaDetect => Some("captcha=" + PyBool(DetectCaptcha(EffectiveText(e))))
    case KeywordCheck(keywords) => Some("kw_hit=" + PyBool(AnyKeyIn(keywords, SearchText(e))))
    case CustomSelectorCheck => Some("dom_loaded=" + PyBool(e.sel.Some?))
    case Unrecognised(_) => None
  }

  /** `tag=True` when the condition holds and `tag=False` otherwise: the two outcomes of a
      boolean method are distinct strings. */
  lemma FlagOutcome(tag: string, b: bool)
    ensures tag + PyBool(b) == tag + "True" <==> b
    ensures tag + PyBool(b) == tag + "True" || tag + PyBool(b) == tag + "False"
  {
    if !b {
      assert (tag + "False")[|tag|] != (tag + "True")[|tag|];
    }
  }

  /** What each boolean method type reports: its flag is `True` exactly when its condition
      holds on the sample, and `False` otherwise. */
  lemma SignatureFlags(kind: Kind, e: Sample)
    ensures kind.StatusCodeAndText? ==>
      && (Signature(kind, e) == Some("status_text_hit=True")
          <==> kind.code == Some(e.http.status) && AllKeysIn(Take(kind.mustContain, 5), SearchText(e)))
      && (Signature(kind, e) == Some("status_text_hit=True") || Signature(kind, e) == Some("status_text_hit=False"))
    ensures kind.HtmlContains? ==>
      && (Signature(kind, e) == Some("html_hit=True")
          <==> |kind.keys| > 0 && AllKeysIn(Take(kind.keys, 5), SearchText(e)))
      && (Signature(kind, e) == Some("html_hit=True") || Signature(kind, e) == Some("html_hit=False"))
    ensures kind.JsonResponseCheck? ==>
      && (Signature(kind, e) == Some("json_hit=True") <==> JsonHit(kind.presentKeys, e.http))
      && (Signature(kind, e) == Some("json_hit=True") || Signature(kind, e) == Some("json_hit=False"))
    ensures kind.CaptchaDetect? ==>
      && (Signature(kind, e) == Some("captcha=True") <==> DetectCaptcha(EffectiveText(e)))
      && (Signature(kind, e) == Some("captcha=True") || Signature(kind, e) == Some("captcha=False"))
    ensures kind.KeywordCheck? ==>
      && (Signature(kind, e) == Some("kw_hit=True") <==> AnyKeyIn(kind.keywords, SearchText(e)))
      && (Signature(kind, e) == Some("kw_hit=True") || Signature(kind, e) == Some("kw_hit=False"))
    ensures kind.CustomSelectorCheck? ==>
      && (Signature(kind, e) == Some("dom_loaded=True") <==> e.sel.Some?)
      && (Signature(kind, e) == Some("dom_loaded=True") || Signature(kind, e) == Some("dom_loaded=False"))
  {
    match kind {
      case StatusCodeAndText(_, _) => StatusTextFlag(kind, e);
      case HtmlContains(_) => HtmlFlag(kind, e);
      case JsonResponseCheck(_) => JsonFlag(kind, e);
      case CaptchaDetect => CaptchaFlag(e);
      case KeywordCheck(_) => KeywordFlag(kind, e);
      case CustomSelectorCheck => SelectorFlag(e);
      case _ =>
    }
  }

  lemma StatusTextFlag(kind: Kind, e: Sample)
    requires kind.StatusCodeAndText?
    ensures Signature(kind, e) == Some("status_text_hit=True")
      <==> kind.code == Some(e.http.status) && AllKeysIn(Take(kind.mustContain, 5), SearchText(e))
    ensures Signature(kind, e) == Some("status_text_hit=True") || Signature(kind, e) == Some("status_text_hit=False")
  {
    assert "status_text_hit=" + "True" == "status_text_hit=True" && "status_text_hit=" + "False" == "status_text_hit=False";
    FlagOutcome("status_text_hit=", kind.code == Some(e.http.status) && AllKeysIn(Take(kind.mustContain, 5), SearchText(e)));
  }

  lemma HtmlFlag(kind: Kind, e: Sample)
    requires kind.HtmlContains?
    ensures Signature(kind, e) == Some("html_hit=True") <==> |kind.keys| > 0 && AllKeysIn(Take(kind.keys, 5), SearchText(e))
    ensures Signature(kind, e) == Some("html_hit=True") || Signature(kind, e) == Some("html_hit=False")
  {
    assert "html_hit=" + "True" == "html_hit=True" && "html_hit=" + "False" == "html_hit=False";
    FlagOutcome("html_hit=", |kind.keys| > 0 && AllKeysIn(Take(kind.keys, 5), SearchText(e)));
  }

  lemma JsonFlag(kind: Kind, e: Sample)
    requires kind.JsonResponseCheck?
    ensures Signature(kind, e) == Some("json_hit=True") <==> JsonHit(kind.presentKeys, e.http)
    ensures Signature(kind, e) == Some("json_hit=True") || Signature(kind, e) == Some("json_hit=False")
  {
    assert "json_hit=" + "True" == "json_hit=True" && "json_hit=" + "False" == "json_hit=False";
    FlagOutcome("json_hit=", JsonHit(kind.presentKeys, e.http));
  }

  lemma CaptchaFlag(e: Sample)
    ensures Signature(CaptchaDetect, e) == Some("captcha=True") <==> DetectCaptcha(EffectiveText(e))
    ensures Signature(CaptchaDetect, e) == Some("captcha=True") || Signature(CaptchaDetect, e) == Some("captcha=False")
  {
    assert "captcha=" + "True" == "captcha=True" && "captcha=" + "False" == "captcha=False";
    FlagOutcome("captcha=", DetectCaptcha(EffectiveText(e)));
  }

  lemma KeywordFlag(kind: Kind, e: Sample)
    requires kind.KeywordCheck?
    ensures Signature(kind, e) == Some("kw_hit=True") <==> AnyKeyIn(kind.keywords, SearchText(e))
    ensures Signature(kind, e) == Some("kw_hit=True") || Signature(kind, e) == Some("kw_hit=False")
  {
    assert "kw_hit=" + "True" == "kw_hit=True" && "kw_hit=" + "False" == "kw_hit=False";
    FlagOutcome("kw_hit=", AnyKeyIn(kind.keywords, SearchText(e)));
  }

  lemma SelectorFlag(e: Sample)
    ensures Signature(CustomSelectorCheck, e) == Some("dom_loaded=True") <==> e.sel.Some?
    ensures Signature(CustomSelectorCheck, e) == Some("dom_loaded=True") || Signature(CustomSelectorCheck, e) == Some("dom_loaded=False")
  {
    assert "dom_loaded=" + "True" == "dom_loaded=True" && "dom_loaded=" + "False" == "dom_loaded=False";
    FlagOutcome("dom_loaded=", e.sel.Some?);
  }

  /** A transport failure is still observed: the status-code method reads it as `status=-1`. */
  lemma TransportFailureSignature(url: string, error: string, sel: Option<Resp>)
    ensures Signature(StatusCode, Sample(TransportFailure(url, error), sel)) == Some("status=-1")
  {
    assert NatToString(1) == "1";
    assert IntToString(-1) == "-1";
    assert "status=" + "-1" == "status=-1";
  }

  /** Keys after the fifth are never checked by the three key-list types that cap the list. */
  lemma OnlyFirstFiveKeys(keys: seq<string>, code: Option<int>, e: Sample)
    ensures Signature(HtmlContains(keys), e) == Signature(HtmlContains(Take(keys, 5)), e)
    ensures Signature(StatusCodeAndText(code, keys), e) == Signature(StatusCodeAndText(code, Take(keys, 5)), e)
    ensures Signature(JsonResponseCheck(keys), e) == Signature(JsonResponseCheck(Take(keys, 5)), e)
  {
    assert Take(Take(keys, 5), 5) == Take(keys, 5);
  }

  /** An `html_contains` method without keys never hits, whatever the page. */
  lemma EmptyHtmlKeysMiss(e: Sample)
    ensures Signature(HtmlContains([]), e) == Some("html_hit=False")
  {
    assert "html_hit=" + PyBool(false) == "html_hit=False";
  }

  /** Unless the plain response parsed as a JSON object, the JSON method misses, whatever its
      keys; the rendered response is never consulted. */
  lemma JsonNeedsPlainObject(keys: seq<string>, e: Sample)
    requires !e.http.isJson || e.http.jsonKeys.None?
    ensures Signature(JsonResponseCheck(keys), e) == Some("json_hit=False")
  {
  }
}

=== FILE: methods.dfy ===
/** Detection methods: the closed set of method types with the parameters each one reads. */
module Methods {
  import opened Wrappers

  /** A method type with its own parameters. The catalog stores the type as a string and the
      parameters as a loose map; here each type carries exactly the parameters its signature
      reads (`codigo` and `debe_contener`, `claves`, `claves_presentes`). The captcha marker
      list and the CSS selectors stored with two of the types are never read and are dropped.
      `Unrecognised` stands for any type string outside the known ones. */
  datatype Kind =
    | StatusCode
    | UrlCheck
    | RedirectCheck
    | StatusCodeAndText(code: Option<int>, mustContain: seq<string>)
    | HtmlContains(keys: seq<string>)
    | JsonResponseCheck(presentKeys: seq<string>)
    | CaptchaDetect
    | KeywordCheck(keywords: seq<string>)
    | CustomSelectorCheck
    | Unrecognised(name: string)

  /** The type string the catalog stores for each kind. */
  function TypeName(k: Kind): string {
    match k
    case StatusCode => "status_code"
    case UrlCheck => "url_check"
    case RedirectCheck => "redirect_check"
    case StatusCodeAndText(_, _) => "status_code_y_texto"
    case HtmlContains(_) => "html_contains"
    case JsonResponseCheck(_) => "json_response_check"
    case CaptchaDetect => "captcha_detect"
    case KeywordCheck(_) => "palabras_clave"
    case CustomSelectorCheck => "custom_selector_check"
    case Unrecognised(name) => name
  }

  /** A method definition: the site it belongs to, the URL template probed for an identity,
      and the method type. Free-text evidence notes are not modelled. */
  datatype MethodSpec = MethodSpec(site: string, urlBase: string, kind: Kind)
}

=== FILE: order.dfy ===
/** Python's ordering of strings and the `sorted(set(...))`, filtering and slicing idioms the
    learner and the pruner use to produce their lists. */
module Order {

  /** Python's `<` on `str`: lexicographic by code point, a proper prefix first. */
  predicate LexLess(a: string, b: string)
    decreases |a|
  {
    if |a| == 0 then |b| > 0
    else |b| > 0 && (a[0] < b[0] || (a[0] == b[0] && LexLess(a[1..], b[1..])))
  }

  lemma {:induction false} LexIrreflexive(a: string)
    ensures !LexLess(a, a)
    decreases |a|
  {
    if |a| > 0 {
      LexIrreflexive(a[1..]);
    }
  }

  lemma {:induction false} LexAsymmetric(a: string, b: string)
    requires LexLess(a, b)
    ensures !LexLess(b, a)
    decreases |a|
  {
    if |a| > 0 && a[0] == b[0] {
      LexAsymmetric(a[1..], b[1..]);
    }
  }

  lemma {:induction false} LexTransitive(a: string, b: string, c: string)
    requires LexLess(a, b) && LexLess(b, c)
    ensures LexLess(a, c)
    decreases |a|
  {
    if |a| > 0 && a[0] == b[0] && b[0] == c[0] {
      LexTransitive(a[1..], b[1..], c[1..]);
    }
  }

  lemma {:induction false} LexTotal(a: string, b: string)
    ensures a == b || LexLess(a, b) || LexLess(b, a)
    decreases |a|
  {
    if |a| > 0 && |b| > 0 && a[0] == b[0] {
      LexTotal(a[1..], b[1..]);
      if a[1..] == b[1..] {
        assert a == [a[0]] + a[1..] && b == [b[0]] + b[1..];
      }
    }
  }

  predicate StrictlySorted(s: seq<string>) {
    forall i, j :: 0 <= i < j < |s| ==> LexLess(s[i], s[j])
  }

  predicate Distinct<T(==)>(s: seq<T>) {
    forall i, j :: 0 <= i < j < |s| ==> s[i] != s[j]
  }

  lemma SortedIsDistinct(s: seq<string>)
    requires StrictlySorted(s)
    ensures Distinct(s)
  {
    forall i, j | 0 <= i < j < |s|
      ensures s[i] != s[j]
    {
      LexAsymmetric(s[i], s[j]);
    }
  }

  /** Inserts `x` into a strictly sorted list unless it is already there. */
  function InsertSorted(x: string, s: seq<string>): (r: seq<string>)
    requires StrictlySorted(s)
    ensures StrictlySorted(r)
    ensures forall y :: y in r <==> y == x || y in s
    ensures |r| <= |s| + 1
  {
    if |s| == 0 then [x]
    else if x == s[0] then s
    else if LexLess(x, s[0]) then
      LessThanSortedHead(x, s);
      [x] + s
    else
      LexTotal(x, s[0]);
      var t := InsertSorted(x, s[1..]);
      assert forall k :: 0 <= k < |t| ==> LexLess(s[0], t[k]) by {
        forall k | 0 <= k < |t|
          ensures LexLess(s[0], t[k])
        {
          assert t[k] in t;
          if t[k] != x {
            var m :| 1 <= m < |s| && s[m] == t[k];
          }
        }
      }
      [s[0]] + t
  }

  lemma LessThanSortedHead(x: string, s: seq<string>)
    requires StrictlySorted(s) && |s| > 0 && LexLess(x, s[0])
    ensures StrictlySorted([x] + s)
  {
    forall j | 1 <= j < |s|
      ensures LexLess(x, s[j])
    {
      LexTransitive(x, s[0], s[j]);
    }
  }

  /** Python's `sorted(set(xs))`: the distinct elements of `xs` in ascending order. */
  function SortedSet(xs: seq<string>): (r: seq<string>)
    ensures StrictlySorted(r)
    ensures forall y :: y in r <==> y in xs
    ensures |r| <= |xs|
    decreases |xs|
  {
    if |xs| == 0 then [] else InsertSorted(xs[0], SortedSet(xs[1..]))
  }

  /** Two strictly sorted lists holding the same elements are equal: `sorted(set(...))` is a
      canonical form, blind to the order and repetitions of its input. */
  lemma {:induction false} SortedUnique(a: seq<string>, b: seq<string>)
    requires StrictlySorted(a) && StrictlySorted(b)
    requires forall y :: y in a <==> y in b
    ensures a == b
    decreases |a|
  {
    if |a| > 0 {
      assert a[0] in a;
    }
    if |b| > 0 {
      assert b[0] in b;
    }
    if |a| > 0 && |b| > 0 {
      assert a[0] in b && b[0] in a;
      var i :| 0 <= i < |b| && b[i] == a[0];
      var j :| 0 <= j < |a| && a[j] == b[0];
      if i > 0 && j > 0 {
        LexAsymmetric(b[0], b[i]);
        assert false;
      }
      if i > 0 {
        assert j == 0;
        LexIrreflexive(a[0]);
        assert false;
      }
      if j > 0 {
        LexIrreflexive(b[0]);
        assert false;
      }
      forall y
        ensures y in a[1..] <==> y in b[1..]
      {
        if y in a[1..] {
          var k :| 1 <= k < |a| && a[k] == y;
          LexIrreflexive(a[0]);
          assert y != b[0];
          assert a[k] in a;
          assert y in b;
          var m :| 0 <= m < |b| && b[m] == y;
          assert b[1..][m - 1] == y;
        }
        if y in b[1..] {
          var k :| 1 <= k < |b| && b[k] == y;
          LexIrreflexive(b[0]);
          assert y != a[0];
          assert b[k] in b;
          assert y in a;
          var m :| 0 <= m < |a| && a[m] == y;
          assert a[1..][m - 1] == y;
        }
      }
      SortedUnique(a[1..], b[1..]);
      assert a == [a[0]] + a[1..] && b == [b[0]] + b[1..];
    }
  }

  /** The elements of `s` that satisfy `p`, in their original order (a list comprehension
      with an `if`). */
  function Filter<T(!new)>(s: seq<T>, p: T -> bool): (r: seq<T>)
    ensures |r| <= |s|
    ensures forall x :: x in r <==> x in s && p(x)
    ensures multiset(r) <= multiset(s)
    decreases |s|
  {
    if |s| == 0 then []
    else
      var rest := Filter(s[1..], p);
      assert s == [s[0]] + s[1..];
      if p(s[0]) then [s[0]] + rest else rest
  }

  /** Filtering a concatenation filters each part in turn. */
  lemma {:induction false} FilterConcat<T(!new)>(a: seq<T>, b: seq<T>, p: T -> bool)
    ensures Filter(a + b, p) == Filter(a, p) + Filter(b, p)
    decreases |a|
  {
    if |a| > 0 {
      assert (a + b)[1..] == a[1..] + b;
      FilterConcat(a[1..], b, p);
    } else {
      assert a + b == b;
    }
  }

  /** A list whose every element passes the test is its own filter. */
  lemma {:induction false} FilterAll<T(!new)>(s: seq<T>, p: T -> bool)
    requires forall x | x in s :: p(x)
    ensures Filter(s, p) == s
    decreases |s|
  {
    if |s| > 0 {
      assert forall x | x in s[1..] :: x in s;
      FilterAll(s[1..], p);
      assert s == [s[0]] + s[1..];
    }
  }

  /** Python's `s[:k]`. */
  function Take<T>(s: seq<T>, k: nat): (r: seq<T>)
    ensures |r| <= k && |r| <= |s|
    ensures |s| <= k ==> r == s
    ensures |s| > k ==> |r| == k
    ensures r == s[..|r|]
  {
    if |s| <= k then s else s[..k]
  }

  /** `kept` holds the smallest elements of `pool`: an element of the pool is left out only
      when `cap` elements were kept, every one of them smaller than it. */
  predicate KeepsSmallest(kept: seq<string>, pool: seq<string>, cap: nat) {
    forall w | w in pool && w !in kept :: |kept| == cap && forall v | v in kept :: LexLess(v, w)
  }

  /** `sorted(set(xs))[:k]` keeps the `k` smallest distinct elements of `xs`, or all of them. */
  lemma TakeSmallest(xs: seq<string>, k: nat)
    ensures KeepsSmallest(Take(SortedSet(xs), k), xs, k)
  {
    var s := SortedSet(xs);
    var r := Take(s, k);
    forall w | w in xs && w !in r
      ensures |r| == k && forall v | v in r :: LexLess(v, w)
    {
      assert w in s;
      var m :| 0 <= m < |s| && s[m] == w;
      forall v | v in r
        ensures LexLess(v, w)
      {
        var i :| 0 <= i < |r| && r[i] == v;
        assert s[i] == v;
      }
    }
  }

  /** The size of the set of elements of a duplicate-free list is its length. */
  lemma {:induction false} DistinctCardinality<T>(s: seq<T>)
    requires Distinct(s)
    ensures |set x | x in s| == |s|
    decreases |s|
  {
    if |s| > 0 {
      var tail := s[1..];
      DistinctCardinality(tail);
      forall k | 0 <= k < |tail|
        ensures tail[k] != s[0]
      {
        assert tail[k] == s[k + 1];
      }
      assert (set x | x in s) == (set x | x in tail) + {s[0]};
    }
  }
}

=== FILE: probe.dfy ===
/** What one identity probe observed: the plain response, an optional rendered response, and
    the two derived views every method reads (effective text and final URL). */
module Probe {
  import opened Wrappers

  /** A normalized response. `status` is -1 after a transport failure. `jsonKeys` is the key
      list of the body when it parsed as a JSON object, and None otherwise (the parsed value
      itself is abstracted to its keys). Headers, timing and the channel tag are not modelled. */
  datatype Resp = Resp(finalUrl: string, status: int, text: string, isJson: bool, jsonKeys: Option<seq<string>>)

  /** One probe of one identity: the plain response and, when a browser was available and did
      not fail, the rendered one. */
  datatype Sample = Sample(http: Resp, sel: Option<Resp>)

  /** The response the plain channel produces when the request itself fails: the requested URL
      stays the final URL, the status is -1 and the body carries the error description. */
  function TransportFailure(url: string, error: string): (r: Resp)
    ensures r.status == -1 && r.finalUrl == url
    ensures !r.isJson && r.jsonKeys.None?
  {
    Resp(url, -1, "[HTTP_ERROR] " + error, false, None)
  }

  /** The body the methods read: the longer of the two bodies, the plain one on a tie or when
      nothing was rendered. */
  function EffectiveText(e: Sample): (t: string)
    ensures t == e.http.text || (e.sel.Some? && t == e.sel.value.text)
    ensures |t| >= |e.http.text|
    ensures e.sel.Some? ==> |t| >= |e.sel.value.text|
    ensures (e.sel.None? || |e.sel.value.text| <= |e.http.text|) ==> t == e.http.text
  {
    if e.sel.Some? && |e.sel.value.text| > |e.http.text| then e.sel.value.text else e.http.text
  }

  /** The final URL of a sample: the rendered one when it exists and is non-empty, since it
      was observed after client-side redirects settled; otherwise the plain one. */
  function FinalUrl(e: Sample): (u: string)
    ensures e.sel.Some? && e.sel.value.finalUrl != "" ==> u == e.sel.value.finalUrl
    ensures (e.sel.None? || e.sel.value.finalUrl == "") ==> u == e.http.finalUrl
    ensures u == "" ==> e.http.finalUrl == ""
  {
    if e.sel.Some? && e.sel.value.finalUrl != "" then e.sel.value.finalUrl else e.http.finalUrl
  }
}

=== FILE: pruning.dfy ===
/** The catalog pruner: the operator picks a base site name, then numbers among the methods
    whose name starts with it, and those methods are removed from the catalog. */
module Pruning {
  import opened Wrappers
  import opened Text
  import opened Order
  import opened Review

  /** The site name an entry is stored under. */
  function Name(s: Stored): string {
    s.entry.spec.site
  }

  /** `str.isalpha()`: non-empty and letters only. */
  predicate IsAlpha(s: string) {
    |s| > 0 && forall i | 0 <= i < |s| :: IsLetter(s[i])
  }

  predicate StartsWith(s: string, p: string) {
    |p| <= |s| && s[..|p|] == p
  }

  // ---------------------------------------------------------------- base names

  /** The longest all-letter prefix of `name` no longer than `i`, trying the longest first. */
  function AlphaPrefixUpTo(name: string, i: nat): (r: Option<string>)
    requires i <= |name|
    ensures r.Some? ==> IsAlpha(r.value) && |r.value| <= i && r.value == name[..|r.value|]
    ensures r.Some? ==> forall j | |r.value| < j <= i :: !IsAlpha(name[..j])
    ensures r.None? ==> forall j | 0 < j <= i :: !IsAlpha(name[..j])
    decreases i
  {
    if i == 0 then None
    else if IsAlpha(name[..i]) then Some(name[..i])
    else AlphaPrefixUpTo(name, i - 1)
  }

  /** The base of a site name: its longest all-letter prefix, if it starts with a letter. */
  function BaseName(name: string): (r: Option<string>)
    ensures r.Some? ==> IsAlpha(r.value) && StartsWith(name, r.value)
    ensures r.Some? ==> forall j | |r.value| < j <= |name| :: !IsAlpha(name[..j])
    ensures r.None? <==> |name| == 0 || !IsLetter(name[0])
  {
    var r := AlphaPrefixUpTo(name, |name|);
    assert |name| > 0 && IsLetter(name[0]) ==> IsAlpha(name[..1]);
    assert r.Some? ==> r.value[0] == name[0];
    r
  }

  /** The number of letters at the start of `name`. */
  function LeadingLetters(name: string): (n: nat)
    ensures n <= |name|
    decreases |name|
  {
    if |name| > 0 && IsLetter(name[0]) then 1 + LeadingLetters(name[1..]) else 0
  }

  lemma {:induction false} LeadingLettersSpan(name: string)
    ensures forall i | 0 <= i < LeadingLetters(name) :: IsLetter(name[i])
    ensures LeadingLetters(name) < |name| ==> !IsLetter(name[LeadingLetters(name)])
    decreases |name|
  {
    if |name| > 0 && IsLetter(name[0]) {
      LeadingLettersSpan(name[1..]);
    }
  }

  /** The base name is exactly the leading run of letters: trying prefixes from the longest
      down stops at the end of that run. */
  lemma BaseIsLetterRun(name: string)
    ensures var k := LeadingLetters(name);
      BaseName(name) == if k == 0 then None else Some(name[..k])
  {
    var k := LeadingLetters(name);
    LeadingLettersSpan(name);
    var r := BaseName(name);
    if k > 0 {
      assert IsAlpha(name[..k]);
    }
  }

  /** The bases of all entries, in catalog order, with repeats. */
  function Bases(catalog: seq<Stored>): (r: seq<string>)
    ensures forall b :: b in r <==> exists s | s in catalog :: BaseName(Name(s)) == Some(b)
    decreases |catalog|
  {
    if |catalog| == 0 then []
    else
      var rest := Bases(catalog[1..]);
      assert forall s | s in catalog :: s == catalog[0] || s in catalog[1..];
      assert forall s | s in catalog[1..] :: s in catalog;
      match BaseName(Name(catalog[0]))
      case Some(b) => [b] + rest
      case None => rest
  }

  /** The base names offered to the operator: sorted, each once. */
  function BaseNames(catalog: seq<Stored>): (r: seq<string>)
    ensures StrictlySorted(r)
    ensures forall b :: b in r <==> exists s | s in catalog :: BaseName(Name(s)) == Some(b)
  {
    SortedSet(Bases(catalog))
  }

  // ---------------------------------------------------------------- choosing a base

  /** Python's `s[k]` with negative indexing, or None for an `IndexError`. */
  function PyIndex<T>(s: seq<T>, k: int): (r: Option<T>)
    ensures r.Some? <==> -|s| <= k < |s|
    ensures r.Some? ==> r.value in s
  {
    if 0 <= k < |s| then Some(s[k])
    else if -|s| <= k < 0 then Some(s[|s| + k])
    else None
  }

  /** The base chosen by the number typed in: `int(...)` of the answer, minus one, used as a
      Python index. A malformed number or an index outside the list is rejected. */
  function ChooseBase(bases: seq<string>, typed: string): (r: Option<string>)
    ensures r.Some? ==> r.value in bases && ParseInt(typed).Some?
  {
    match ParseInt(typed)
    case None => None
    case Some(c) => PyIndex(bases, c - 1)
  }

  /** Typing a listed number picks the base printed next to it. */
  lemma ChooseListed(bases: seq<string>, k: nat)
    requires 1 <= k <= |bases|
    ensures ChooseBase(bases, NatToString(k)) == Some(bases[k - 1])
  {
    ParseNat(k);
  }

  /** Typing `0` is not rejected: it picks the last base. */
  lemma ZeroChoosesLast(bases: seq<string>)
    requires |bases| > 0
    ensures ChooseBase(bases, "0") == Some(bases[|bases| - 1])
  {
    ParseZero();
    ChooseParsed(bases, "0", 0);
  }

  lemma ParseZero()
    ensures ParseInt("0") == Some(0)
  {
    ParseNat(0);
    assert NatToString(0) == [DigitChar(0)] == "0";
  }

  lemma ChooseParsed(bases: seq<string>, typed: string, c: int)
    requires ParseInt(typed) == Some(c)
    ensures ChooseBase(bases, typed) == PyIndex(bases, c - 1)
  {
  }

  /** A number past the end of the list is rejected. */
  lemma ChooseBeyondList(bases: seq<string>, k: nat)
    requires k > |bases|
    ensures ChooseBase(bases, NatToString(k)).None?
  {
    ParseNat(k);
  }

  // ---------------------------------------------------------------- related methods

  /** The methods offered for deletion: those whose site name starts with the base, in
      catalog order. */
  function Related(catalog: seq<Stored>, base: string): (r: seq<Stored>)
    ensures forall s :: s in r <==> s in catalog && StartsWith(Name(s), base)
    ensures multiset(r) <= multiset(catalog)
  {
    Filter(catalog, (s: Stored) => StartsWith(Name(s), base))
  }

  /** A listed base always has methods: the entry it came from starts with it. */
  lemma BaseHasRelated(catalog: seq<Stored>, b: string)
    requires b in BaseNames(catalog)
    ensures |Related(catalog, b)| > 0
  {
    var s :| s in catalog && BaseName(Name(s)) == Some(b);
    assert s in Related(catalog, b);
  }

  // ---------------------------------------------------------------- the numbers to delete

  /** A token that `str.isdigit()` accepts (ASCII digits). */
  predicate IsNumber(t: string) {
    |t| > 0 && AllDigits(t)
  }

  /** The 0-based positions named by the tokens, in token order with repeats: only all-digit
      tokens denoting 1..n count. */
  function Picks(tokens: seq<string>, n: nat): (r: seq<nat>)
    ensures forall k | k in r :: k < n
    ensures forall k: nat :: k in r <==> exists t | t in tokens :: IsNumber(t) && DigitsValue(t) == k + 1 && k < n
    decreases |tokens|
  {
    if |tokens| == 0 then []
    else
      var rest := Picks(tokens[1..], n);
      var t := tokens[0];
      assert forall u | u in tokens :: u == t || u in tokens[1..];
      assert forall u | u in tokens[1..] :: u in tokens;
      if IsNumber(t) && 1 <= DigitsValue(t) <= n then [DigitsValue(t) - 1] + rest else rest
  }

  /** The tokens are read one by one: the picks of a concatenation are the picks of its parts. */
  lemma {:induction false} PicksConcat(a: seq<string>, b: seq<string>, n: nat)
    ensures Picks(a + b, n) == Picks(a, n) + Picks(b, n)
    decreases |a|
  {
    if |a| > 0 {
      assert (a + b)[1..] == a[1..] + b;
      PicksConcat(a[1..], b, n);
    } else {
      assert a + b == b;
    }
  }

  /** One token picks its number, minus one, when it is all digits and names a listed
      method, and nothing otherwise. */
  lemma PicksOne(t: string, n: nat)
    ensures Picks([t], n) == if IsNumber(t) && 1 <= DigitsValue(t) <= n then [DigitsValue(t) - 1] else []
  {
    assert [t][1..] == [];
  }

  /** Reference reading of typed numbers: each number among 1..n names the method at that
      position, counted from zero; repeats are kept and other numbers are skipped. */
  function NumberPicks(nums: seq<nat>, n: nat): seq<nat>
    decreases |nums|
  {
    if |nums| == 0 then []
    else (if 1 <= nums[0] <= n then [nums[0] - 1] else []) + NumberPicks(nums[1..], n)
  }

  /** The decimal texts of numbers pick what the reference reading picks. */
  lemma {:induction false} PicksOfNumerals(nums: seq<nat>, n: nat)
    ensures Picks(Numerals(nums), n) == NumberPicks(nums, n)
    decreases |nums|
  {
    if |nums| > 0 {
      var parts := Numerals(nums);
      assert parts[1..] == Numerals(nums[1..]);
      NatToStringRoundTrip(nums[0]);
      PicksOfNumerals(nums[1..], n);
    }
  }

  /** An answer of numbers separated by commas, such as `1,3`, picks those numbers that name
      listed methods, in the order typed, repeats included. */
  lemma RemovalPicksOfNumbers(nums: seq<nat>, n: nat)
    requires |nums| > 0
    ensures RemovalPicks(Join(Numerals(nums), ","), n) == NumberPicks(nums, n)
  {
    var parts := Numerals(nums);
    var s := Join(parts, ",");
    if ' ' in s {
      JoinChar(parts, ",", ' ');
    }
    RemoveAbsentChar(s, ' ');
    NumeralsSplit(nums);
    PicksOfNumerals(nums, n);
  }

  /** The answer with its spaces removed, split at commas, read as positions among `n`. */
  function RemovalPicks(selection: string, n: nat): (r: seq<nat>)
    ensures forall i | 0 <= i < |r| :: r[i] < n
  {
    var r := Picks(Split(RemoveChar(selection, ' '), ','), n);
    assert forall i | 0 <= i < |r| :: r[i] in r;
    r
  }

  /** Typing `1,1` names the first method twice. */
  lemma RepeatedFirst(n: nat)
    requires n >= 1
    ensures RemovalPicks("1,1", n) == [0, 0]
  {
    OneOneTokens();
    OnePicksFirst(["1"], n);
    assert ["1", "1"][1..] == ["1"];
  }

  lemma OneOneTokens()
    ensures Split(RemoveChar("1,1", ' '), ',') == ["1", "1"]
  {
    assert RemoveChar("1,1", ' ') == "1,1";
    assert Join(["1", "1"], [',']) == "1,1";
    SplitJoin(["1", "1"], ',');
  }

  lemma OnePicksFirst(tokens: seq<string>, n: nat)
    requires n >= 1
    ensures Picks(["1"] + tokens, n) == [0] + Picks(tokens, n)
  {
    assert DigitsValue("1") == 1;
    assert (["1"] + tokens)[1..] == tokens;
  }

  // ---------------------------------------------------------------- removal

  /** The position of the first element equal to `x`. */
  function FirstIndex<T(==)>(s: seq<T>, x: T): (r: Option<nat>)
    ensures r.Some? <==> x in s
    ensures r.Some? ==> r.value < |s| && s[r.value] == x && x !in s[..r.value]
    decreases |s|
  {
    if |s| == 0 then None
    else if s[0] == x then Some(0)
    else
      assert s == [s[0]] + s[1..];
      match FirstIndex(s[1..], x)
      case None => None
      case Some(i) =>
        assert s[..i + 1] == [s[0]] + s[1..][..i];
        Some(i + 1)
  }

  /** `t` is `s` with some entries taken out and the others left in their order. */
  predicate InOrderWithin<T(==)>(t: seq<T>, s: seq<T>)
    decreases |s|
  {
    if |t| == 0 then true
    else if |s| == 0 then false
    else (t[0] == s[0] && InOrderWithin(t[1..], s[1..])) || InOrderWithin(t, s[1..])
  }

  lemma {:induction false} InOrderWithinSelf<T>(s: seq<T>)
    ensures InOrderWithin(s, s)
    decreases |s|
  {
    if |s| > 0 {
      InOrderWithinSelf(s[1..]);
    }
  }

  /** Leaving out the entry at `i` keeps the others in their order. */
  lemma {:induction false} DropOneInOrder<T>(s: seq<T>, i: nat)
    requires i < |s|
    ensures InOrderWithin(s[..i] + s[i + 1..], s)
    decreases i
  {
    var t := s[..i] + s[i + 1..];
    if i == 0 {
      assert t == s[1..];
      InOrderWithinSelf(s[1..]);
    } else {
      DropOneInOrder(s[1..], i - 1);
      assert t[0] == s[0];
      assert t[1..] == s[1..][..i - 1] + s[1..][i..];
    }
  }

  /** Forgetting the first kept entry keeps the rest within `s`. */
  lemma {:induction false} InOrderWithinTail<T>(t: seq<T>, s: seq<T>)
    requires |t| > 0 && InOrderWithin(t, s)
    ensures InOrderWithin(t[1..], s)
    decreases |s|
  {
    if t[0] == s[0] && InOrderWithin(t[1..], s[1..]) {
    } else {
      InOrderWithinTail(t, s[1..]);
    }
  }

  /** Taking entries out twice is taking them out once. */
  lemma {:induction false} InOrderWithinTrans<T>(a: seq<T>, b: seq<T>, c: seq<T>)
    requires InOrderWithin(a, b) && InOrderWithin(b, c)
    ensures InOrderWithin(a, c)
    decreases |c|
  {
    if |a| > 0 {
      if b[0] == c[0] && InOrderWithin(b[1..], c[1..]) {
        if a[0] == b[0] && InOrderWithin(a[1..], b[1..]) {
          InOrderWithinTrans(a[1..], b[1..], c[1..]);
        } else {
          InOrderWithinTrans(a, b[1..], c[1..]);
        }
      } else {
        InOrderWithinTrans(a, b, c[1..]);
      }
    }
  }

  /** `s.remove(x)`: deletes the first element equal to `x`, or fails when there is none; the
      other elements keep their order. */
  function RemoveFirst<T(==)>(s: seq<T>, x: T): (r: Option<seq<T>>)
    ensures r.Some? <==> x in s
    ensures r.Some? ==> exists i | 0 <= i < |s| :: s[i] == x && x !in s[..i] && r.value == s[..i] + s[i + 1..]
    ensures r.Some? ==> InOrderWithin(r.value, s)
  {
    match FirstIndex(s, x)
    case None => None
    case Some(i) =>
      DropOneInOrder(s, i);
      Some(s[..i] + s[i + 1..])
  }

  /** Removing one element takes exactly one copy of it away. */
  lemma RemoveFirstCount<T>(s: seq<T>, x: T)
    requires x in s
    ensures multiset(RemoveFirst(s, x).value) == multiset(s) - multiset{x}
  {
    var i := FirstIndex(s, x).value;
    assert s == s[..i] + [x] + s[i + 1..];
  }

  /** The removals one after the other; the first failure aborts the whole run. */
  function RemoveEach<T(==)>(s: seq<T>, items: seq<T>): (r: Option<seq<T>>)
    decreases |items|
  {
    if |items| == 0 then Some(s)
    else
      match RemoveFirst(s, items[0])
      case None => None
      case Some(t) => RemoveEach(t, items[1..])
  }

  /** The entries the removals leave behind keep their order. */
  lemma {:induction false} RemoveEachInOrder<T>(s: seq<T>, items: seq<T>)
    requires RemoveEach(s, items).Some?
    ensures InOrderWithin(RemoveEach(s, items).value, s)
    decreases |items|
  {
    if |items| == 0 {
      InOrderWithinSelf(s);
    } else {
      var t := RemoveFirst(s, items[0]).value;
      RemoveEachInOrder(t, items[1..]);
      InOrderWithinTrans(RemoveEach(t, items[1..]).value, t, s);
    }
  }

  /** The removals succeed exactly when the catalog holds at least as many copies of each
      element as are removed, and then they take exactly those copies away. */
  lemma {:induction false} RemoveEachCount<T>(s: seq<T>, items: seq<T>)
    ensures RemoveEach(s, items).Some? <==> multiset(items) <= multiset(s)
    ensures RemoveEach(s, items).Some? ==> multiset(RemoveEach(s, items).value) == multiset(s) - multiset(items)
    decreases |items|
  {
    if |items| > 0 {
      var x := items[0];
      assert items == [x] + items[1..];
      if x in s {
        RemoveFirstCount(s, x);
        RemoveEachCount(RemoveFirst(s, x).value, items[1..]);
      } else {
        assert multiset(s)[x] == 0;
      }
    }
  }

  // ---------------------------------------------------------------- the pruning run

  /** Why a run stops without touching the catalog. */
  datatype Stop = EmptyCatalog | InvalidChoice | NoRelated | NothingSelected

  /** What the operator's two answers select: a base, the methods offered under it, and the
      positions picked among them. */
  datatype Plan = Halt(why: Stop) | Delete(base: string, related: seq<Stored>, picks: seq<nat>)

  /** Reading the two answers against the catalog: an empty catalog, a rejected choice or an
      answer naming no listed method stops the run; a listed base always has methods. */
  function PlanRemoval(catalog: seq<Stored>, choice: string, selection: string): (p: Plan)
    ensures |catalog| == 0 <==> p == Halt(EmptyCatalog)
    ensures p != Halt(NoRelated)
    ensures p == Halt(InvalidChoice) <==> |catalog| > 0 && ChooseBase(BaseNames(catalog), choice).None?
    ensures p == Halt(NothingSelected) <==>
      var c := ChooseBase(BaseNames(catalog), choice);
      |catalog| > 0 && c.Some? && |RemovalPicks(selection, |Related(catalog, c.value)|)| == 0
    ensures p.Delete? ==>
      && p.base in BaseNames(catalog)
      && ChooseBase(BaseNames(catalog), choice) == Some(p.base)
      && p.related == Related(catalog, p.base)
      && p.picks == RemovalPicks(selection, |p.related|)
      && |p.related| > 0 && |p.picks| > 0
  {
    if |catalog| == 0 then Halt(EmptyCatalog)
    else match ChooseBase(BaseNames(catalog), choice)
      case None => Halt(InvalidChoice)
      case Some(b) =>
        var related := Related(catalog, b);
        BaseHasRelated(catalog, b);
        if |related| == 0 then Halt(NoRelated)
        else
          var picks := RemovalPicks(selection, |related|);
          if |picks| == 0 then Halt(NothingSelected) else Delete(b, related, picks)
  }

  /** The end of a run: stopped early, aborted by a failed removal, or the pruned catalog. */
  datatype PruneResult = Halted(why: Stop) | Aborted | Pruned(catalog: seq<Stored>)

  /** The entries to remove as the program lists them: one per picked position, in the order
      typed, repeats included. */
  function PickedAsWritten(related: seq<Stored>, picks: seq<nat>): (r: seq<Stored>)
    requires forall i | 0 <= i < |picks| :: picks[i] < |related|
    ensures |r| == |picks|
    ensures forall i | 0 <= i < |picks| :: r[i] == related[picks[i]]
  {
    seq(|picks|, i requires 0 <= i < |picks| => related[picks[i]])
  }

  /** The pruning run as written: every picked position is removed, once per time it was
      typed, and the run aborts when a removal finds nothing to remove. */
  function PruneAsWritten(catalog: seq<Stored>, choice: string, selection: string): (r: PruneResult)
    ensures r.Halted? <==> PlanRemoval(catalog, choice, selection).Halt?
    ensures r.Halted? ==> r.why == PlanRemoval(catalog, choice, selection).why
    ensures r.Aborted? <==>
      var p := PlanRemoval(catalog, choice, selection);
      p.Delete? && !(multiset(PickedAsWritten(p.related, p.picks)) <= multiset(catalog))
    ensures r.Pruned? ==>
      var p := PlanRemoval(catalog, choice, selection);
      multiset(r.catalog) == multiset(catalog) - multiset(PickedAsWritten(p.related, p.picks))
    ensures r.Pruned? ==> InOrderWithin(r.catalog, catalog)
  {
    match PlanRemoval(catalog, choice, selection)
    case Halt(why) => Halted(why)
    case Delete(_, related, picks) =>
      var items := PickedAsWritten(related, picks);
      RemoveEachCount(catalog, items);
      match RemoveEach(catalog, items)
      case None => Aborted
      case Some(c) =>
        RemoveEachInOrder(catalog, items);
        Pruned(c)
  }

  /** The entries to remove, each picked method once, in listing order. */
  function Picked(related: seq<Stored>, picks: seq<nat>): seq<Stored> {
    SelectFrom(related, set k | k in picks :: k + 1, 1)
  }

  /** Every picked method is removed and nothing else is. */
  lemma PickedExactly(related: seq<Stored>, picks: seq<nat>)
    ensures forall s | s in Picked(related, picks) :: s in related
    ensures forall i | 0 <= i < |picks| && picks[i] < |related| :: related[picks[i]] in Picked(related, picks)
    ensures multiset(Picked(related, picks)) <= multiset(related)
  {
    SelectFromSubMultiset(related, set k | k in picks :: k + 1, 1);
    forall i | 0 <= i < |picks| && picks[i] < |related|
      ensures related[picks[i]] in Picked(related, picks)
    {
      PickedIncludes(related, picks, i);
    }
  }

  lemma PickedIncludes(related: seq<Stored>, picks: seq<nat>, i: nat)
    requires i < |picks| && picks[i] < |related|
    ensures related[picks[i]] in Picked(related, picks)
  {
    var keep := set k | k in picks :: k + 1;
    var k := picks[i];
    assert k in picks;
    assert k + 1 in keep;
    SelectInOrder(related, keep);
    var p := Positions(keep, 1, |related|);
    var j :| 0 <= j < |p| && p[j] == k + 1;
    assert Select(related, keep)[j] == related[k];
  }

  /** Removing a non-empty sub-multiset of the offered methods always succeeds. */
  lemma RemovePicked(catalog: seq<Stored>, related: seq<Stored>, picks: seq<nat>)
    requires multiset(related) <= multiset(catalog)
    requires |picks| > 0 && picks[0] < |related|
    ensures var gone := Picked(related, picks);
      && 0 < |gone|
      && RemoveEach(catalog, gone).Some?
      && multiset(RemoveEach(catalog, gone).value) == multiset(catalog) - multiset(gone)
  {
    var gone := Picked(related, picks);
    PickedExactly(related, picks);
    assert related[picks[0]] in gone;
    RemoveEachCount(catalog, gone);
  }

  /** The pruning run with repeated numbers counted once: it never aborts, and the saved
      catalog is the old one minus exactly the picked methods, one copy each. */
  function Prune(catalog: seq<Stored>, choice: string, selection: string): (r: PruneResult)
    ensures r.Halted? <==> PlanRemoval(catalog, choice, selection).Halt?
    ensures r.Halted? ==> r.why == PlanRemoval(catalog, choice, selection).why
    ensures !r.Aborted?
    ensures r.Pruned? ==>
      var p := PlanRemoval(catalog, choice, selection);
      var gone := Picked(p.related, p.picks);
      0 < |gone| && multiset(r.catalog) == multiset(catalog) - multiset(gone)
    ensures r.Pruned? ==> InOrderWithin(r.catalog, catalog)
  {
    match PlanRemoval(catalog, choice, selection)
    case Halt(why) => Halted(why)
    case Delete(_, related, picks) =>
      RemovePicked(catalog, related, picks);
      RemoveEachInOrder(catalog, Picked(related, picks));
      Pruned(RemoveEach(catalog, Picked(related, picks)).value)
  }

  /** Every method the corrected run removes was offered under the base the operator typed. */
  lemma PrunedOnlyOffered(catalog: seq<Stored>, choice: string, selection: string, s: Stored)
    requires Prune(catalog, choice, selection).Pruned?
    requires multiset(Prune(catalog, choice, selection).catalog)[s] < multiset(catalog)[s]
    ensures var p := PlanRemoval(catalog, choice, selection);
      s in p.related && StartsWith(Name(s), p.base)
    ensures StartsWith(Name(s), ChooseBase(BaseNames(catalog), choice).value)
  {
    var p := PlanRemoval(catalog, choice, selection);
    var gone := Picked(p.related, p.picks);
    PickedExactly(p.related, p.picks);
    MultisetDifference(multiset(catalog), multiset(gone), multiset(Prune(catalog, choice, selection).catalog));
  }

  /** Every offered method whose number was typed is removed by the corrected run. */
  lemma PrunedAllPicked(catalog: seq<Stored>, choice: string, selection: string, i: nat)
    requires Prune(catalog, choice, selection).Pruned?
    requires i < |PlanRemoval(catalog, choice, selection).picks|
    ensures var p := PlanRemoval(catalog, choice, selection);
      var x := p.related[p.picks[i]];
      multiset(Prune(catalog, choice, selection).catalog)[x] < multiset(catalog)[x]
  {
    var p := PlanRemoval(catalog, choice, selection);
    assert p.picks[i] < |p.related|;
    PickRemoved(catalog, p.related, p.picks, Prune(catalog, choice, selection).catalog, i);
  }

  lemma PickRemoved(catalog: seq<Stored>, related: seq<Stored>, picks: seq<nat>, after: seq<Stored>, i: nat)
    requires multiset(related) <= multiset(catalog)
    requires i < |picks| && picks[i] < |related|
    requires multiset(after) == multiset(catalog) - multiset(Picked(related, picks))
    ensures multiset(after)[related[picks[i]]] < multiset(catalog)[related[picks[i]]]
  {
    var gone := Picked(related, picks);
    PickedExactly(related, picks);
    assert related[picks[i]] in gone;
    MultisetDifference(multiset(catalog), multiset(gone), multiset(after));
  }

  /** Taking `b` away from `a` lowers exactly the counts of the elements of `b`. */
  lemma MultisetDifference<T>(a: multiset<T>, b: multiset<T>, c: multiset<T>)
    requires b <= a && c == a - b
    ensures forall x | c[x] < a[x] :: x in b
    ensures forall x | x in b :: c[x] < a[x]
  {
  }

  /** Distinct entries occur once each. */
  lemma {:induction false} DistinctOnce<T>(s: seq<T>, x: T)
    requires Distinct(s) && x in s
    ensures multiset(s)[x] == 1
    decreases |s|
  {
    assert s == [s[0]] + s[1..];
    var tail := s[1..];
    assert Distinct(tail) by {
      forall i, j | 0 <= i < j < |tail|
        ensures tail[i] != tail[j]
      {
        assert tail[i] == s[i + 1] && tail[j] == s[j + 1];
      }
    }
    if s[0] == x {
      assert x !in tail by {
        forall i | 0 <= i < |tail|
          ensures tail[i] != x
        {
          assert tail[i] == s[i + 1];
        }
      }
    } else {
      DistinctOnce(tail, x);
    }
  }

  /** An entry of a numbered catalog occurs in it once. */
  lemma NumberedOnce(catalog: seq<Stored>, x: Stored)
    requires NumberedInOrder(catalog) && x in catalog
    ensures multiset(catalog)[x] == 1
  {
    assert Distinct(catalog) by {
      forall i, j | 0 <= i < j < |catalog|
        ensures catalog[i] != catalog[j]
      {
        assert catalog[i].id != catalog[j].id;
      }
    }
    DistinctOnce(catalog, x);
  }

  /** As written, naming the first offered method twice (`1,1`) in a numbered catalog makes
      the second removal fail, so the run aborts and nothing is saved; the corrected run
      removes that method once and saves. */
  lemma RepeatedNumberAborts(catalog: seq<Stored>, choice: string)
    requires NumberedInOrder(catalog)
    requires PlanRemoval(catalog, choice, "1,1").Delete?
    ensures PruneAsWritten(catalog, choice, "1,1") == Aborted
    ensures Prune(catalog, choice, "1,1").Pruned?
  {
    var p := PlanRemoval(catalog, choice, "1,1");
    var x := p.related[0];
    assert x in catalog;
    NumberedOnce(catalog, x);
    FirstPickedTwice(p.related, RemovalPicks("1,1", |p.related|));
  }

  /** The items listed for `1,1`: the first offered method, twice. */
  lemma FirstPickedTwice(related: seq<Stored>, picks: seq<nat>)
    requires |related| > 0 && picks == RemovalPicks("1,1", |related|)
    ensures multiset(PickedAsWritten(related, picks))[related[0]] == 2
  {
    RepeatedFirst(|related|);
    var items := PickedAsWritten(related, picks);
    assert items[0] == related[0] && items[1] == related[0];
    assert items == [related[0], related[0]];
  }
}

=== FILE: review.dfy ===
/** The learner's save flow: the operator's selection string, the chosen methods in their
    original order, and the catalog append with consecutive method ids. */
module Review {
  import opened Wrappers
  import opened Text
  import opened Order
  import opened Probe
  import opened Methods
  import opened Templates
  import opened Discrimination

  // ---------------------------------------------------------------- the selection string

  /** The stripped pieces that are not blank, in order. */
  function NonBlank(pieces: seq<string>): (r: seq<string>)
    ensures forall p | p in r :: |p| > 0 && Strip(p) == p
    ensures forall p :: p in r <==> p != "" && exists q | q in pieces :: Strip(q) == p
    ensures |r| <= |pieces|
  {
    var stripped := seq(|pieces|, i requires 0 <= i < |pieces| => Strip(pieces[i]));
    StrippedPieces(pieces, stripped);
    var r := Filter(stripped, Filled);
    FilledPieces(pieces, stripped, r);
    r
  }

  lemma FilledPieces(pieces: seq<string>, stripped: seq<string>, r: seq<string>)
    requires forall p | p in stripped :: Strip(p) == p
    requires forall p :: p in stripped <==> exists q | q in pieces :: Strip(q) == p
    requires forall p :: p in r <==> p in stripped && Filled(p)
    ensures forall p | p in r :: |p| > 0 && Strip(p) == p
    ensures forall p :: p in r <==> p != "" && exists q | q in pieces :: Strip(q) == p
  {
  }

  predicate Filled(p: string) {
    p != ""
  }

  /** The stripped pieces are their own strip, and are the strips of the pieces. */
  lemma StrippedPieces(pieces: seq<string>, stripped: seq<string>)
    requires |stripped| == |pieces| && forall i | 0 <= i < |pieces| :: stripped[i] == Strip(pieces[i])
    ensures forall p | p in stripped :: Strip(p) == p
    ensures forall p :: p in stripped <==> exists q | q in pieces :: Strip(q) == p
  {
    forall p | p in stripped
      ensures Strip(p) == p && exists q | q in pieces :: Strip(q) == p
    {
      var i :| 0 <= i < |stripped| && stripped[i] == p;
      StripTwice(pieces[i]);
      assert pieces[i] in pieces;
    }
    forall p | exists q | q in pieces :: Strip(q) == p
      ensures p in stripped
    {
      var q :| q in pieces && Strip(q) == p;
      var i := PositionOf(pieces, q);
      assert stripped[i] == p;
    }
  }

  /** A position at which a member of a sequence occurs. */
  lemma PositionOf<T>(s: seq<T>, x: T) returns (i: nat)
    requires x in s
    ensures i < |s| && s[i] == x
  {
    i :| i < |s| && s[i] == x;
  }

  /** Stripping twice strips once. */
  lemma StripTwice(q: string)
    ensures Strip(Strip(q)) == Strip(q)
  {
    StripIdentity(Strip(q));
  }

  /** `[p.strip() for p in s.split(",") if p.strip()]`: the non-blank comma-separated items,
      stripped. */
  function CommaItems(s: string): (r: seq<string>)
    ensures forall p | p in r :: |p| > 0 && Strip(p) == p
    ensures forall p :: p in r <==> p != "" && exists q | q in Split(s, ',') :: Strip(q) == p
  {
    NonBlank(Split(s, ','))
  }

  function Min(a: int, b: int): int { if a <= b then a else b }
  function Max(a: int, b: int): int { if a <= b then b else a }

  /** The integers lo..hi. */
  function Interval(lo: int, hi: int): (r: set<int>)
    ensures forall x :: x in r <==> lo <= x <= hi
    decreases hi - lo
  {
    if lo > hi then {} else {lo} + Interval(lo + 1, hi)
  }

  /** The positions 1..n. */
  function AllPositions(n: nat): set<int> {
    Interval(1, n)
  }

  /** The positions one item selects: a range `a-b` (split at the first '-') selects every
      position between the two numbers in either order, a single number selects itself, and
      only positions 1..n count; an item that does not parse selects nothing. */
  function ItemSelection(p: string, n: nat): (r: set<int>)
    ensures forall x | x in r :: 1 <= x <= n
  {
    match IndexOf(p, '-')
    case Some(i) => RangePositions(ParseInt(p[..i]), ParseInt(p[i + 1..]), n)
    case None => SinglePosition(ParseInt(p), n)
  }

  /** The positions a range item selects, given its two parsed ends. */
  function RangePositions(a: Option<int>, b: Option<int>, n: nat): (r: set<int>)
    ensures forall x | x in r :: 1 <= x <= n
    ensures a.Some? && b.Some? ==> forall x :: x in r <==> 1 <= x <= n && Min(a.value, b.value) <= x <= Max(a.value, b.value)
    ensures a.None? || b.None? ==> r == {}
  {
    if a.Some? && b.Some? then Interval(Max(1, Min(a.value, b.value)), Min(n, Max(a.value, b.value)))
    else {}
  }

  /** The position a single-number item selects, given its parsed value. */
  function SinglePosition(idx: Option<int>, n: nat): (r: set<int>)
    ensures forall x | x in r :: 1 <= x <= n
    ensures forall x :: x in r <==> idx == Some(x) && 1 <= x <= n
  {
    if idx.Some? && 1 <= idx.value <= n then {idx.value} else {}
  }

  function ItemsSelection(items: seq<string>, n: nat): (r: set<int>)
    ensures forall x | x in r :: 1 <= x <= n
    ensures forall x :: x in r <==> exists p | p in items :: x in ItemSelection(p, n)
  {
    if |items| == 0 then {}
    else
      assert forall p | p in items :: p == items[0] || p in items[1..];
      ItemSelection(items[0], n) + ItemsSelection(items[1..], n)
  }

  /** The positions the operator keeps out of `n` listed methods. The whole answer is stripped
      and lower-cased first; `all` keeps everything, an empty answer or `none` keeps nothing,
      anything else is a comma-separated list of items. */
  function SelectionKeep(sel: string, n: nat): (r: set<int>)
    ensures forall x | x in r :: 1 <= x <= n
    ensures Lower(Strip(sel)) == "all" ==> r == AllPositions(n)
    ensures Lower(Strip(sel)) in {"", "none"} ==> r == {}
  {
    var s := Lower(Strip(sel));
    if s == "all" then AllPositions(n)
    else if s == "" || s == "none" then {}
    else ItemsSelection(CommaItems(s), n)
  }

  // ---------------------------------------------------------------- the selection, in order

  /** The chosen elements: those whose 1-based position, counted from `start`, is kept. */
  function SelectFrom<T>(ms: seq<T>, keep: set<int>, start: int): (r: seq<T>)
    ensures |r| <= |ms|
    ensures forall x | x in r :: x in ms
    decreases |ms|
  {
    if |ms| == 0 then []
    else
      assert forall x | x in ms[1..] :: x in ms;
      (if start in keep then [ms[0]] else []) + SelectFrom(ms[1..], keep, start + 1)
  }

  /** The chosen elements are drawn from the list without repetition beyond its own: the
      selection is a sub-multiset of the list. */
  lemma {:induction false} SelectFromSubMultiset<T>(ms: seq<T>, keep: set<int>, start: int)
    ensures multiset(SelectFrom(ms, keep, start)) <= multiset(ms)
    decreases |ms|
  {
    if |ms| > 0 {
      SelectFromSubMultiset(ms[1..], keep, start + 1);
      assert ms == [ms[0]] + ms[1..];
    }
  }

  /** `[m for i, m in enumerate(methods, start=1) if i in keep]`. */
  function Select<T>(ms: seq<T>, keep: set<int>): seq<T> {
    SelectFrom(ms, keep, 1)
  }

  /** The kept positions among start..start+count-1, ascending. */
  function Positions(keep: set<int>, start: int, count: nat): (r: seq<int>)
    ensures forall j | 0 <= j < |r| :: start <= r[j] < start + count && r[j] in keep
    decreases count
  {
    if count == 0 then []
    else (if start in keep then [start] else []) + Positions(keep, start + 1, count - 1)
  }

  /** The kept positions come in ascending order and none is missed. */
  lemma {:induction false} PositionsAscending(keep: set<int>, start: int, count: nat)
    ensures var r := Positions(keep, start, count);
      && (forall j, k | 0 <= j < k < |r| :: r[j] < r[k])
      && (forall x | x in keep && start <= x < start + count :: x in r)
    decreases count
  {
    if count > 0 {
      var rest := Positions(keep, start + 1, count - 1);
      PositionsAscending(keep, start + 1, count - 1);
      var r := Positions(keep, start, count);
      assert r == (if start in keep then [start] else []) + rest;
      forall x | x in keep && start < x < start + count
        ensures x in r
      {
        assert x in rest;
      }
    }
  }

  /** The recursive selection agrees with the index-based reading: the chosen elements are the
      elements at the kept positions, in ascending position order. */
  lemma {:induction false} SelectFromIndices<T>(ms: seq<T>, keep: set<int>, start: int)
    ensures var p := Positions(keep, start, |ms|);
      var r := SelectFrom(ms, keep, start);
      |r| == |p| && forall j | 0 <= j < |p| :: r[j] == ms[p[j] - start]
    decreases |ms|
  {
    if |ms| > 0 {
      var tail := Positions(keep, start + 1, |ms| - 1);
      var rt := SelectFrom(ms[1..], keep, start + 1);
      SelectFromIndices(ms[1..], keep, start + 1);
      ConsIndices(ms, start in keep, tail, rt, start);
    }
  }

  /** One step of the induction above: putting the first element in front, or not. */
  lemma ConsIndices<T>(ms: seq<T>, kept: bool, tail: seq<int>, rt: seq<T>, start: int)
    requires |ms| > 0
    requires forall j | 0 <= j < |tail| :: start + 1 <= tail[j] < start + |ms|
    requires |rt| == |tail| && forall j | 0 <= j < |tail| :: rt[j] == ms[1..][tail[j] - (start + 1)]
    ensures var p := (if kept then [start] else []) + tail;
      var r := (if kept then [ms[0]] else []) + rt;
      |r| == |p| && forall j | 0 <= j < |p| :: r[j] == ms[p[j] - start]
  {
    var p := (if kept then [start] else []) + tail;
    var r := (if kept then [ms[0]] else []) + rt;
    forall j | 0 <= j < |p| ensures r[j] == ms[p[j] - start] {
      var d := if kept then 1 else 0;
      if j >= d {
        assert r[j] == rt[j - d] && p[j] == tail[j - d];
      }
    }
  }

  /** The methods the operator chose, in their listed order. */
  lemma SelectInOrder<T>(ms: seq<T>, keep: set<int>)
    ensures var p := Positions(keep, 1, |ms|);
      var r := Select(ms, keep);
      && |r| == |p|
      && (forall j | 0 <= j < |p| :: r[j] == ms[p[j] - 1] && p[j] in keep)
      && (forall j, k | 0 <= j < k < |p| :: p[j] < p[k])
      && (forall i | 1 <= i <= |ms| && i in keep :: i in p)
  {
    SelectFromIndices(ms, keep, 1);
    PositionsAscending(keep, 1, |ms|);
  }

  /** Keeping every position keeps the whole list; keeping none keeps nothing. */
  lemma SelectAllOrNone<T>(ms: seq<T>, start: int)
    ensures SelectFrom(ms, Interval(start, start + |ms| - 1), start) == ms
    ensures SelectFrom(ms, {}, start) == []
  {
    SelectEverything(ms, start);
    SelectNothing(ms, start);
  }

  lemma SelectEverything<T>(ms: seq<T>, start: int)
    ensures SelectFrom(ms, Interval(start, start + |ms| - 1), start) == ms
  {
    KeepAllPositions(ms, Interval(start, start + |ms| - 1), start);
  }

  /** Keeping every position of the list keeps the whole list. */
  lemma {:induction false} KeepAllPositions<T>(ms: seq<T>, keep: set<int>, start: int)
    requires forall x | start <= x < start + |ms| :: x in keep
    ensures SelectFrom(ms, keep, start) == ms
    decreases |ms|
  {
    if |ms| > 0 {
      KeepAllPositions(ms[1..], keep, start + 1);
      assert start in keep;
      assert ms == [ms[0]] + ms[1..];
    }
  }

  lemma {:induction false} SelectNothing<T>(ms: seq<T>, start: int)
    ensures SelectFrom(ms, {}, start) == []
    decreases |ms|
  {
    if |ms| > 0 {
      SelectNothing(ms[1..], start + 1);
    }
  }

  // ---------------------------------------------------------------- parsing facts

  /** Lower-casing leaves a string without letters unchanged. */
  lemma LowerNoLetters(s: string)
    requires forall i | 0 <= i < |s| :: !IsLetter(s[i])
    ensures Lower(s) == s
  {
  }

  /** A string without commas and without surrounding blanks is a single item. */
  lemma SingleItem(s: string)
    requires |s| > 0 && ',' !in s && !IsSpace(s[0]) && !IsSpace(s[|s| - 1])
    ensures CommaItems(s) == [s]
  {
    assert Split(s, ',') == [s];
    StripIdentity(s);
    assert NonBlank([s]) == [s] + NonBlank([]);
  }

  /** Parsing reads back a natural number. */
  lemma ParseNat(a: nat)
    ensures ParseInt(NatToString(a)) == Some(a)
  {
    IntToStringRoundTrip(a);
  }

  /** A selection answer made of digits and dashes only, starting and ending with a digit, is
      read as one item. */
  lemma PlainItem(s: string, n: nat)
    requires |s| > 0 && IsDigit(s[0]) && IsDigit(s[|s| - 1])
    requires forall i | 0 <= i < |s| :: IsDigit(s[i]) || s[i] == '-'
    ensures SelectionKeep(s, n) == ItemSelection(s, n)
  {
    DigitsNormalized(s);
    SingleItem(s);
    OneItem(s, n);
  }

  lemma DigitsNormalized(s: string)
    requires |s| > 0 && IsDigit(s[0]) && IsDigit(s[|s| - 1])
    requires forall i | 0 <= i < |s| :: IsDigit(s[i]) || s[i] == '-'
    ensures Lower(Strip(s)) == s
    ensures s != "all" && s != "" && s != "none"
    ensures ',' !in s
  {
    assert !IsSpace(s[0]) && !IsSpace(s[|s| - 1]);
    StripIdentity(s);
    assert forall i | 0 <= i < |s| :: !IsLetter(s[i]) && s[i] != ',';
    LowerNoLetters(s);
    assert s[0] != 'a' && s[0] != 'n';
  }

  lemma OneItem(s: string, n: nat)
    ensures ItemsSelection([s], n) == ItemSelection(s, n)
  {
    assert [s][1..] == [];
  }

  /** The shape of the answer `a-b`. */
  lemma RangeText(a: nat, b: nat)
    ensures var sa := NatToString(a);
      var s := sa + "-" + NatToString(b);
      && IsDigit(s[0]) && IsDigit(s[|s| - 1])
      && (forall i | 0 <= i < |s| :: IsDigit(s[i]) || s[i] == '-')
      && IndexOf(s, '-') == Some(|sa|)
      && s[..|sa|] == sa && s[|sa| + 1..] == NatToString(b)
  {
    DashJoin(NatToString(a), NatToString(b));
  }

  lemma DashJoin(sa: string, sb: string)
    requires |sa| > 0 && AllDigits(sa) && |sb| > 0 && AllDigits(sb)
    ensures var s := sa + "-" + sb;
      && IsDigit(s[0]) && IsDigit(s[|s| - 1])
      && (forall i | 0 <= i < |s| :: IsDigit(s[i]) || s[i] == '-')
      && IndexOf(s, '-') == Some(|sa|)
      && s[..|sa|] == sa && s[|sa| + 1..] == sb
  {
    var s := sa + "-" + sb;
    forall i | 0 <= i < |s| ensures IsDigit(s[i]) || s[i] == '-' {
      if i < |sa| { assert s[i] == sa[i]; }
      else if i > |sa| { assert s[i] == sb[i - |sa| - 1]; }
    }
    assert '-' !in sa by {
      forall i | 0 <= i < |sa| ensures sa[i] != '-' { assert IsDigit(sa[i]); }
    }
    IndexOfAfter(sa, '-', sb);
    assert s[..|sa|] == sa;
  }

  /** The answer `a-b` keeps every position from min(a, b) to max(a, b) that exists. */
  lemma RangeSelection(a: nat, b: nat, n: nat)
    ensures forall x :: x in SelectionKeep(NatToString(a) + "-" + NatToString(b), n)
                    <==> Min(a, b) <= x <= Max(a, b) && 1 <= x <= n
  {
    var s := NatToString(a) + "-" + NatToString(b);
    RangeText(a, b);
    PlainItem(s, n);
    RangeItem(a, b, n);
  }

  lemma RangeItem(a: nat, b: nat, n: nat)
    ensures ItemSelection(NatToString(a) + "-" + NatToString(b), n) == Interval(Max(1, Min(a, b)), Min(n, Max(a, b)))
  {
    RangeText(a, b);
    ParseNat(a);
    ParseNat(b);
  }

  /** The answer `i` keeps position i when it exists, and nothing otherwise. */
  lemma NumberSelection(i: nat, n: nat)
    ensures SelectionKeep(NatToString(i), n) == if 1 <= i <= n then {i as int} else {}
  {
    PlainItem(NatToString(i), n);
    NumberItem(i, n);
  }

  /** The item `i` selects position i when it exists, and nothing otherwise. */
  lemma NumberItem(i: nat, n: nat)
    ensures ItemSelection(NatToString(i), n) == if 1 <= i <= n then {i as int} else {}
  {
    var s := NatToString(i);
    assert '-' !in s by {
      forall k | 0 <= k < |s| ensures s[k] != '-' { assert IsDigit(s[k]); }
    }
    assert IndexOf(s, '-') == None;
    ParseNat(i);
  }

  /** Any answer other than `all`, `none` or a blank one keeps the union of what its
      comma-separated items keep, each item stripped and blank items ignored. */
  lemma CommaListSelection(sel: string, n: nat)
    requires Lower(Strip(sel)) != "all" && Lower(Strip(sel)) != "" && Lower(Strip(sel)) != "none"
    ensures forall x :: x in SelectionKeep(sel, n) <==>
      exists q | q in Split(Lower(Strip(sel)), ',') && Strip(q) != "" :: x in ItemSelection(Strip(q), n)
  {
    ItemsOfSplit(Lower(Strip(sel)), n);
  }

  /** The items of a comma list select the union of what its non-blank pieces, stripped, select. */
  lemma ItemsOfSplit(s: string, n: nat)
    ensures forall x :: x in ItemsSelection(CommaItems(s), n) <==>
      exists q | q in Split(s, ',') && Strip(q) != "" :: x in ItemSelection(Strip(q), n)
  {
    var items := CommaItems(s);
    var pieces := Split(s, ',');
    forall x | x in ItemsSelection(items, n)
      ensures exists q | q in pieces && Strip(q) != "" :: x in ItemSelection(Strip(q), n)
    {
      var p :| p in items && x in ItemSelection(p, n);
      ItemHasPiece(s, n, x, p);
    }
    forall x | exists q | q in pieces && Strip(q) != "" :: x in ItemSelection(Strip(q), n)
      ensures x in ItemsSelection(items, n)
    {
      var q :| q in pieces && Strip(q) != "" && x in ItemSelection(Strip(q), n);
      PieceHasItem(s, n, x, q);
    }
  }

  lemma ItemHasPiece(s: string, n: nat, x: int, p: string)
    requires p in CommaItems(s) && x in ItemSelection(p, n)
    ensures exists q | q in Split(s, ',') && Strip(q) != "" :: x in ItemSelection(Strip(q), n)
  {
    var q :| q in Split(s, ',') && Strip(q) == p;
    assert Strip(q) != "";
  }

  lemma PieceHasItem(s: string, n: nat, x: int, q: string)
    requires q in Split(s, ',') && Strip(q) != "" && x in ItemSelection(Strip(q), n)
    ensures x in ItemsSelection(CommaItems(s), n)
  {
    assert Strip(q) in CommaItems(s);
  }

  /** The typed numbers that are positions among 1..n. */
  function TypedPositions(nums: seq<nat>, n: nat): set<int> {
    set i | 0 <= i < |nums| && 1 <= nums[i] <= n :: nums[i] as int
  }

  /** An answer `i1,i2,...,ik` of numbers keeps exactly the typed numbers that are positions of
      the list; repeats and numbers out of range change nothing. */
  lemma NumberListSelection(nums: seq<nat>, n: nat)
    requires |nums| > 0
    ensures SelectionKeep(Join(Numerals(nums), ","), n) == TypedPositions(nums, n)
  {
    var s := Join(Numerals(nums), ",");
    NumeralsJoined(nums);
    DigitListAnswer(s, n);
    NumberListItems(nums, n);
    SameSets(SelectionKeep(s, n), ItemsSelection(CommaItems(s), n), TypedPositions(nums, n));
  }

  /** An answer of digits and commas with a digit at each end is read as a comma list. */
  lemma DigitListAnswer(s: string, n: nat)
    requires |s| > 0 && IsDigit(s[0]) && IsDigit(s[|s| - 1])
    requires forall i | 0 <= i < |s| :: IsDigit(s[i]) || s[i] == ','
    ensures SelectionKeep(s, n) == ItemsSelection(CommaItems(s), n)
  {
    NumberListNormalized(s);
    OrdinaryAnswer(s, n);
  }

  /** The items of the comma-joined numbers select exactly the typed numbers that are positions. */
  lemma NumberListItems(nums: seq<nat>, n: nat)
    requires |nums| > 0
    ensures forall x :: x in ItemsSelection(CommaItems(Join(Numerals(nums), ",")), n) <==> x in TypedPositions(nums, n)
  {
    var parts := Numerals(nums);
    var s := Join(parts, ",");
    NumeralsSplit(nums);
    ItemsOfSplit(s, n);
    NumeralItems(nums, n);
    forall x
      ensures x in ItemsSelection(CommaItems(s), n) <==> x in TypedPositions(nums, n)
    {
      assert Split(s, ',') == parts;
    }
  }

  lemma SameSets(a: set<int>, b: set<int>, c: set<int>)
    requires a == b && forall x :: x in b <==> x in c
    ensures a == c
  {
    assert forall x :: x in a <==> x in c;
  }

  /** An answer already stripped and lower-cased, other than the three words, is a list. */
  lemma OrdinaryAnswer(sel: string, n: nat)
    requires Lower(Strip(sel)) == sel && sel != "all" && sel != "" && sel != "none"
    ensures SelectionKeep(sel, n) == ItemsSelection(CommaItems(sel), n)
  {
  }

  /** Splitting the comma-joined numerals gives them back. */
  lemma NumeralsSplit(nums: seq<nat>)
    requires |nums| > 0
    ensures Split(Join(Numerals(nums), ","), ',') == Numerals(nums)
  {
    var parts := Numerals(nums);
    forall i | 0 <= i < |parts|
      ensures ',' !in parts[i]
    {
      NumeralHasNoSign(nums[i], ',');
    }
    SplitJoin(parts, ',');
  }

  /** The numerals, read as items, select exactly the typed numbers that are positions. */
  lemma NumeralItems(nums: seq<nat>, n: nat)
    ensures forall x :: (exists q | q in Numerals(nums) && Strip(q) != "" :: x in ItemSelection(Strip(q), n)) <==>
      x in TypedPositions(nums, n)
  {
    var parts := Numerals(nums);
    forall x | exists q | q in parts && Strip(q) != "" :: x in ItemSelection(Strip(q), n)
      ensures x in TypedPositions(nums, n)
    {
      var q :| q in parts && Strip(q) != "" && x in ItemSelection(Strip(q), n);
      var i := PositionOf(parts, q);
      NumeralPieceSound(nums, n, x, i);
    }
    forall x | x in TypedPositions(nums, n)
      ensures exists q | q in parts && Strip(q) != "" :: x in ItemSelection(Strip(q), n)
    {
      var i :| 0 <= i < |nums| && 1 <= nums[i] <= n && nums[i] == x;
      NumeralPieceComplete(nums, n, i);
    }
  }

  lemma NumeralPieceSound(nums: seq<nat>, n: nat, x: int, i: nat)
    requires i < |nums| && x in ItemSelection(Strip(Numerals(nums)[i]), n)
    ensures x in TypedPositions(nums, n)
  {
    var k := nums[i];
    assert Numerals(nums)[i] == NatToString(k);
    NumeralItem(k, n);
    assert x == k && 1 <= k <= n;
  }

  lemma NumeralPieceComplete(nums: seq<nat>, n: nat, i: nat)
    requires i < |nums| && 1 <= nums[i] <= n
    ensures var q := Numerals(nums)[i];
      q in Numerals(nums) && Strip(q) != "" && nums[i] as int in ItemSelection(Strip(q), n)
  {
    NumeralItem(nums[i], n);
  }

  /** A numeral is its own strip and, as an item, selects its value when that is a position. */
  lemma NumeralItem(k: nat, n: nat)
    ensures Strip(NatToString(k)) == NatToString(k) != ""
    ensures ItemSelection(NatToString(k), n) == if 1 <= k <= n then {k as int} else {}
  {
    var q := NatToString(k);
    assert IsDigit(q[0]) && IsDigit(q[|q| - 1]);
    StripIdentity(q);
    NumberItem(k, n);
  }

  /** A numeral holds no character other than digits. */
  lemma NumeralHasNoSign(k: nat, c: char)
    requires !IsDigit(c)
    ensures c !in NatToString(k)
  {
  }

  /** Numbers joined with commas: digits and commas only, a digit at each end. */
  lemma NumeralsJoined(nums: seq<nat>)
    requires |nums| > 0
    ensures var s := Join(Numerals(nums), ",");
      && |s| > 0 && IsDigit(s[0]) && IsDigit(s[|s| - 1])
      && forall i | 0 <= i < |s| :: IsDigit(s[i]) || s[i] == ','
  {
    var parts := Numerals(nums);
    var s := Join(parts, ",");
    JoinEnds(parts, ",");
    var first := parts[0];
    var last := parts[|parts| - 1];
    assert s[0] == first[0];
    assert s[|s| - 1] == last[|last| - 1];
    forall i | 0 <= i < |s|
      ensures IsDigit(s[i]) || s[i] == ','
    {
      if !IsDigit(s[i]) && s[i] != ',' {
        JoinChar(parts, ",", s[i]);
      }
    }
  }

  /** An answer of digits and commas with a digit at each end is read as it stands. */
  lemma NumberListNormalized(s: string)
    requires |s| > 0 && IsDigit(s[0]) && IsDigit(s[|s| - 1])
    requires forall i | 0 <= i < |s| :: IsDigit(s[i]) || s[i] == ','
    ensures Lower(Strip(s)) == s
    ensures s != "all" && s != "" && s != "none"
  {
    assert !IsSpace(s[0]) && !IsSpace(s[|s| - 1]);
    StripIdentity(s);
    assert forall i | 0 <= i < |s| :: !IsLetter(s[i]);
    LowerNoLetters(s);
    assert s[0] != 'a' && s[0] != 'n';
  }

  // ---------------------------------------------------------------- the catalog

  /** A catalog entry: a learned method with the id it was saved under. */
  datatype Stored = Stored(entry: Entry, id: int)

  /** `append_sitios`: the new entries go after the existing ones, numbered on from the
      catalog's length. */
  function AppendCatalog(data: seq<Stored>, nuevos: seq<Entry>): (r: seq<Stored>)
    ensures |r| == |data| + |nuevos|
    ensures r[..|data|] == data
    ensures forall i | 0 <= i < |nuevos| :: r[|data| + i].entry == nuevos[i]
    ensures forall i | |data| <= i < |r| :: r[i].id == i + 1
  {
    data + seq(|nuevos|, i requires 0 <= i < |nuevos| => Stored(nuevos[i], |data| + i + 1))
  }

  /** The ids are 1, 2, 3, ... in catalog order. */
  predicate NumberedInOrder(data: seq<Stored>) {
    forall i | 0 <= i < |data| :: data[i].id == i + 1
  }

  /** Appending keeps a catalog numbered 1, 2, 3, ...: the new ids continue the sequence and
      no id repeats. */
  lemma AppendKeepsNumbering(data: seq<Stored>, nuevos: seq<Entry>)
    requires NumberedInOrder(data)
    ensures NumberedInOrder(AppendCatalog(data, nuevos))
    ensures var r := AppendCatalog(data, nuevos);
      forall i, j | 0 <= i < j < |r| :: r[i].id != r[j].id
  {
  }

  /** The numbering only counts entries: when an entry already carries the id one past the
      catalog's length, as after a pruning removed an earlier entry, the first new method gets
      that id again. */
  lemma AppendAfterRemovalRepeatsId(data: seq<Stored>, nuevos: seq<Entry>, k: nat)
    requires k < |data| && data[k].id == |data| + 1 && |nuevos| > 0
    ensures var r := AppendCatalog(data, nuevos);
      k < |data| < |r| && r[k].id == r[|data|].id
  {
    var r := AppendCatalog(data, nuevos);
    assert r[|data| + 0].id == |data| + 1;
  }

  /** Two appends in a row number the entries as one append of both lists would. */
  lemma AppendTwice(data: seq<Stored>, a: seq<Entry>, b: seq<Entry>)
    ensures AppendCatalog(AppendCatalog(data, a), b) == AppendCatalog(data, a + b)
  {
    var left := AppendCatalog(AppendCatalog(data, a), b);
    var right := AppendCatalog(data, a + b);
    assert |left| == |right|;
    forall i | 0 <= i < |left| ensures left[i] == right[i] {
      if i >= |data| + |a| {
        assert left[i] == Stored(b[i - |data| - |a|], i + 1);
        assert (a + b)[i - |data|] == b[i - |data| - |a|];
      }
    }
  }

  // ---------------------------------------------------------------- the whole learning run

  datatype LearnResult =
    | NoRealEvaluated                      // no real identity could be probed
    | NoMethods                            // no candidate method came out
    | NothingSaved                         // the operator kept nothing
    | Saved(catalog: seq<Stored>, count: nat)

  /** The samples of the identities that could be probed, in order. */
  function Successes(probes: seq<Option<Sample>>): (r: seq<Sample>)
    ensures forall e :: e in r <==> Some(e) in probes
    ensures |r| == 0 <==> forall p | p in probes :: p.None?
  {
    if |probes| == 0 then []
    else
      assert forall x | x in probes :: x == probes[0] || x in probes[1..];
      (if probes[0].Some? then [probes[0].value] else []) + Successes(probes[1..])
  }

  /** The methods the run offers to the operator: one classified entry per template derived
      from the samples of the identities that could be probed. */
  function Offered(site: string, urlBase: string, realProbes: seq<Option<Sample>>, fakeProbes: seq<Option<Sample>>,
                   palabras: seq<string>): (r: seq<Entry>)
    ensures |r| >= 3
  {
    var reales := Successes(realProbes);
    var falsos := Successes(fakeProbes);
    BuildMethods(DeriveTemplates(site, urlBase, reales, falsos, palabras), reales, falsos)
  }

  /** `ejecutar_core` with the probes given (None for an identity that could not be probed),
      the operator's selection answer given, and the catalog passed in and returned. Nothing is
      saved when no real identity could be probed or when the answer keeps no listed position;
      otherwise the chosen methods, in listed order, are appended to the catalog and their
      number is the number of positions kept. */
  function Learn(site: string, urlBase: string, realProbes: seq<Option<Sample>>, fakeProbes: seq<Option<Sample>>,
                 palabras: seq<string>, selection: string, catalog: seq<Stored>): (r: LearnResult)
    ensures r.NoRealEvaluated? <==> forall p | p in realProbes :: p.None?
    // a run that probed a real identity offers at least the three URL/status methods
    ensures !r.NoMethods?
    ensures r.NothingSaved? <==>
      (exists p | p in realProbes :: p.Some?)
      && SelectionKeep(selection, |Offered(site, urlBase, realProbes, fakeProbes, palabras)|) == {}
    ensures r.Saved? ==>
      var offered := Offered(site, urlBase, realProbes, fakeProbes, palabras);
      var keep := SelectionKeep(selection, |offered|);
      && r.catalog == AppendCatalog(catalog, Select(offered, keep))
      && r.count == |keep| > 0
      && |r.catalog| == |catalog| + |keep|
  {
    if |Successes(realProbes)| == 0 then NoRealEvaluated
    else SaveSelection(Offered(site, urlBase, realProbes, fakeProbes, palabras), selection, catalog)
  }

  /** The end of a run that offered `methods`: the operator's answer chooses, and the chosen
      methods are saved unless there are none. */
  function SaveSelection(methods: seq<Entry>, selection: string, catalog: seq<Stored>): (r: LearnResult)
    ensures |methods| > 0 ==> !r.NoMethods?
    ensures !r.NoRealEvaluated?
    ensures r.NothingSaved? <==> |methods| > 0 && SelectionKeep(selection, |methods|) == {}
    ensures r.Saved? ==>
      var keep := SelectionKeep(selection, |methods|);
      && r.catalog == AppendCatalog(catalog, Select(methods, keep))
      && r.count == |keep| > 0
      && |r.catalog| == |catalog| + |keep|
  {
    if |methods| == 0 then NoMethods
    else
      var keep := SelectionKeep(selection, |methods|);
      var chosen := Select(methods, keep);
      SelectCount(methods, keep);
      if |chosen| == 0 then NothingSaved
      else Saved(AppendCatalog(catalog, chosen), |chosen|)
  }

  /** Keeping a set of listed positions chooses exactly that many methods. */
  lemma SelectCount<T>(ms: seq<T>, keep: set<int>)
    requires forall x | x in keep :: 1 <= x <= |ms|
    ensures |Select(ms, keep)| == |keep|
  {
    SelectInOrder(ms, keep);
    var p := Positions(keep, 1, |ms|);
    assert Distinct(p) by {
      forall j, k | 0 <= j < k < |p|
        ensures p[j] != p[k]
      {
      }
    }
    DistinctCardinality(p);
    forall x | x in keep
      ensures x in p
    {
      assert 1 <= x < 1 + |ms|;
    }
    assert (set x | x in p) == keep;
  }

  /** Answering `all` after probing some real identity saves every offered method, numbered on
      from the catalog. */
  lemma LearnAllSavesEverything(site: string, urlBase: string, realProbes: seq<Option<Sample>>,
                                fakeProbes: seq<Option<Sample>>, palabras: seq<string>, catalog: seq<Stored>)
    requires exists p | p in realProbes :: p.Some?
    ensures var r := Learn(site, urlBase, realProbes, fakeProbes, palabras, "all", catalog);
      var methods := Offered(site, urlBase, realProbes, fakeProbes, palabras);
      r == Saved(AppendCatalog(catalog, methods), |methods|)
  {
    var reales := Successes(realProbes);
    var p :| p in realProbes && p.Some?;
    assert p.value in reales;
    var methods := Offered(site, urlBase, realProbes, fakeProbes, palabras);
    SelectAll(methods);
  }

  /** Answering `all` selects the whole list. */
  lemma SelectAll<T>(ms: seq<T>)
    ensures Select(ms, SelectionKeep("all", |ms|)) == ms
  {
    AnswerAll(|ms|);
    SelectAllOrNone(ms, 1);
  }

  lemma AnswerAll(n: nat)
    ensures SelectionKeep("all", n) == AllPositions(n)
  {
    NormalizedAll();
  }

  lemma NormalizedAll()
    ensures Lower(Strip("all")) == "all"
  {
    NormalizedAnswer("all");
  }

  /** An answer without surrounding whitespace or capitals normalizes to itself. */
  lemma NormalizedAnswer(s: string)
    requires |s| == 0 || (!IsSpace(s[0]) && !IsSpace(s[|s| - 1]))
    requires forall i | 0 <= i < |s| :: LowerChar(s[i]) == s[i]
    ensures Lower(Strip(s)) == s
  {
    StripIdentity(s);
    LowerFixed(s);
  }
}

=== FILE: search.dfy ===
/** The searcher's run: every stored method is replayed for one identity, the methods of each
    site are combined into one verdict, and the heuristic is consulted when no method decided. */
module Search {
  import opened Wrappers
  import opened Text
  import opened Order
  import opened Probe
  import opened Methods
  import opened Discrimination
  import opened SearcherSignature
  import opened Decision
  import opened Heuristic

  // ---------------------------------------------------------------- probe URL

  /** The URL template names the identity through `{user}` or `{usuario}`. */
  predicate HasPlaceholder(urlBase: string) {
    Contains(urlBase, "{user}") || Contains(urlBase, "{usuario}")
  }

  /** A template that holds either tag anywhere names the identity. */
  lemma TagIsPlaceholder(pre: string, tag: string, post: string)
    requires tag == "{user}" || tag == "{usuario}"
    ensures HasPlaceholder(pre + tag + post)
  {
    ContainsWhole(pre, tag, post);
  }

  /** A template without any `{` names no identity, so its methods are never probed. */
  lemma BracelessNoPlaceholder(urlBase: string)
    requires '{' !in urlBase
    ensures !HasPlaceholder(urlBase)
  {
    NotContainsFirstChar(urlBase, "{user}");
    NotContainsFirstChar(urlBase, "{usuario}");
  }

  /** The probe URL: every `{user}` replaced by the identity, then every `{usuario}`. */
  function SubstituteUser(urlBase: string, user: string): (r: string)
    ensures !HasPlaceholder(urlBase) ==> r == urlBase
  {
    ReplaceAll(ReplaceAll(urlBase, "{user}", user), "{usuario}", user)
  }

  /** Filling a template with one `{user}` placeholder puts the identity in its place. */
  lemma SubstituteUserTag(pre: string, post: string, user: string)
    requires '{' !in pre && '{' !in post && '{' !in user
    ensures SubstituteUser(pre + "{user}" + post, user) == pre + user + post
  {
    ReplacePlaceholder(pre, "{user}", post, user);
    NoBraceUnchanged(pre + user + post, "{usuario}", user);
  }

  /** The same for one `{usuario}` placeholder: the first pass leaves it alone. */
  lemma SubstituteUsuarioTag(pre: string, post: string, user: string)
    requires '{' !in pre && '{' !in post && '{' !in user
    ensures SubstituteUser(pre + "{usuario}" + post, user) == pre + user + post
  {
    FirstPassKeepsUsuario(pre, post, user);
    ReplacePlaceholder(pre, "{usuario}", post, user);
  }

  /** Replacing a brace-led pattern in a text with no brace before it and none after it. */
  lemma ReplacePlaceholder(pre: string, p: string, post: string, rep: string)
    requires |p| > 0 && p[0] == '{' && '{' !in pre && '{' !in post
    ensures ReplaceAll(pre + p + post, p, rep) == pre + rep + post
  {
    var s := p + post;
    assert pre + p + post == pre + s;
    ReplaceAllPrefix(pre, s, p, rep);
    assert s[..|p|] == p && s[|p|..] == post;
    NoBraceUnchanged(post, p, rep);
  }

  lemma NoBraceUnchanged(t: string, p: string, rep: string)
    requires |p| > 0 && p[0] == '{' && '{' !in t
    ensures ReplaceAll(t, p, rep) == t
  {
    NotContainsFirstChar(t, p);
  }

  lemma FirstPassKeepsUsuario(pre: string, post: string, user: string)
    requires '{' !in pre && '{' !in post
    ensures ReplaceAll(pre + "{usuario}" + post, "{user}", user) == pre + "{usuario}" + post
  {
    var s := "{usuario}" + post;
    assert pre + "{usuario}" + post == pre + s;
    ReplaceAllPrefix(pre, s, "{user}", user);
    UsuarioIsNotUser(post, user);
  }

  lemma UsuarioIsNotUser(post: string, user: string)
    requires '{' !in post
    ensures ReplaceAll("{usuario}" + post, "{user}", user) == "{usuario}" + post
  {
    var s := "{usuario}" + post;
    assert s[3] == 'u';
    assert s[..6] != "{user}";
    var t := s[1..];
    assert t == "usuario}" + post;
    assert '{' !in t;
    NoBraceUnchanged(t, "{user}", user);
    assert ReplaceAll(s, "{user}", user) == [s[0]] + ReplaceAll(t, "{user}", user);
    assert s == [s[0]] + t;
  }

  // ---------------------------------------------------------------- one method

  /** What fetching one probe URL gave: an exception on the way, or the observation. */
  datatype Fetch = Failed | Fetched(sample: Sample)

  /** One line of the per-site listing. */
  datatype Row =
    | NoPlaceholder(kind: Kind)
    | Errored(kind: Kind)
    | Decided(kind: Kind, verdict: Verdict, outcome: string, finalUrl: string)

  function RowVerdict(r: Row): Verdict {
    if r.Decided? then r.verdict else Indeterminate
  }

  /** The observation a method produced, if it was probed and the probe did not fail. A
      template without placeholder is not probed at all. */
  function Attempt(user: string, m: Entry, fetch: string -> Fetch): (r: Option<Sample>)
    ensures r.Some? ==> HasPlaceholder(m.spec.urlBase)
    ensures r.Some? <==> HasPlaceholder(m.spec.urlBase) && fetch(SubstituteUser(m.spec.urlBase, user)).Fetched?
  {
    if !HasPlaceholder(m.spec.urlBase) then None
    else match fetch(SubstituteUser(m.spec.urlBase, user))
      case Failed => None
      case Fetched(e) => Some(e)
  }

  /** The listing line of one method: undecided without a placeholder or after a failure,
      otherwise the outcome, its exact-match verdict and the final URL. */
  function RunMethod(user: string, m: Entry, fetch: string -> Fetch): (r: Row)
    ensures r.kind == m.spec.kind
    ensures !HasPlaceholder(m.spec.urlBase) ==> r.NoPlaceholder?
    ensures r.Decided? <==> Attempt(user, m, fetch).Some?
    ensures r.Decided? ==>
      var e := Attempt(user, m, fetch).value;
      r.outcome == Outcome(m.spec.kind, e) && r.finalUrl == FinalUrl(e)
      && r.verdict == Decide(r.outcome, m.outcomesReal, m.outcomesFake)
  {
    if !HasPlaceholder(m.spec.urlBase) then NoPlaceholder(m.spec.kind)
    else match Attempt(user, m, fetch)
      case None => Errored(m.spec.kind)
      case Some(e) =>
        var o := Outcome(m.spec.kind, e);
        Decided(m.spec.kind, Decide(o, m.outcomesReal, m.outcomesFake), o, FinalUrl(e))
  }

  /** The listing line of one method with the challenge flag rendered as written
      (`captcha=true`/`captcha=false`): it differs from `RunMethod` only for challenge methods. */
  function RunMethodAsWritten(user: string, m: Entry, fetch: string -> Fetch): (r: Row)
    ensures r.kind == m.spec.kind
    ensures !m.spec.kind.CaptchaDetect? ==> r == RunMethod(user, m, fetch)
    ensures r.Decided? <==> Attempt(user, m, fetch).Some?
    ensures r.Decided? ==>
      var e := Attempt(user, m, fetch).value;
      r.outcome == OutcomeAsWritten(m.spec.kind, e) && r.finalUrl == FinalUrl(e)
      && r.verdict == Decide(r.outcome, m.outcomesReal, m.outcomesFake)
  {
    if !HasPlaceholder(m.spec.urlBase) then NoPlaceholder(m.spec.kind)
    else match Attempt(user, m, fetch)
      case None => Errored(m.spec.kind)
      case Some(e) =>
        var o := OutcomeAsWritten(m.spec.kind, e);
        Decided(m.spec.kind, Decide(o, m.outcomesReal, m.outcomesFake), o, FinalUrl(e))
  }

  /** As written, a challenge method the learner stored never decides a search, whatever page
      the probe brings back. */
  lemma LearnedCaptchaUndecidedAsWritten(user: string, spec: MethodSpec, reales: seq<Sample>, falsos: seq<Sample>,
                                         fetch: string -> Fetch)
    requires spec.kind.CaptchaDetect?
    ensures RowVerdict(RunMethodAsWritten(user, Discriminate(spec, reales, falsos), fetch)) == Indeterminate
  {
    var m := Discriminate(spec, reales, falsos);
    var a := Attempt(user, m, fetch);
    if a.Some? {
      CaptchaUndecidedAsWritten(spec, reales, falsos, a.value);
    }
  }

  /** The listing of a site's methods, in order. */
  function Rows(user: string, ms: seq<Entry>, fetch: string -> Fetch): (r: seq<Row>)
    ensures |r| == |ms|
    ensures forall i | 0 <= i < |ms| :: r[i] == RunMethod(user, ms[i], fetch)
  {
    seq(|ms|, i requires 0 <= i < |ms| => RunMethod(user, ms[i], fetch))
  }

  // ---------------------------------------------------------------- combining

  /** Some row has the given verdict. */
  predicate HasVerdict(rows: seq<Row>, v: Verdict) {
    exists i | 0 <= i < |rows| :: RowVerdict(rows[i]) == v
  }

  /** The two flags the run raises while it walks the rows: one for any `Exists`, one for any
      `NotExists`. */
  function Flags(rows: seq<Row>): (r: (bool, bool))
    ensures r.0 <==> HasVerdict(rows, Exists)
    ensures r.1 <==> HasVerdict(rows, NotExists)
  {
    if |rows| == 0 then (false, false)
    else
      var (e, n) := Flags(rows[..|rows| - 1]);
      var v := RowVerdict(rows[|rows| - 1]);
      assert forall i | 0 <= i < |rows| - 1 :: rows[..|rows| - 1][i] == rows[i];
      (e || v == Exists, n || v == NotExists)
  }

  /** The site verdict from the methods alone: any `NotExists` wins, then any `Exists`. */
  function MethodsVerdict(rows: seq<Row>): (v: Verdict)
    ensures v == NotExists <==> HasVerdict(rows, NotExists)
    ensures v == Exists <==> HasVerdict(rows, Exists) && !HasVerdict(rows, NotExists)
    ensures v == Indeterminate <==> forall i | 0 <= i < |rows| :: RowVerdict(rows[i]) == Indeterminate
  {
    var (anyExist, anyNo) := Flags(rows);
    if anyNo then NotExists else if anyExist then Exists else Indeterminate
  }

  /** The methods' verdict depends only on which verdicts occur, not on the order of the
      methods: any two listings with the same rows give the same verdict. */
  lemma MethodsVerdictOrderIrrelevant(rows: seq<Row>, rows2: seq<Row>)
    requires forall r :: r in rows <==> r in rows2
    ensures MethodsVerdict(rows) == MethodsVerdict(rows2)
  {
    forall v: Verdict
      ensures HasVerdict(rows, v) <==> HasVerdict(rows2, v)
    {
      if HasVerdict(rows, v) {
        var i :| 0 <= i < |rows| && RowVerdict(rows[i]) == v;
        assert rows[i] in rows2;
      }
      if HasVerdict(rows2, v) {
        var i :| 0 <= i < |rows2| && RowVerdict(rows2[i]) == v;
        assert rows2[i] in rows;
      }
    }
  }

  /** Running the same set of methods in another order gives the same methods' verdict. */
  lemma MethodOrderIrrelevant(user: string, ms: seq<Entry>, ms2: seq<Entry>, fetch: string -> Fetch)
    requires forall m :: m in ms <==> m in ms2
    ensures MethodsVerdict(Rows(user, ms, fetch)) == MethodsVerdict(Rows(user, ms2, fetch))
  {
    var rows := Rows(user, ms, fetch);
    var rows2 := Rows(user, ms2, fetch);
    forall r
      ensures r in rows <==> r in rows2
    {
      if r in rows {
        var i :| 0 <= i < |rows| && rows[i] == r;
        assert ms[i] in ms2;
        var j :| 0 <= j < |ms2| && ms2[j] == ms[i];
        assert rows2[j] == r;
      }
      if r in rows2 {
        var j :| 0 <= j < |rows2| && rows2[j] == r;
        assert ms2[j] in ms;
        var i :| 0 <= i < |ms| && ms[i] == ms2[j];
        assert rows[i] == r;
      }
    }
    MethodsVerdictOrderIrrelevant(rows, rows2);
  }

  // ---------------------------------------------------------------- page capture

  /** The page kept for the heuristic and the final URL it was reached at. */
  datatype Capture = Capture(html: string, finalUrl: string)

  /** No page yet. */
  const NoCapture := Capture("", "-")

  /** One step of the capture: a method's page replaces the kept one when it was rendered by
      the browser or is strictly longer. */
  function Consider(best: Capture, a: Option<Sample>): (r: Capture)
    ensures a.None? ==> r == best
    ensures a.Some? && (a.value.sel.Some? || |EffectiveText(a.value)| > |best.html|) ==>
      r == Capture(EffectiveText(a.value), FinalUrl(a.value))
    ensures a.Some? && a.value.sel.None? && |EffectiveText(a.value)| <= |best.html| ==> r == best
  {
    match a
    case None => best
    case Some(e) =>
      var cand := EffectiveText(e);
      if e.sel.Some? || |cand| > |best.html| then Capture(cand, FinalUrl(e)) else best
  }

  /** The page kept after the site's methods ran, in order. */
  function BestCapture(user: string, ms: seq<Entry>, fetch: string -> Fetch): (r: Capture)
    ensures r == NoCapture || exists i | 0 <= i < |ms| :: CapturedFrom(r, Attempt(user, ms[i], fetch))
    decreases |ms|
  {
    if |ms| == 0 then NoCapture
    else
      var before := BestCapture(user, ms[..|ms| - 1], fetch);
      var a := Attempt(user, ms[|ms| - 1], fetch);
      assert forall i | 0 <= i < |ms| - 1 :: ms[..|ms| - 1][i] == ms[i];
      Consider(before, a)
  }

  /** The capture is the page and final URL of that observation. */
  predicate CapturedFrom(c: Capture, a: Option<Sample>) {
    a.Some? && c == Capture(EffectiveText(a.value), FinalUrl(a.value))
  }

  /** Without any rendered page, the kept page is a longest one among the observations. */
  lemma {:induction false} CaptureLongestWithoutBrowser(user: string, ms: seq<Entry>, fetch: string -> Fetch)
    requires forall i | 0 <= i < |ms| :: Attempt(user, ms[i], fetch).Some? ==> Attempt(user, ms[i], fetch).value.sel.None?
    ensures forall i | 0 <= i < |ms| && Attempt(user, ms[i], fetch).Some? ::
      |EffectiveText(Attempt(user, ms[i], fetch).value)| <= |BestCapture(user, ms, fetch).html|
    decreases |ms|
  {
    if |ms| > 0 {
      var init := ms[..|ms| - 1];
      assert forall i | 0 <= i < |init| :: init[i] == ms[i];
      CaptureLongestWithoutBrowser(user, init, fetch);
      var before := BestCapture(user, init, fetch);
      var a := Attempt(user, ms[|ms| - 1], fetch);
      PlainStepGrows(before, a);
      var after := BestCapture(user, ms, fetch);
      assert after == Consider(before, a);
      forall i | 0 <= i < |ms| && Attempt(user, ms[i], fetch).Some?
        ensures |EffectiveText(Attempt(user, ms[i], fetch).value)| <= |after.html|
      {
        if i < |init| {
          assert init[i] == ms[i];
        }
      }
    }
  }

  /** A plain (or missing) page never shortens the kept page, and the kept page is at least as
      long as it. */
  lemma PlainStepGrows(best: Capture, a: Option<Sample>)
    requires a.Some? ==> a.value.sel.None?
    ensures |best.html| <= |Consider(best, a).html|
    ensures a.Some? ==> |EffectiveText(a.value)| <= |Consider(best, a).html|
  {
  }

  /** A rendered page is kept unless a later plain page is longer: after the last method whose
      page was rendered, only strictly longer plain pages can replace it. */
  lemma {:induction false} CaptureKeepsRendered(user: string, ms: seq<Entry>, fetch: string -> Fetch, k: nat)
    requires k < |ms|
    requires Attempt(user, ms[k], fetch).Some? && Attempt(user, ms[k], fetch).value.sel.Some?
    requires forall j | k < j < |ms| :: Attempt(user, ms[j], fetch).Some? ==>
      Attempt(user, ms[j], fetch).value.sel.None?
      && |EffectiveText(Attempt(user, ms[j], fetch).value)| <= |EffectiveText(Attempt(user, ms[k], fetch).value)|
    ensures CapturedFrom(BestCapture(user, ms, fetch), Attempt(user, ms[k], fetch))
    decreases |ms|
  {
    var init := ms[..|ms| - 1];
    assert forall i | 0 <= i < |init| :: init[i] == ms[i];
    if k < |ms| - 1 {
      CaptureKeepsRendered(user, init, fetch, k);
    }
  }

  // ---------------------------------------------------------------- one site

  /** The outcome of one site: its listing, its verdict, whether the heuristic supplied it,
      and the page kept. */
  datatype SiteReport = SiteReport(site: string, rows: seq<Row>, verdict: Verdict, heuristicUsed: bool, capture: Capture)

  /** One site: the methods' verdict, replaced by the heuristic's only when the methods left
      the site undecided, a page was kept, and the heuristic itself decided. */
  function SearchSite(user: string, site: string, ms: seq<Entry>, fetch: string -> Fetch): (r: SiteReport)
    ensures r.site == site && r.rows == Rows(user, ms, fetch) && r.capture == BestCapture(user, ms, fetch)
    ensures r.verdict == NotExists <==> HasVerdict(r.rows, NotExists)
    ensures !r.heuristicUsed ==> r.verdict == MethodsVerdict(r.rows)
    ensures r.heuristicUsed ==>
      && MethodsVerdict(r.rows) == Indeterminate
      && r.capture.html != ""
      && r.verdict == Exists
      && r.verdict == HeuristicVerdict(user, r.capture.finalUrl, r.capture.html)
    ensures MethodsVerdict(r.rows) == Indeterminate && r.capture.html != "" ==>
      (r.heuristicUsed <==> HeuristicVerdict(user, r.capture.finalUrl, r.capture.html) == Exists)
  {
    var rows := Rows(user, ms, fetch);
    var capture := BestCapture(user, ms, fetch);
    var fromMethods := MethodsVerdict(rows);
    if fromMethods == Indeterminate && capture.html != "" then
      var h := HeuristicVerdict(user, capture.finalUrl, capture.html);
      if h != Indeterminate then SiteReport(site, rows, h, true, capture)
      else SiteReport(site, rows, fromMethods, false, capture)
    else SiteReport(site, rows, fromMethods, false, capture)
  }

  /** A decided method is never overruled by the heuristic. */
  lemma MethodsDecideFirst(user: string, site: string, ms: seq<Entry>, fetch: string -> Fetch, i: nat)
    requires i < |ms| && RowVerdict(Rows(user, ms, fetch)[i]) != Indeterminate
    ensures SearchSite(user, site, ms, fetch).verdict == MethodsVerdict(Rows(user, ms, fetch))
    ensures !SearchSite(user, site, ms, fetch).heuristicUsed
  {
    var rows := Rows(user, ms, fetch);
    assert !(forall j | 0 <= j < |rows| :: RowVerdict(rows[j]) == Indeterminate);
  }

  /** When no method could be probed, nothing was kept and the site stays undecided. */
  lemma NothingObserved(user: string, site: string, ms: seq<Entry>, fetch: string -> Fetch)
    requires forall i | 0 <= i < |ms| :: Attempt(user, ms[i], fetch).None?
    ensures SearchSite(user, site, ms, fetch).verdict == Indeterminate
  {
    var rows := Rows(user, ms, fetch);
    assert forall i | 0 <= i < |rows| :: !rows[i].Decided?;
  }

  // ---------------------------------------------------------------- whole catalog

  /** The site names of the catalog, in order of first appearance, each once. */
  function SiteNames(catalog: seq<Entry>): (r: seq<string>)
    ensures Distinct(r)
    ensures forall n :: n in r <==> exists m | m in catalog :: m.spec.site == n
    decreases |catalog|
  {
    if |catalog| == 0 then []
    else
      var init := catalog[..|catalog| - 1];
      var before := SiteNames(init);
      var n := catalog[|catalog| - 1].spec.site;
      assert forall m | m in catalog :: m in init || m == catalog[|catalog| - 1];
      assert forall m | m in init :: m in catalog;
      if n in before then before else before + [n]
  }

  /** The methods of one site, in catalog order. */
  function MethodsOf(catalog: seq<Entry>, site: string): (r: seq<Entry>)
    ensures forall m :: m in r <==> m in catalog && m.spec.site == site
  {
    Filter(catalog, (m: Entry) => m.spec.site == site)
  }

  /** The whole run for the identity typed in: nothing when it is blank after stripping or the
      catalog is empty, otherwise one report per site in order of first appearance. */
  function SearchAll(typed: string, catalog: seq<Entry>, fetch: string -> Fetch): (r: Option<seq<SiteReport>>)
    ensures r.None? <==> Strip(typed) == "" || |catalog| == 0
    ensures r.Some? ==> |r.value| == |SiteNames(catalog)|
    ensures r.Some? ==> forall i | 0 <= i < |r.value| ::
      r.value[i] == SearchSite(Strip(typed), SiteNames(catalog)[i], MethodsOf(catalog, SiteNames(catalog)[i]), fetch)
  {
    var user := Strip(typed);
    if user == "" || |catalog| == 0 then None
    else
      var names := SiteNames(catalog);
      Some(seq(|names|, i requires 0 <= i < |names| => SearchSite(user, names[i], MethodsOf(catalog, names[i]), fetch)))
  }

  /** Every method of the catalog is run in exactly one site's group, and no group is empty. */
  lemma GroupsPartitionCatalog(catalog: seq<Entry>)
    ensures forall i | 0 <= i < |SiteNames(catalog)| :: |MethodsOf(catalog, SiteNames(catalog)[i])| > 0
    ensures forall m | m in catalog :: exists i | 0 <= i < |SiteNames(catalog)| ::
      m in MethodsOf(catalog, SiteNames(catalog)[i])
    ensures forall m, i, j | m in catalog && 0 <= i < |SiteNames(catalog)| && 0 <= j < |SiteNames(catalog)| ::
      m in MethodsOf(catalog, SiteNames(catalog)[i]) && m in MethodsOf(catalog, SiteNames(catalog)[j]) ==> i == j
  {
    var names := SiteNames(catalog);
    forall i | 0 <= i < |names|
      ensures |MethodsOf(catalog, names[i])| > 0
    {
      assert names[i] in names;
      var m :| m in catalog && m.spec.site == names[i];
      assert m in MethodsOf(catalog, names[i]);
    }
    forall m | m in catalog
      ensures exists i | 0 <= i < |names| :: m in MethodsOf(catalog, names[i])
    {
      assert m.spec.site in names;
      var i :| 0 <= i < |names| && names[i] == m.spec.site;
      assert m in MethodsOf(catalog, names[i]);
    }
  }
}

=== FILE: searcher_signature.dfy ===
/** The searcher's outcome-signature extractor. It is a second implementation of the learner's
    extractor; a stored outcome can only be matched when both produce the same string for the
    same observation. */
module SearcherSignature {
  import opened Wrappers
  import opened Text
  import opened Order
  import opened Probe
  import opened Methods
  import opened LearnerSignature

  /** The searcher's challenge markers, already in lower case; they are compared with the
      lower-cased text without lower-casing the marker again. */
  const SearcherCaptchaMarkers: seq<string> :=
    ["captcha", "cf-challenge", "hcaptcha", "g-recaptcha", "cloudflare", "attention required!",
     "/cdn-cgi/challenge-platform", "are you a human", "just a moment..."]

  /** The searcher's challenge test: some of its markers occurs in the lower-cased text. */
  predicate SearcherDetectCaptcha(text: string) {
    exists m | m in SearcherCaptchaMarkers :: Contains(Lower(text), m)
  }

  /** The four learner markers that contain capitals, lower-cased. */
  lemma MixedCaseMarkersLowered()
    ensures Lower("Cloudflare") == "cloudflare"
    ensures Lower("Attention Required!") == "attention required!"
    ensures Lower("Are you a human") == "are you a human"
    ensures Lower("Just a moment...") == "just a moment..."
  {
    CloudflareLowered();
    AttentionLowered();
    HumanLowered();
    MomentLowered();
  }

  lemma CloudflareLowered()
    ensures Lower("Cloudflare") == "cloudflare"
  {
    assert Lower("Cloudflare")[0] == 'c';
  }

  lemma AttentionLowered()
    ensures Lower("Attention Required!") == "attention required!"
  {
    AttentionWordsLowered();
    LowerConcat("Attention ", "Required!");
    assert "Attention " + "Required!" == "Attention Required!";
    assert "attention " + "required!" == "attention required!";
  }

  lemma AttentionWordsLowered()
    ensures Lower("Attention ") == "attention " && Lower("Required!") == "required!"
  {
    assert Lower("Attention ")[0] == 'a';
    assert Lower("Required!")[0] == 'r';
  }

  lemma HumanLowered()
    ensures Lower("Are you a human") == "are you a human"
  {
    assert Lower("Are you a human")[0] == 'a';
  }

  lemma MomentLowered()
    ensures Lower("Just a moment...") == "just a moment..."
  {
    assert Lower("Just a moment...")[0] == 'j';
  }

  /** The searcher's marker list is the learner's list lower-cased, entry by entry. */
  lemma MarkersLowered()
    ensures |SearcherCaptchaMarkers| == |CaptchaMarkers|
    ensures forall i | 0 <= i < |CaptchaMarkers| :: Lower(CaptchaMarkers[i]) == SearcherCaptchaMarkers[i]
  {
    MixedCaseMarkersLowered();
    LowerCaseMarkersFixed();
  }

  /** The five learner markers without capitals are their own lower case. */
  lemma LowerCaseMarkersFixed()
    ensures Lower("captcha") == "captcha" && Lower("cf-challenge") == "cf-challenge"
    ensures Lower("hcaptcha") == "hcaptcha" && Lower("g-recaptcha") == "g-recaptcha"
    ensures Lower("/cdn-cgi/challenge-platform") == "/cdn-cgi/challenge-platform"
  {
    ShortMarkersFixed();
    LowerFixed("g-recaptcha");
    PlatformMarkerFixed();
  }

  lemma ShortMarkersFixed()
    ensures Lower("captcha") == "captcha" && Lower("cf-challenge") == "cf-challenge"
    ensures Lower("hcaptcha") == "hcaptcha"
  {
    LowerFixed("captcha");
    LowerFixed("cf-challenge");
    LowerFixed("hcaptcha");
  }

  lemma PlatformMarkerFixed()
    ensures Lower("/cdn-cgi/challenge-platform") == "/cdn-cgi/challenge-platform"
  {
    LowerFixed("/cdn-cgi/challenge-platform");
  }

  /** Both programs flag the same pages as challenge pages. */
  lemma SameCaptchaDetection(text: string)
    ensures SearcherDetectCaptcha(text) <==> DetectCaptcha(text)
  {
    MarkersLowered();
    if DetectCaptcha(text) {
      var m :| m in CaptchaMarkers && Contains(Lower(text), Lower(m));
      var i :| 0 <= i < |CaptchaMarkers| && CaptchaMarkers[i] == m;
      assert SearcherCaptchaMarkers[i] in SearcherCaptchaMarkers;
    }
    if SearcherDetectCaptcha(text) {
      var m :| m in SearcherCaptchaMarkers && Contains(Lower(text), m);
      var i :| 0 <= i < |SearcherCaptchaMarkers| && SearcherCaptchaMarkers[i] == m;
      assert CaptchaMarkers[i] in CaptchaMarkers;
    }
  }

  /** The searcher's rendering of the challenge flag: lower-case `true`/`false`, unlike the
      Python boolean the learner stores. */
  function LowerBool(b: bool): string {
    if b then "true" else "false"
  }

  /** The searcher's signature of method `kind` on sample `e`, with the challenge flag rendered
      as the learner renders it. This is the extractor the rest of the model replays with. */
  function SearchSignature(kind: Kind, e: Sample): (r: Option<string>)
    ensures r == Signature(kind, e)
  {
    match kind
    case StatusCode => Some("status=" + IntToString(e.http.status))
    case UrlCheck => Some("final_url=" + FinalUrl(e))
    case RedirectCheck => Some("final_url=" + FinalUrl(e))
    case StatusCodeAndText(code, mustContain) =>
      var hit := code == Some(e.http.status) && AllKeysIn(Take(mustContain, 5), SearchText(e));
      Some("status_text_hit=" + PyBool(hit))
    case HtmlContains(keys) =>
      var hit := if |keys| > 0 then AllKeysIn(Take(keys, 5), SearchText(e)) else false;
      Some("html_hit=" + PyBool(hit))
    case JsonResponseCheck(presentKeys) =>
      if e.http.isJson && e.http.jsonKeys.Some? then Some("json_hit=" + PyBool(JsonHit(presentKeys, e.http)))
      else Some("json_hit=False")
    case CaptchaDetect =>
      SameCaptchaDetection(EffectiveText(e));
      Some("captcha=" + PyBool(SearcherDetectCaptcha(EffectiveText(e))))
    case KeywordCheck(keywords) => Some("kw_hit=" + PyBool(AnyKeyIn(keywords, SearchText(e))))
    case CustomSelectorCheck => Some("dom_loaded=" + PyBool(e.sel.Some?))
    case Unrecognised(_) => None
  }

  /** The searcher's signature as the program writes it: identical to the learner's except
      that the challenge flag is rendered in lower case. */
  function SearchSignatureAsWritten(kind: Kind, e: Sample): (r: Option<string>)
    ensures !kind.CaptchaDetect? ==> r == Signature(kind, e)
    ensures kind.CaptchaDetect? ==>
      (r == Some("captcha=true") <==> DetectCaptcha(EffectiveText(e)))
      && (r == Some("captcha=true") || r == Some("captcha=false"))
  {
    if kind.CaptchaDetect? then
      SameCaptchaDetection(EffectiveText(e));
      assert "captcha=" + "true" == "captcha=true" && "captcha=" + "false" == "captcha=false";
      Some("captcha=" + LowerBool(SearcherDetectCaptcha(EffectiveText(e))))
    else SearchSignature(kind, e)
  }

  /** The as-written challenge signature never equals any signature the learner stores for the
      same method type, whatever the two observations were. */
  lemma CaptchaNeverReplays(e: Sample, learned: Sample)
    ensures SearchSignatureAsWritten(CaptchaDetect, e).Some?
    ensures Signature(CaptchaDetect, learned).Some?
    ensures SearchSignatureAsWritten(CaptchaDetect, e).value != Signature(CaptchaDetect, learned).value
  {
    SignatureFlags(CaptchaDetect, learned);
    var s := SearchSignatureAsWritten(CaptchaDetect, e).value;
    var t := Signature(CaptchaDetect, learned).value;
    assert s[8] == 't' || s[8] == 'f';
    assert t[8] == 'T' || t[8] == 'F';
  }

  /** What the searcher records for one method: the signature, or the text `None` when the
      method type is not recognised. */
  function Outcome(kind: Kind, e: Sample): (r: string)
    ensures r == "None" <==> kind.Unrecognised?
    ensures !kind.Unrecognised? ==> Some(r) == Signature(kind, e)
  {
    SearchSignature(kind, e).GetOr("None")
  }
}

=== FILE: templates.dfy ===
/** Template derivation: which candidate methods the learner proposes for a site, given the
    samples of known-real and known-fake identities. */
module Templates {
  import opened Wrappers
  import opened Text
  import opened Order
  import opened Probe
  import opened Methods
  import opened LearnerSignature
  import opened TextMining

  const MaxHtmlKeys: nat := 25
  const MaxStatusTextKeys: nat := 10
  const MaxJsonKeys: nat := 20
  const MaxKeywords: nat := 20

  /** How often `c` occurs in `all`. */
  function Occurrences(all: seq<int>, c: int): nat {
    multiset(all)[c]
  }

  /** `c` occurs in `codes` at least as often as any other code. */
  predicate IsMode(codes: seq<int>, c: int) {
    c in codes && forall d | d in codes :: Occurrences(codes, d) <= Occurrences(codes, c)
  }

  /** A most frequent element of `all` among the candidates; ties go to the earliest candidate. */
  function ModeAmong(all: seq<int>, cands: seq<int>): (c: int)
    requires |cands| > 0
    ensures c in cands
    ensures forall d | d in cands :: Occurrences(all, d) <= Occurrences(all, c)
    decreases |cands|
  {
    if |cands| == 1 then cands[0]
    else
      var m := ModeAmong(all, cands[1..]);
      if Occurrences(all, cands[0]) >= Occurrences(all, m) then cands[0] else m
  }

  /** A most frequent status code. The source breaks ties by set iteration order; this model
      takes the first most frequent code in list order, and promises only "a most frequent one". */
  function MostFrequent(codes: seq<int>): (c: int)
    requires |codes| > 0
    ensures IsMode(codes, c)
  {
    ModeAmong(codes, codes)
  }

  /** The effective text of every sample, in order. */
  function Texts(samples: seq<Sample>): (r: seq<string>)
    ensures |r| == |samples|
    ensures forall i | 0 <= i < |samples| :: r[i] == EffectiveText(samples[i])
  {
    seq(|samples|, i requires 0 <= i < |samples| => EffectiveText(samples[i]))
  }

  /** The plain-channel status of every sample, in order. */
  function PlainStatuses(samples: seq<Sample>): (r: seq<int>)
    ensures |r| == |samples|
    ensures forall i | 0 <= i < |samples| :: r[i] == samples[i].http.status
  {
    seq(|samples|, i requires 0 <= i < |samples| => samples[i].http.status)
  }

  /** The stable words of the real pages that are not stable words of the fake pages,
      alphabetically. */
  function HtmlKeys(reales: seq<Sample>, falsos: seq<Sample>): (r: seq<string>)
    ensures StrictlySorted(r)
    ensures forall w :: w in r <==> w in StableContains(Texts(reales)) && w !in StableContains(Texts(falsos))
    ensures |reales| == 0 ==> r == []
  {
    var realStable := StableContains(Texts(reales));
    var fakeStable := StableContains(Texts(falsos));
    SortedSet(Filter(realStable, w => w !in fakeStable))
  }

  /** `html_contains` with the first 25 keys, followed by `status_code_y_texto` with a most
      frequent real status and the first 10 keys when there was a real sample; nothing when
      there are no keys. */
  function HtmlMethods(site: string, urlBase: string, keys: seq<string>, codes: seq<int>): (r: seq<MethodSpec>)
    ensures (exists m | m in r :: m.kind.HtmlContains?) <==> |keys| > 0
    ensures (exists m | m in r :: m.kind.StatusCodeAndText?) <==> |keys| > 0 && |codes| > 0
    ensures InPart(r, site, urlBase, 1)
    ensures forall m | m in r ::
      (m.kind.HtmlContains? && m.kind.keys == Take(keys, MaxHtmlKeys))
      || (m.kind.StatusCodeAndText? && m.kind.code.Some? && IsMode(codes, m.kind.code.value)
          && m.kind.mustContain == Take(keys, MaxStatusTextKeys))
  {
    if |keys| == 0 then []
    else
      var html := MethodSpec(site, urlBase, HtmlContains(Take(keys, MaxHtmlKeys)));
      if |codes| > 0 then
        var st := MethodSpec(site, urlBase, StatusCodeAndText(Some(MostFrequent(codes)), Take(keys, MaxStatusTextKeys)));
        assert st in [html, st];
        [html, st]
      else [html]
  }

  /** The key lists of the real samples whose plain response parsed as a JSON object. */
  function JsonKeyLists(reales: seq<Sample>): (r: seq<seq<string>>)
    ensures forall ks | ks in r :: exists e | e in reales :: e.http.isJson && e.http.jsonKeys == Some(ks)
    ensures forall e | e in reales && e.http.isJson && e.http.jsonKeys.Some? :: e.http.jsonKeys.value in r
  {
    if |reales| == 0 then []
    else
      var e := reales[0];
      var rest := JsonKeyLists(reales[1..]);
      assert forall x | x in reales[1..] :: x in reales;
      assert forall x | x in reales :: x == e || x in reales[1..];
      if e.http.isJson && e.http.jsonKeys.Some? then [e.http.jsonKeys.value] + rest else rest
  }

  /** `json_response_check` with the first 20, alphabetically, of the keys every list holds,
      when some sample answered with JSON and the lists share a key. */
  function JsonMethods(site: string, urlBase: string, anyJson: bool, lists: seq<seq<string>>): (r: seq<MethodSpec>)
    ensures |r| <= 1
    ensures |r| > 0 <==> anyJson && |CommonIntersection(lists)| > 0
    ensures InPart(r, site, urlBase, 2)
    ensures forall m | m in r :: m.kind.JsonResponseCheck? && SharedKeys(m.kind.presentKeys, lists)
    ensures forall m | m in r :: KeepsSmallest(m.kind.presentKeys, CommonIntersection(lists), MaxJsonKeys)
  {
    if anyJson && |CommonIntersection(lists)| > 0 then
      var m := MethodSpec(site, urlBase, JsonResponseCheck(JsonKeys(lists)));
      assert SharedKeys(m.kind.presentKeys, lists) && PartOf(m.kind) == 2;
      [m]
    else []
  }

  /** Keys worth checking in a JSON answer: between one and 20 of them, strictly ascending,
      each present in every key list. */
  predicate SharedKeys(keys: seq<string>, lists: seq<seq<string>>) {
    && 0 < |keys| <= MaxJsonKeys
    && StrictlySorted(keys)
    && forall k | k in keys :: forall i | 0 <= i < |lists| :: k in lists[i]
  }

  /** The first 20, alphabetically, of the keys every list holds. */
  function JsonKeys(lists: seq<seq<string>>): (keys: seq<string>)
    ensures |CommonIntersection(lists)| > 0 ==> SharedKeys(keys, lists)
    ensures KeepsSmallest(keys, CommonIntersection(lists), MaxJsonKeys)
  {
    var inter := CommonIntersection(lists);
    TakeSmallest(inter, MaxJsonKeys);
    var sorted := SortedSet(inter);
    var keys := Take(sorted, MaxJsonKeys);
    assert forall k | k in keys :: k in sorted;
    assert |inter| > 0 ==> inter[0] in sorted;
    keys
  }

  /** Every fake page, lower-cased, joined with single spaces. */
  function FakeText(falsos: seq<Sample>): string {
    Join(seq(|falsos|, i requires 0 <= i < |falsos| => Lower(EffectiveText(falsos[i]))), " ")
  }

  /** An operator keyword is worth checking when its lower-cased form is absent from the
      fake pages. */
  predicate Survives(fake: string, k: string) {
    !Contains(fake, Lower(k))
  }

  /** `palabras_clave` with the operator's keywords whose lower-cased form does not occur in
      `fake` (first 20, in the operator's order), proposed when at least one survives. */
  function KeywordMethods(site: string, urlBase: string, fake: string, palabras: seq<string>): (r: seq<MethodSpec>)
    ensures |r| <= 1
    ensures |r| > 0 <==> exists k | k in palabras :: Survives(fake, k)
    ensures InPart(r, site, urlBase, 4)
    ensures forall m | m in r :: m.kind.KeywordCheck?
    ensures forall m | m in r :: 0 < |m.kind.keywords| <= MaxKeywords
    ensures forall m | m in r :: forall k | k in m.kind.keywords :: k in palabras && Survives(fake, k)
    ensures forall m | m in r :: forall k | k in palabras && Survives(fake, k) && k !in m.kind.keywords ::
      |m.kind.keywords| == MaxKeywords
  {
    var keep := (k: string) => Survives(fake, k);
    var claves := Filter(palabras, keep);
    if |claves| > 0 then
      var kept := Take(claves, MaxKeywords);
      assert forall k | k in kept :: k in claves;
      assert claves[0] in palabras && keep(claves[0]);
      [MethodSpec(site, urlBase, KeywordCheck(kept))]
    else
      assert forall k | k in palabras :: !keep(k);
      []
  }

  /** The keywords kept are the first surviving ones in the operator's order: when the list
      opens with at most 20 surviving keywords, the kept list opens with exactly those. */
  lemma KeywordsInOrder(site: string, urlBase: string, fake: string, first: seq<string>, others: seq<string>)
    requires 0 < |first| <= MaxKeywords
    requires forall k | k in first :: Survives(fake, k)
    ensures var r := KeywordMethods(site, urlBase, fake, first + others);
      |r| == 1 && |first| <= |r[0].kind.keywords| && r[0].kind.keywords[..|first|] == first
  {
    var keep := (k: string) => Survives(fake, k);
    FilterConcat(first, others, keep);
    FilterAll(first, keep);
    var claves := first + Filter(others, keep);
    assert Filter(first + others, keep) == claves;
    TakeOpens(first, Filter(others, keep), MaxKeywords);
    assert first[0] in first + others;
  }

  /** Cutting a list to `k` keeps any opening part of at most `k` elements. */
  lemma TakeOpens<T>(a: seq<T>, b: seq<T>, k: nat)
    requires |a| <= k
    ensures |a| <= |Take(a + b, k)| && Take(a + b, k)[..|a|] == a
  {
    assert (a + b)[..|a|] == a;
  }

  /** A single method of a parameterless kind when `cond` holds. */
  function When(cond: bool, m: MethodSpec): (r: seq<MethodSpec>)
    ensures |r| > 0 <==> cond
    ensures forall x | x in r :: x == m
  {
    if cond then [m] else []
  }

  predicate AnyJson(samples: seq<Sample>) {
    exists e | e in samples :: e.http.isJson
  }

  predicate AnyCaptcha(samples: seq<Sample>) {
    exists e | e in samples :: DetectCaptcha(EffectiveText(e))
  }

  predicate AnyRendered(samples: seq<Sample>) {
    exists e | e in samples :: e.sel.Some?
  }

  /** Every method belongs to the given site and URL template and has a known type. */
  predicate Belongs(r: seq<MethodSpec>, site: string, urlBase: string) {
    forall m | m in r :: m.site == site && m.urlBase == urlBase && !m.kind.Unrecognised?
  }

  /** The observations the template choice depends on, computed once from the samples. */
  datatype Evidence = Evidence(
    htmlKeys: seq<string>,       // stable real words that are not stable fake words
    realCodes: seq<int>,         // plain statuses of the real samples
    anyJson: bool,               // some sample answered with JSON
    jsonLists: seq<seq<string>>, // key lists of the real JSON objects
    anyCaptcha: bool,            // a challenge marker showed on some page
    fakeText: string,            // the fake pages, lower-cased and joined
    anyRendered: bool)           // some page was rendered by a browser

  function Gather(reales: seq<Sample>, falsos: seq<Sample>): Evidence {
    Evidence(HtmlKeys(reales, falsos), PlainStatuses(reales), AnyJson(reales + falsos), JsonKeyLists(reales),
             AnyCaptcha(reales + falsos), FakeText(falsos), AnyRendered(reales + falsos))
  }

  /** Part `j` of the templates for given evidence. The source appends them in this order:
      the three URL/status methods, then markup keys, JSON keys, challenge page, operator
      keywords, rendered DOM. */
  function Part(site: string, urlBase: string, ev: Evidence, palabras: seq<string>, j: nat): (r: seq<MethodSpec>)
    requires j < 6
    ensures InPart(r, site, urlBase, j)
  {
    if j == 0 then
      [MethodSpec(site, urlBase, StatusCode), MethodSpec(site, urlBase, UrlCheck), MethodSpec(site, urlBase, RedirectCheck)]
    else if j == 1 then HtmlMethods(site, urlBase, ev.htmlKeys, ev.realCodes)
    else if j == 2 then JsonMethods(site, urlBase, ev.anyJson, ev.jsonLists)
    else if j == 3 then When(ev.anyCaptcha, MethodSpec(site, urlBase, CaptchaDetect))
    else if j == 4 then KeywordMethods(site, urlBase, ev.fakeText, palabras)
    else When(ev.anyRendered, MethodSpec(site, urlBase, CustomSelectorCheck))
  }

  /** The methods of part `j`: for the given site and URL template, of that part's types. */
  predicate InPart(r: seq<MethodSpec>, site: string, urlBase: string, j: nat) {
    forall m | m in r :: m.site == site && m.urlBase == urlBase && PartOf(m.kind) == j
  }

  /** The part of the templates that proposes methods of type `k`. */
  function PartOf(k: Kind): nat {
    match k
    case StatusCode => 0
    case UrlCheck => 0
    case RedirectCheck => 0
    case HtmlContains(_) => 1
    case StatusCodeAndText(_, _) => 1
    case JsonResponseCheck(_) => 2
    case CaptchaDetect => 3
    case KeywordCheck(_) => 4
    case CustomSelectorCheck => 5
    case Unrecognised(_) => 6
  }

  /** The templates for given evidence: the six parts in order. */
  function Assemble(site: string, urlBase: string, ev: Evidence, palabras: seq<string>): (r: seq<MethodSpec>)
    ensures |r| >= 3
    ensures r[0].kind == StatusCode && r[1].kind == UrlCheck && r[2].kind == RedirectCheck
    ensures Belongs(r, site, urlBase)
  {
    var p0 := Part(site, urlBase, ev, palabras, 0);
    var p1 := Part(site, urlBase, ev, palabras, 1);
    var p2 := Part(site, urlBase, ev, palabras, 2);
    var p3 := Part(site, urlBase, ev, palabras, 3);
    var p4 := Part(site, urlBase, ev, palabras, 4);
    var p5 := Part(site, urlBase, ev, palabras, 5);
    PartsAssembled(p0, p1, p2, p3, p4, p5, site, urlBase);
    p0 + p1 + p2 + p3 + p4 + p5
  }

  /** The six parts, the first being the three URL/status checks, form a well-formed list. */
  lemma PartsAssembled(p0: seq<MethodSpec>, p1: seq<MethodSpec>, p2: seq<MethodSpec>, p3: seq<MethodSpec>,
                       p4: seq<MethodSpec>, p5: seq<MethodSpec>, site: string, urlBase: string)
    requires p0 == [MethodSpec(site, urlBase, StatusCode), MethodSpec(site, urlBase, UrlCheck), MethodSpec(site, urlBase, RedirectCheck)]
    requires InPart(p1, site, urlBase, 1) && InPart(p2, site, urlBase, 2)
    requires InPart(p3, site, urlBase, 3) && InPart(p4, site, urlBase, 4) && InPart(p5, site, urlBase, 5)
    ensures var r := p0 + p1 + p2 + p3 + p4 + p5;
      |r| >= 3 && r[0].kind == StatusCode && r[1].kind == UrlCheck && r[2].kind == RedirectCheck
      && Belongs(r, site, urlBase)
  {
    PartsBelong(p0, p1, p2, p3, p4, p5, site, urlBase);
    var r := p0 + p1 + p2 + p3 + p4 + p5;
    assert r[..3] == p0;
  }

  /** Methods taken from the six parts all belong to the site. */
  lemma PartsBelong(p0: seq<MethodSpec>, p1: seq<MethodSpec>, p2: seq<MethodSpec>, p3: seq<MethodSpec>,
                    p4: seq<MethodSpec>, p5: seq<MethodSpec>, site: string, urlBase: string)
    requires InPart(p0, site, urlBase, 0) && InPart(p1, site, urlBase, 1) && InPart(p2, site, urlBase, 2)
    requires InPart(p3, site, urlBase, 3) && InPart(p4, site, urlBase, 4) && InPart(p5, site, urlBase, 5)
    ensures Belongs(p0 + p1 + p2 + p3 + p4 + p5, site, urlBase)
  {
  }

  /** In the concatenation of the six parts, the methods of the types part `j` produces are
      exactly part `j`. */
  lemma ConcatParts(p0: seq<MethodSpec>, p1: seq<MethodSpec>, p2: seq<MethodSpec>, p3: seq<MethodSpec>,
                    p4: seq<MethodSpec>, p5: seq<MethodSpec>, site: string, urlBase: string)
    requires InPart(p0, site, urlBase, 0) && InPart(p1, site, urlBase, 1) && InPart(p2, site, urlBase, 2)
    requires InPart(p3, site, urlBase, 3) && InPart(p4, site, urlBase, 4) && InPart(p5, site, urlBase, 5)
    ensures var r := p0 + p1 + p2 + p3 + p4 + p5;
      && PartOfList(r, p1, 1) && PartOfList(r, p2, 2) && PartOfList(r, p3, 3)
      && PartOfList(r, p4, 4) && PartOfList(r, p5, 5)
  {
  }

  /** The six parts of the templates, in the form the lemmas above consume. */
  lemma AssembleParts(site: string, urlBase: string, ev: Evidence, palabras: seq<string>)
    ensures var r := Assemble(site, urlBase, ev, palabras);
      && PartOfList(r, HtmlMethods(site, urlBase, ev.htmlKeys, ev.realCodes), 1)
      && PartOfList(r, JsonMethods(site, urlBase, ev.anyJson, ev.jsonLists), 2)
      && PartOfList(r, When(ev.anyCaptcha, MethodSpec(site, urlBase, CaptchaDetect)), 3)
      && PartOfList(r, KeywordMethods(site, urlBase, ev.fakeText, palabras), 4)
      && PartOfList(r, When(ev.anyRendered, MethodSpec(site, urlBase, CustomSelectorCheck)), 5)
  {
    ConcatParts(Part(site, urlBase, ev, palabras, 0), Part(site, urlBase, ev, palabras, 1),
                Part(site, urlBase, ev, palabras, 2), Part(site, urlBase, ev, palabras, 3),
                Part(site, urlBase, ev, palabras, 4), Part(site, urlBase, ev, palabras, 5), site, urlBase);
  }

  /** The methods of `r` whose type part `j` produces are exactly `part`. */
  predicate PartOfList(r: seq<MethodSpec>, part: seq<MethodSpec>, j: nat) {
    && (forall m | m in r && PartOf(m.kind) == j :: m in part)
    && (forall m | m in part :: m in r && PartOf(m.kind) == j)
  }

  lemma AssembleHtml(site: string, urlBase: string, ev: Evidence, palabras: seq<string>)
    ensures var r := Assemble(site, urlBase, ev, palabras);
      && ((exists m | m in r :: m.kind.HtmlContains?) <==> |ev.htmlKeys| > 0)
      && (forall m | m in r && m.kind.HtmlContains? ::
            |m.kind.keys| <= MaxHtmlKeys && forall k | k in m.kind.keys :: k in ev.htmlKeys)
  {
    AssembleParts(site, urlBase, ev, palabras);
    HtmlFacts(Assemble(site, urlBase, ev, palabras), site, urlBase, ev.htmlKeys, ev.realCodes);
  }

  lemma HtmlFacts(r: seq<MethodSpec>, site: string, urlBase: string, keys: seq<string>, codes: seq<int>)
    requires PartOfList(r, HtmlMethods(site, urlBase, keys, codes), 1)
    ensures (exists m | m in r :: m.kind.HtmlContains?) <==> |keys| > 0
    ensures forall m | m in r && m.kind.HtmlContains? ::
      |m.kind.keys| <= MaxHtmlKeys && forall k | k in m.kind.keys :: k in keys
    ensures (exists m | m in r :: m.kind.StatusCodeAndText?) <==> |keys| > 0 && |codes| > 0
    ensures forall m | m in r && m.kind.StatusCodeAndText? ::
      m.kind.code.Some? && IsMode(codes, m.kind.code.value)
      && |m.kind.mustContain| <= MaxStatusTextKeys && forall k | k in m.kind.mustContain :: k in keys
  {
    assert forall k | k in Take(keys, MaxHtmlKeys) :: k in keys;
    assert forall k | k in Take(keys, MaxStatusTextKeys) :: k in keys;
  }

  lemma AssembleStatusText(site: string, urlBase: string, ev: Evidence, palabras: seq<string>)
    ensures var r := Assemble(site, urlBase, ev, palabras);
      && ((exists m | m in r :: m.kind.StatusCodeAndText?) <==> |ev.htmlKeys| > 0 && |ev.realCodes| > 0)
      && (forall m | m in r && m.kind.StatusCodeAndText? ::
            m.kind.code.Some? && IsMode(ev.realCodes, m.kind.code.value)
            && |m.kind.mustContain| <= MaxStatusTextKeys && forall k | k in m.kind.mustContain :: k in ev.htmlKeys)
  {
    AssembleParts(site, urlBase, ev, palabras);
    HtmlFacts(Assemble(site, urlBase, ev, palabras), site, urlBase, ev.htmlKeys, ev.realCodes);
  }

  lemma AssembleJson(site: string, urlBase: string, ev: Evidence, palabras: seq<string>)
    ensures var r := Assemble(site, urlBase, ev, palabras);
      && ((exists m | m in r :: m.kind.JsonResponseCheck?) <==> ev.anyJson && |CommonIntersection(ev.jsonLists)| > 0)
      && (forall m | m in r && m.kind.JsonResponseCheck? :: SharedKeys(m.kind.presentKeys, ev.jsonLists))
  {
    AssembleParts(site, urlBase, ev, palabras);
    JsonFacts(Assemble(site, urlBase, ev, palabras), site, urlBase, ev.anyJson, ev.jsonLists);
  }

  lemma JsonFacts(r: seq<MethodSpec>, site: string, urlBase: string, anyJson: bool, lists: seq<seq<string>>)
    requires PartOfList(r, JsonMethods(site, urlBase, anyJson, lists), 2)
    ensures (exists m | m in r :: m.kind.JsonResponseCheck?) <==> anyJson && |CommonIntersection(lists)| > 0
    ensures forall m | m in r && m.kind.JsonResponseCheck? :: SharedKeys(m.kind.presentKeys, lists)
  {
    var part := JsonMethods(site, urlBase, anyJson, lists);
    if |part| > 0 {
      assert part[0] in part;
    }
  }

  lemma AssembleCaptcha(site: string, urlBase: string, ev: Evidence, palabras: seq<string>)
    ensures (exists m | m in Assemble(site, urlBase, ev, palabras) :: m.kind.CaptchaDetect?) <==> ev.anyCaptcha
  {
    AssembleParts(site, urlBase, ev, palabras);
    CaptchaFacts(Assemble(site, urlBase, ev, palabras), site, urlBase, ev.anyCaptcha);
  }

  lemma CaptchaFacts(r: seq<MethodSpec>, site: string, urlBase: string, cond: bool)
    requires PartOfList(r, When(cond, MethodSpec(site, urlBase, CaptchaDetect)), 3)
    ensures (exists m | m in r :: m.kind.CaptchaDetect?) <==> cond
  {
    var m0 := MethodSpec(site, urlBase, CaptchaDetect);
    if cond {
      assert m0 in When(cond, m0);
    }
  }

  lemma AssembleSelector(site: string, urlBase: string, ev: Evidence, palabras: seq<string>)
    ensures (exists m | m in Assemble(site, urlBase, ev, palabras) :: m.kind.CustomSelectorCheck?) <==> ev.anyRendered
  {
    AssembleParts(site, urlBase, ev, palabras);
    SelectorFacts(Assemble(site, urlBase, ev, palabras), site, urlBase, ev.anyRendered);
  }

  lemma SelectorFacts(r: seq<MethodSpec>, site: string, urlBase: string, cond: bool)
    requires PartOfList(r, When(cond, MethodSpec(site, urlBase, CustomSelectorCheck)), 5)
    ensures (exists m | m in r :: m.kind.CustomSelectorCheck?) <==> cond
  {
    var m0 := MethodSpec(site, urlBase, CustomSelectorCheck);
    if cond {
      assert m0 in When(cond, m0);
    }
  }

  lemma AssembleKeywords(site: string, urlBase: string, ev: Evidence, palabras: seq<string>)
    ensures var r := Assemble(site, urlBase, ev, palabras);
      && ((exists m | m in r :: m.kind.KeywordCheck?) <==> exists k | k in palabras :: Survives(ev.fakeText, k))
      && (forall m | m in r && m.kind.KeywordCheck? ::
            0 < |m.kind.keywords| <= MaxKeywords
            && forall k | k in m.kind.keywords :: k in palabras && Survives(ev.fakeText, k))
  {
    AssembleParts(site, urlBase, ev, palabras);
    KeywordFacts(Assemble(site, urlBase, ev, palabras), site, urlBase, ev.fakeText, palabras);
  }

  lemma KeywordFacts(r: seq<MethodSpec>, site: string, urlBase: string, fake: string, palabras: seq<string>)
    requires PartOfList(r, KeywordMethods(site, urlBase, fake, palabras), 4)
    ensures (exists m | m in r :: m.kind.KeywordCheck?) <==> exists k | k in palabras :: Survives(fake, k)
    ensures forall m | m in r && m.kind.KeywordCheck? ::
      0 < |m.kind.keywords| <= MaxKeywords
      && forall k | k in m.kind.keywords :: k in palabras && Survives(fake, k)
  {
    var part := KeywordMethods(site, urlBase, fake, palabras);
    if |part| > 0 {
      assert part[0] in part;
    }
  }

  /** `derive_method_templates`. */
  function DeriveTemplates(site: string, urlBase: string, reales: seq<Sample>, falsos: seq<Sample>, palabras: seq<string>)
    : (r: seq<MethodSpec>)
    ensures |r| >= 3
    ensures r[0].kind == StatusCode && r[1].kind == UrlCheck && r[2].kind == RedirectCheck
    ensures Belongs(r, site, urlBase)
  {
    Assemble(site, urlBase, Gather(reales, falsos), palabras)
  }

  /** The markup methods in terms of the samples: `html_contains` is proposed exactly when some
      stable word of the real pages is not a stable word of the fake pages, and lists only such
      words. */
  lemma TemplatesHtml(site: string, urlBase: string, reales: seq<Sample>, falsos: seq<Sample>, palabras: seq<string>)
    ensures var r := DeriveTemplates(site, urlBase, reales, falsos, palabras);
      && ((exists m | m in r :: m.kind.HtmlContains?) <==>
            exists w | w in StableContains(Texts(reales)) :: w !in StableContains(Texts(falsos)))
      && (forall m | m in r && m.kind.HtmlContains? ::
            forall k | k in m.kind.keys :: k in StableContains(Texts(reales)) && k !in StableContains(Texts(falsos)))
  {
    var ev := Gather(reales, falsos);
    AssembleHtml(site, urlBase, ev, palabras);
    HtmlKeysNonEmpty(reales, falsos);
  }

  lemma HtmlKeysNonEmpty(reales: seq<Sample>, falsos: seq<Sample>)
    ensures |HtmlKeys(reales, falsos)| > 0 <==>
      exists w | w in StableContains(Texts(reales)) :: w !in StableContains(Texts(falsos))
  {
    var keys := HtmlKeys(reales, falsos);
    if |keys| > 0 {
      assert keys[0] in keys;
    }
  }

  /** Without a real sample there are no stable real words, so neither markup method is
      proposed. */
  lemma NoRealsNoMarkup(site: string, urlBase: string, falsos: seq<Sample>, palabras: seq<string>)
    ensures forall m | m in DeriveTemplates(site, urlBase, [], falsos, palabras) ::
      !m.kind.HtmlContains? && !m.kind.StatusCodeAndText?
  {
    var ev := Gather([], falsos);
    assert ev.htmlKeys == [];
    AssembleHtml(site, urlBase, ev, palabras);
    AssembleStatusText(site, urlBase, ev, palabras);
  }

  /** `status_code_y_texto` carries a most frequent plain status among the real samples. */
  lemma TemplatesStatusText(site: string, urlBase: string, reales: seq<Sample>, falsos: seq<Sample>, palabras: seq<string>)
    ensures forall m | m in DeriveTemplates(site, urlBase, reales, falsos, palabras) && m.kind.StatusCodeAndText? ::
      && m.kind.code.Some?
      && (exists e | e in reales :: e.http.status == m.kind.code.value)
      && forall e | e in reales ::
           Occurrences(PlainStatuses(reales), e.http.status) <= Occurrences(PlainStatuses(reales), m.kind.code.value)
  {
    AssembleStatusText(site, urlBase, Gather(reales, falsos), palabras);
    ModeOfStatuses(DeriveTemplates(site, urlBase, reales, falsos, palabras), reales);
  }

  lemma ModeOfStatuses(r: seq<MethodSpec>, reales: seq<Sample>)
    requires forall m | m in r && m.kind.StatusCodeAndText? ::
      m.kind.code.Some? && IsMode(PlainStatuses(reales), m.kind.code.value)
    ensures forall m | m in r && m.kind.StatusCodeAndText? ::
      && m.kind.code.Some?
      && (exists e | e in reales :: e.http.status == m.kind.code.value)
      && forall e | e in reales ::
           Occurrences(PlainStatuses(reales), e.http.status) <= Occurrences(PlainStatuses(reales), m.kind.code.value)
  {
    var codes := PlainStatuses(reales);
    forall m | m in r && m.kind.StatusCodeAndText?
      ensures exists e | e in reales :: e.http.status == m.kind.code.value
    {
      var i :| 0 <= i < |codes| && codes[i] == m.kind.code.value;
      assert reales[i] in reales;
    }
    forall e | e in reales ensures e.http.status in codes {
      var i :| 0 <= i < |reales| && reales[i] == e;
      assert codes[i] == e.http.status;
    }
  }

  /** `json_response_check` is proposed only when some sample answered with JSON, and each key
      it requires is a key of every real sample's JSON object. */
  lemma TemplatesJson(site: string, urlBase: string, reales: seq<Sample>, falsos: seq<Sample>, palabras: seq<string>)
    ensures var r := DeriveTemplates(site, urlBase, reales, falsos, palabras);
      && ((exists m | m in r :: m.kind.JsonResponseCheck?) ==> exists e | e in reales + falsos :: e.http.isJson)
      && forall m | m in r && m.kind.JsonResponseCheck? ::
           forall k | k in m.kind.presentKeys ::
             forall e | e in reales && e.http.isJson && e.http.jsonKeys.Some? :: k in e.http.jsonKeys.value
  {
    var ev := Gather(reales, falsos);
    AssembleJson(site, urlBase, ev, palabras);
    forall m, k, e | m in DeriveTemplates(site, urlBase, reales, falsos, palabras) && m.kind.JsonResponseCheck?
      && k in m.kind.presentKeys && e in reales && e.http.isJson && e.http.jsonKeys.Some?
      ensures k in e.http.jsonKeys.value
    {
      var i :| 0 <= i < |ev.jsonLists| && ev.jsonLists[i] == e.http.jsonKeys.value;
    }
  }

  /** The challenge-page and rendered-DOM methods are proposed exactly when some sample showed
      a challenge marker, respectively was rendered by a browser. */
  lemma TemplatesSignals(site: string, urlBase: string, reales: seq<Sample>, falsos: seq<Sample>, palabras: seq<string>)
    ensures var r := DeriveTemplates(site, urlBase, reales, falsos, palabras);
      && ((exists m | m in r :: m.kind.CaptchaDetect?) <==>
            exists e | e in reales + falsos :: DetectCaptcha(EffectiveText(e)))
      && ((exists m | m in r :: m.kind.CustomSelectorCheck?) <==> exists e | e in reales + falsos :: e.sel.Some?)
  {
    AssembleCaptcha(site, urlBase, Gather(reales, falsos), palabras);
    AssembleSelector(site, urlBase, Gather(reales, falsos), palabras);
  }

  /** `palabras_clave` is proposed exactly when some operator keyword, lower-cased, is absent
      from the lower-cased fake pages, and it keeps only such keywords. */
  lemma TemplatesKeywords(site: string, urlBase: string, reales: seq<Sample>, falsos: seq<Sample>, palabras: seq<string>)
    ensures var r := DeriveTemplates(site, urlBase, reales, falsos, palabras);
      && ((exists m | m in r :: m.kind.KeywordCheck?) <==>
            exists k | k in palabras :: !Contains(FakeText(falsos), Lower(k)))
      && forall m | m in r && m.kind.KeywordCheck? ::
           forall k | k in m.kind.keywords :: k in palabras && !Contains(FakeText(falsos), Lower(k))
  {
    AssembleKeywords(site, urlBase, Gather(reales, falsos), palabras);
  }
}

=== FILE: text.dfy ===
/** Character classes and string primitives shared by the learner, the searcher and the
    catalog pruner. Whitespace is Python's full `str.isspace` set. `str.lower`, `str.isalpha`
    and `str.isdigit` are modelled on ASCII; lower-casing and letters also cover the seven
    Spanish letters in both cases, which the text miner's token class names explicitly. */
module Text {
  import opened Wrappers

  // ---------------------------------------------------------------- character classes

  /** `str.isspace` for one character: the whitespace that `\s` matches in a text pattern and
      that `str.strip()` removes. Besides the ASCII controls and the space it takes the
      separators U+001C..U+001F, NEL, no-break space and the Unicode space separators. */
  predicate IsSpace(c: char) {
    || '\t' <= c <= '\r' || '\U{001C}' <= c <= ' ' || c == '\U{0085}' || c == '\U{00A0}'
    || c == '\U{1680}' || '\U{2000}' <= c <= '\U{200A}' || c == '\U{2028}' || c == '\U{2029}'
    || c == '\U{202F}' || c == '\U{205F}' || c == '\U{3000}'
  }

  predicate IsDigit(c: char) {
    '0' <= c <= '9'
  }

  predicate IsSpanishLetter(c: char) {
    c == '\U{00E1}' || c == '\U{00E9}' || c == '\U{00ED}' || c == '\U{00F3}' || c == '\U{00FA}'
    || c == '\U{00FC}' || c == '\U{00F1}'
    || c == '\U{00C1}' || c == '\U{00C9}' || c == '\U{00CD}' || c == '\U{00D3}' || c == '\U{00DA}'
    || c == '\U{00DC}' || c == '\U{00D1}'
  }

  /** `str.isalpha` for one character. */
  predicate IsLetter(c: char) {
    'a' <= c <= 'z' || 'A' <= c <= 'Z' || IsSpanishLetter(c)
  }

  /** `str.lower` for one character. */
  function LowerChar(c: char): (r: char)
    ensures IsLetter(c) <==> IsLetter(r)
    ensures IsSpace(c) <==> IsSpace(r)
    ensures IsDigit(c) <==> IsDigit(r)
    ensures !IsLetter(c) ==> r == c
  {
    if 'A' <= c <= 'Z' then (c as int + 32) as char
    else if c == '\U{00C1}' then '\U{00E1}'
    else if c == '\U{00C9}' then '\U{00E9}'
    else if c == '\U{00CD}' then '\U{00ED}'
    else if c == '\U{00D3}' then '\U{00F3}'
    else if c == '\U{00DA}' then '\U{00FA}'
    else if c == '\U{00DC}' then '\U{00FC}'
    else if c == '\U{00D1}' then '\U{00F1}'
    else c
  }

  /** `str.lower`: maps character by character, so it keeps length and positions. */
  function Lower(s: string): (r: string)
    ensures |r| == |s|
    ensures forall i :: 0 <= i < |s| ==> r[i] == LowerChar(s[i])
  {
    seq(|s|, i requires 0 <= i < |s| => LowerChar(s[i]))
  }

  /** A string whose characters are all their own lower case is its own lower case. */
  lemma LowerFixed(s: string)
    requires forall i | 0 <= i < |s| :: LowerChar(s[i]) == s[i]
    ensures Lower(s) == s
  {
  }

  lemma LowerConcat(a: string, b: string)
    ensures Lower(a + b) == Lower(a) + Lower(b)
  {
    assert forall i :: 0 <= i < |a + b| ==> Lower(a + b)[i] == (Lower(a) + Lower(b))[i];
  }

  lemma LowerSlice(s: string, i: nat, j: nat)
    requires i <= j <= |s|
    ensures Lower(s[i..j]) == Lower(s)[i..j]
  {
  }

  // ---------------------------------------------------------------- substring search

  /** `p` occurs in `s` starting at position `i`. */
  predicate OccursAt(s: string, p: string, i: nat) {
    i + |p| <= |s| && s[i..i + |p|] == p
  }

  /** An occurrence in a suffix is an occurrence in the whole string. */
  lemma OccursInSuffix(s: string, p: string, start: nat, j: nat)
    requires start <= |s| && OccursAt(s[start..], p, j)
    ensures OccursAt(s, p, start + j)
  {
    assert s[start + j..start + j + |p|] == s[start..][j..j + |p|];
  }

  /** Occurrences in a suffix are the occurrences in the whole string, shifted. */
  lemma OccursInSuffixIff(s: string, p: string, start: nat, m: nat)
    requires start <= |s|
    ensures OccursAt(s[start..], p, m) <==> OccursAt(s, p, start + m)
  {
    if start + m + |p| <= |s| {
      assert s[start + m..start + m + |p|] == s[start..][m..m + |p|];
    }
  }

  /** Python's `p in s`. */
  predicate Contains(s: string, p: string) {
    exists i | 0 <= i <= |s| :: OccursAt(s, p, i)
  }

  /** The first position at which `p` occurs in `s` at or after `from`. */
  function FindFrom(s: string, p: string, from: nat): (r: Option<nat>)
    ensures r.Some? ==> from <= r.value && OccursAt(s, p, r.value)
    ensures r.Some? ==> forall k :: from <= k < r.value ==> !OccursAt(s, p, k)
    ensures r.None? ==> forall k: nat :: from <= k ==> !OccursAt(s, p, k)
    decreases |s| - from
  {
    if from + |p| > |s| then None
    else if OccursAt(s, p, from) then Some(from)
    else FindFrom(s, p, from + 1)
  }

  /** `s.find(p)`, as an option. */
  function Find(s: string, p: string): (r: Option<nat>)
    ensures r.Some? <==> Contains(s, p)
    ensures r.Some? ==> OccursAt(s, p, r.value) && forall k: nat :: k < r.value ==> !OccursAt(s, p, k)
  {
    FindFrom(s, p, 0)
  }

  /** The first position of the character `c` in `s`. */
  function IndexOf(s: string, c: char): (r: Option<nat>)
    ensures r.Some? ==> r.value < |s| && s[r.value] == c && c !in s[..r.value]
    ensures r.None? <==> c !in s
  {
    if c !in s then None
    else if s[0] == c then Some(0)
    else
      var k := IndexOf(s[1..], c);
      assert s[1..][..k.value] == s[1..k.value + 1];
      Some(k.value + 1)
  }

  /** The first `c` is the one right after a prefix free of `c`. */
  lemma {:induction false} IndexOfAfter(a: string, c: char, b: string)
    requires c !in a
    ensures IndexOf(a + [c] + b, c) == Some(|a|)
    decreases |a|
  {
    var s := a + [c] + b;
    assert s[|a|] == c;
    if |a| > 0 {
      assert s[1..] == a[1..] + [c] + b;
      IndexOfAfter(a[1..], c, b);
    }
  }

  lemma ContainsEmpty(s: string)
    ensures Contains(s, "")
  {
    assert OccursAt(s, "", 0);
  }

  lemma ContainsInLeft(a: string, b: string, p: string)
    requires Contains(a, p)
    ensures Contains(a + b, p)
  {
    var i :| 0 <= i <= |a| && OccursAt(a, p, i);
    assert (a + b)[i..i + |p|] == a[i..i + |p|];
    assert OccursAt(a + b, p, i);
  }

  lemma ContainsInRight(a: string, b: string, p: string)
    requires Contains(b, p)
    ensures Contains(a + b, p)
  {
    var i :| 0 <= i <= |b| && OccursAt(b, p, i);
    assert (a + b)[|a| + i..|a| + i + |p|] == b[i..i + |p|];
    assert OccursAt(a + b, p, |a| + i);
  }

  lemma ContainsWhole(a: string, p: string, b: string)
    ensures Contains(a + p + b, p)
  {
    assert (a + p + b)[|a|..|a| + |p|] == p;
    assert OccursAt(a + p + b, p, |a|);
  }

  /** A character that does not occur in `s` cannot start an occurrence in `s`. */
  lemma NotContainsFirstChar(s: string, p: string)
    requires |p| > 0 && p[0] !in s
    ensures !Contains(s, p)
  {
    forall i | 0 <= i <= |s|
      ensures !OccursAt(s, p, i)
    {
      if i + |p| <= |s| {
        assert s[i..i + |p|][0] == s[i];
      }
    }
  }

  // ---------------------------------------------------------------- whitespace

  predicate NoSpace(s: string) {
    forall i :: 0 <= i < |s| ==> !IsSpace(s[i])
  }

  predicate AllSpace(s: string) {
    forall i :: 0 <= i < |s| ==> IsSpace(s[i])
  }

  function TrimStart(s: string): (r: string)
    ensures |r| <= |s| && r == s[|s| - |r|..]
    ensures AllSpace(s[..|s| - |r|])
    ensures |r| == 0 || !IsSpace(r[0])
  {
    if |s| > 0 && IsSpace(s[0]) then
      var t := s[1..];
      var r := TrimStart(t);
      assert s[|s| - |r|..] == t[|t| - |r|..];
      SpacesBefore(s, |s| - |r|);
      r
    else s
  }

  /** A leading space followed by spaces up to `k` makes the first `k` characters spaces. */
  lemma SpacesBefore(s: string, k: nat)
    requires 0 < k <= |s| && IsSpace(s[0]) && AllSpace(s[1..][..k - 1])
    ensures AllSpace(s[..k])
  {
    forall i | 0 < i < k
      ensures IsSpace(s[i])
    {
      assert s[i] == s[1..][..k - 1][i - 1];
    }
  }

  function TrimEnd(s: string): (r: string)
    ensures |r| <= |s| && r == s[..|r|]
    ensures AllSpace(s[|r|..])
    ensures |r| == 0 || !IsSpace(r[|r| - 1])
  {
    if |s| > 0 && IsSpace(s[|s| - 1]) then
      var r := TrimEnd(s[..|s| - 1]);
      assert s[|r|..] == s[..|s| - 1][|r|..] + [s[|s| - 1]];
      r
    else s
  }

  /** `str.strip()`: the longest infix that neither starts nor ends with whitespace, with only
      whitespace cut on either side. */
  function Strip(s: string): (r: string)
    ensures |r| == 0 || (!IsSpace(r[0]) && !IsSpace(r[|r| - 1]))
    ensures Contains(s, r)
  {
    var a := TrimStart(s);
    var r := TrimEnd(a);
    assert |r| > 0 ==> r[0] == a[0];
    var i := |s| - |a|;
    PrefixOfSuffix(s, i, |r|);
    assert OccursAt(s, r, i);
    r
  }

  lemma PrefixOfSuffix(s: string, i: nat, n: nat)
    requires i + n <= |s|
    ensures s[i..][..n] == s[i..i + n]
  {
  }

  /** A string that neither starts nor ends with whitespace is its own strip. */
  lemma StripIdentity(s: string)
    requires |s| == 0 || (!IsSpace(s[0]) && !IsSpace(s[|s| - 1]))
    ensures Strip(s) == s
  {
  }

  /** Python's `re.sub(r"\s+", " ", s)`: every run of whitespace becomes one space. */
  function CollapseWhitespace(s: string): (r: string)
    ensures |r| <= |s|
    ensures forall i :: 0 <= i < |r| && IsSpace(r[i]) ==> r[i] == ' '
    ensures forall i :: 0 <= i < |r| - 1 && IsSpace(r[i]) ==> !IsSpace(r[i + 1])
    ensures |r| > 0 && |s| > 0 ==> (IsSpace(r[0]) <==> IsSpace(s[0]))
    ensures NoSpace(s) ==> r == s
    decreases |s|
  {
    if |s| == 0 then ""
    else if IsSpace(s[0]) then " " + CollapseWhitespace(TrimStart(s))
    else [s[0]] + CollapseWhitespace(s[1..])
  }

  /** One whitespace character of any kind between two words becomes a plain space: the
      no-break space of `"me\U{00A0}gusta"` gives `"me gusta"`. */
  lemma {:induction false} CollapseSpaceBetween(a: string, c: char, b: string)
    requires NoSpace(a) && NoSpace(b) && IsSpace(c)
    ensures CollapseWhitespace(a + [c] + b) == a + " " + b
    decreases |a|
  {
    if |a| == 0 {
      EmptyHead(a, [c], b);
      CollapseLeadingSpace(c, b);
    } else {
      CollapseSpaceBetween(a[1..], c, b);
      ConsHead(a, [c], b);
      ConsHead(a, " ", b);
      CollapseWordHead(a[0], a[1..] + [c] + b);
    }
  }

  lemma EmptyHead(a: string, m: string, n: string)
    requires |a| == 0
    ensures a + m + n == m + n
  {
  }

  lemma ConsHead(a: string, m: string, n: string)
    requires |a| > 0
    ensures a + m + n == [a[0]] + (a[1..] + m + n)
  {
    assert a == [a[0]] + a[1..];
  }

  lemma CollapseLeadingSpace(c: char, b: string)
    requires IsSpace(c) && NoSpace(b)
    ensures CollapseWhitespace([c] + b) == " " + b
  {
    var s := [c] + b;
    assert s[1..] == b;
    assert TrimStart(s) == TrimStart(b) == b;
  }

  lemma CollapseWordHead(x: char, t: string)
    requires !IsSpace(x)
    ensures CollapseWhitespace([x] + t) == [x] + CollapseWhitespace(t)
  {
    assert ([x] + t)[1..] == t;
  }

  /** Text whose whitespace is already single plain spaces. */
  predicate SingleSpaced(s: string) {
    && (forall i | 0 <= i < |s| && IsSpace(s[i]) :: s[i] == ' ')
    && (forall i | 0 <= i < |s| - 1 && IsSpace(s[i]) :: !IsSpace(s[i + 1]))
  }

  /** Collapsing whitespace leaves single-spaced text as it is. */
  lemma {:induction false} CollapseSingleSpaced(s: string)
    requires SingleSpaced(s)
    ensures CollapseWhitespace(s) == s
    decreases |s|
  {
    if |s| > 0 {
      SingleSpacedTail(s);
      CollapseSingleSpaced(s[1..]);
      if IsSpace(s[0]) {
        SingleSpaceTrimmed(s);
      }
      assert s == [s[0]] + s[1..];
    }
  }

  lemma SingleSpacedTail(s: string)
    requires SingleSpaced(s) && |s| > 0
    ensures SingleSpaced(s[1..])
  {
    var t := s[1..];
    forall i | 0 <= i < |t| && IsSpace(t[i])
      ensures t[i] == ' '
    {
      assert t[i] == s[i + 1];
    }
    forall i | 0 <= i < |t| - 1 && IsSpace(t[i])
      ensures !IsSpace(t[i + 1])
    {
      assert t[i] == s[i + 1] && t[i + 1] == s[i + 2];
    }
  }

  /** A single leading space is all that trimming removes. */
  lemma SingleSpaceTrimmed(s: string)
    requires SingleSpaced(s) && |s| > 0 && IsSpace(s[0])
    ensures TrimStart(s) == s[1..]
  {
    assert |s| == 1 || !IsSpace(s[1]);
  }

  // ---------------------------------------------------------------- markup

  /** Python's `re.sub(r"<[^>]+>", " ", s)`: every `<`, followed by at least one character
      other than `>` up to the next `>`, is replaced by one space; a `<` that starts no such
      tag is kept. */
  function StripTags(s: string): (r: string)
    ensures |r| <= |s|
    ensures '<' !in s ==> r == s
    decreases |s|
  {
    if |s| == 0 then ""
    else if s[0] == '<' && |s| >= 2 && s[1] != '>' && '>' in s[2..] then
      var j := IndexOf(s[2..], '>').value;
      " " + StripTags(s[j + 3..])
    else [s[0]] + StripTags(s[1..])
  }

  // ---------------------------------------------------------------- splitting and joining

  /** `sep.join(parts)`. */
  function Join(parts: seq<string>, sep: string): string {
    if |parts| == 0 then ""
    else if |parts| == 1 then parts[0]
    else parts[0] + sep + Join(parts[1..], sep)
  }

  /** `s.split(sep)` for a one-character separator: the pieces between separators, empty ones
      included, that join back into `s`. */
  function Split(s: string, sep: char): (r: seq<string>)
    ensures |r| >= 1
    ensures forall i :: 0 <= i < |r| ==> sep !in r[i]
    ensures Join(r, [sep]) == s
    decreases |s|
  {
    match IndexOf(s, sep)
    case None => [s]
    case Some(i) =>
      var rest := Split(s[i + 1..], sep);
      assert s == s[..i] + [sep] + s[i + 1..];
      [s[..i]] + rest
  }

  /** Splitting a join of separator-free pieces gives back the pieces. */
  lemma {:induction false} SplitJoin(parts: seq<string>, sep: char)
    requires |parts| >= 1
    requires forall i :: 0 <= i < |parts| ==> sep !in parts[i]
    ensures Split(Join(parts, [sep]), sep) == parts
    decreases |parts|
  {
    if |parts| > 1 {
      var tail := Join(parts[1..], [sep]);
      var s := Join(parts, [sep]);
      assert s == parts[0] + [sep] + tail;
      IndexOfAfter(parts[0], sep, tail);
      assert s[|parts[0]| + 1..] == tail;
      SplitJoin(parts[1..], sep);
      assert s[..|parts[0]|] == parts[0];
    }
  }

  /** Every character of a join comes from one of the pieces or from the separator. */
  lemma {:induction false} JoinChar(parts: seq<string>, sep: string, c: char)
    requires c in Join(parts, sep)
    ensures c in sep || exists p | p in parts :: c in p
    decreases |parts|
  {
    if |parts| > 1 {
      var tail := Join(parts[1..], sep);
      if c !in parts[0] && c !in sep {
        assert c in tail;
        JoinChar(parts[1..], sep, c);
        var p :| p in parts[1..] && c in p;
        assert p in parts;
      }
    }
  }

  /** A join starts with its first piece and ends with its last one. */
  lemma {:induction false} JoinEnds(parts: seq<string>, sep: string)
    requires |parts| > 0
    ensures var s := Join(parts, sep);
      var last := parts[|parts| - 1];
      && |parts[0]| <= |s| && s[..|parts[0]|] == parts[0]
      && |last| <= |s| && s[|s| - |last|..] == last
    decreases |parts|
  {
    if |parts| > 1 {
      JoinEnds(parts[1..], sep);
      var tail := Join(parts[1..], sep);
      var s := Join(parts, sep);
      assert s == parts[0] + sep + tail;
      assert s[|s| - |tail|..] == tail;
    }
  }

  /** The decimal texts of a list of numbers. */
  function Numerals(nums: seq<nat>): (r: seq<string>)
    ensures |r| == |nums|
    ensures forall i | 0 <= i < |nums| :: r[i] == NatToString(nums[i])
  {
    seq(|nums|, i requires 0 <= i < |nums| => NatToString(nums[i]))
  }

  /** `s.replace(" ", "")` for one character. */
  function RemoveChar(s: string, c: char): (r: string)
    ensures c !in r
    ensures forall x :: x in r <==> x in s && x != c
  {
    if |s| == 0 then ""
    else if s[0] == c then RemoveChar(s[1..], c)
    else [s[0]] + RemoveChar(s[1..], c)
  }

  /** Removing a character that does not occur changes nothing. */
  lemma {:induction false} RemoveAbsentChar(s: string, c: char)
    requires c !in s
    ensures RemoveChar(s, c) == s
    decreases |s|
  {
    if |s| > 0 {
      assert c !in s[1..];
      RemoveAbsentChar(s[1..], c);
      assert s == [s[0]] + s[1..];
    }
  }

  /** `s.replace(p, r)` for a non-empty pattern: left to right, non-overlapping. */
  function ReplaceAll(s: string, p: string, rep: string): (r: string)
    requires |p| > 0
    ensures !Contains(s, p) ==> r == s
    decreases |s|
  {
    if |s| < |p| then s
    else if s[..|p|] == p then
      assert OccursAt(s, p, 0);
      rep + ReplaceAll(s[|p|..], p, rep)
    else
      ContainsTail(s, p);
      [s[0]] + ReplaceAll(s[1..], p, rep)
  }

  lemma ContainsTail(s: string, p: string)
    requires |s| > 0
    ensures Contains(s[1..], p) ==> Contains(s, p)
  {
    if Contains(s[1..], p) {
      var i :| 0 <= i <= |s[1..]| && OccursAt(s[1..], p, i);
      assert s[i + 1..i + 1 + |p|] == s[1..][i..i + |p|];
      assert OccursAt(s, p, i + 1);
    }
  }

  /** A prefix in which the pattern's first character does not occur passes through unchanged. */
  lemma {:induction false} ReplaceAllPrefix(pre: string, s: string, p: string, rep: string)
    requires |p| > 0 && p[0] !in pre
    ensures ReplaceAll(pre + s, p, rep) == pre + ReplaceAll(s, p, rep)
    decreases |pre|
  {
    if |pre| > 0 {
      var t := pre + s;
      assert t[0] == pre[0];
      assert t[1..] == pre[1..] + s;
      ReplaceAllSkip(t, p, rep);
      assert p[0] !in pre[1..];
      ReplaceAllPrefix(pre[1..], s, p, rep);
      assert pre == [pre[0]] + pre[1..];
    } else {
      assert pre + s == s;
    }
  }

  /** A string that does not start with the pattern's first character keeps that character. */
  lemma ReplaceAllSkip(t: string, p: string, rep: string)
    requires |p| > 0 && |t| > 0 && t[0] != p[0]
    ensures ReplaceAll(t, p, rep) == [t[0]] + ReplaceAll(t[1..], p, rep)
  {
    if |t| >= |p| {
      assert t[..|p|][0] != p[0];
    } else {
      assert ReplaceAll(t[1..], p, rep) == t[1..];
      assert t == [t[0]] + t[1..];
    }
  }

  // ---------------------------------------------------------------- integers

  predicate AllDigits(s: string) {
    forall i :: 0 <= i < |s| ==> IsDigit(s[i])
  }

  function DigitValue(c: char): nat
    requires IsDigit(c)
  {
    c as int - '0' as int
  }

  function DigitChar(d: nat): (c: char)
    requires d < 10
    ensures IsDigit(c) && DigitValue(c) == d
  {
    ('0' as int + d) as char
  }

  /** The value of a string of decimal digits (`int(s)` for such strings). */
  function DigitsValue(s: string): nat
    requires AllDigits(s)
    decreases |s|
  {
    if |s| == 0 then 0 else DigitsValue(s[..|s| - 1]) * 10 + DigitValue(s[|s| - 1])
  }

  /** `str(n)` for a natural number: canonical decimal, no leading zero except for 0 itself. */
  function NatToString(n: nat): (r: string)
    ensures |r| > 0 && AllDigits(r)
    ensures r[0] == '0' ==> n == 0
    decreases n
  {
    if n < 10 then [DigitChar(n)] else NatToString(n / 10) + [DigitChar(n % 10)]
  }

  lemma {:induction false} NatToStringRoundTrip(n: nat)
    ensures DigitsValue(NatToString(n)) == n
    decreases n
  {
    if n >= 10 {
      var s := NatToString(n);
      assert s[..|s| - 1] == NatToString(n / 10);
      NatToStringRoundTrip(n / 10);
    }
  }

  /** `str(i)` for an integer (Python's f-string rendering). */
  function IntToString(i: int): (r: string)
    ensures |r| > 0
    ensures i < 0 <==> r[0] == '-'
    ensures i >= 0 ==> AllDigits(r)
  {
    if i < 0 then "-" + NatToString(-i) else NatToString(i)
  }

  /** Python's `int(s)` on a string: surrounding whitespace, an optional sign, then at least one
      decimal digit; anything else is a `ValueError`, here `None`. */
  function ParseInt(s: string): (r: Option<int>)
    ensures r.Some? ==> |Strip(s)| > 0
  {
    var t := Strip(s);
    if |t| > 0 && (t[0] == '+' || t[0] == '-') then
      var d := t[1..];
      if |d| > 0 && AllDigits(d) then
        var v: int := DigitsValue(d);
        Some(if t[0] == '-' then -v else v)
      else None
    else if |t| > 0 && AllDigits(t) then Some(DigitsValue(t))
    else None
  }

  /** Parsing reads back what `str` wrote. */
  lemma IntToStringRoundTrip(i: int)
    ensures ParseInt(IntToString(i)) == Some(i)
  {
    if i < 0 {
      NegativeRoundTrip(i);
    } else {
      ParseDigits(NatToString(i));
      NatToStringRoundTrip(i);
    }
  }

  lemma NegativeRoundTrip(i: int)
    requires i < 0
    ensures ParseInt("-" + NatToString(-i)) == Some(i)
  {
    NatToStringRoundTrip(-i);
    ParseNegative(NatToString(-i), -i);
  }

  lemma ParseDigits(s: string)
    requires |s| > 0 && AllDigits(s)
    ensures ParseInt(s) == Some(DigitsValue(s))
  {
    assert IsDigit(s[0]) && IsDigit(s[|s| - 1]);
    StripIdentity(s);
  }

  lemma ParseNegative(d: string, n: nat)
    requires |d| > 0 && AllDigits(d) && DigitsValue(d) == n
    ensures ParseInt("-" + d) == Some(-(n as int))
  {
    var s := "-" + d;
    assert s[0] == '-' && s[1..] == d;
    assert s[|s| - 1] == d[|d| - 1];
    ParseMinus(s, n);
  }

  /** A minus sign followed by digits, read without any surrounding whitespace to strip. */
  lemma ParseMinus(s: string, n: nat)
    requires |s| > 1 && s[0] == '-' && AllDigits(s[1..]) && DigitsValue(s[1..]) == n
    ensures ParseInt(s) == Some(-(n as int))
  {
    assert IsDigit(s[1..][|s| - 2]);
    StripIdentity(s);
  }
}

=== FILE: text_mining.dfy ===
/** The learner's text mining: the frequent words of a page, the words every page of a group
    shares, and the stable vocabulary those shared words give a group of pages. */
module TextMining {
  import opened Wrappers
  import opened Text
  import opened Order

  /** The token alphabet: ASCII letters and digits, the underscore, and the Spanish accented
      letters. */
  predicate IsWordChar(c: char) {
    IsLetter(c) || IsDigit(c) || c == '_'
  }

  predicate IsWord(w: string) {
    |w| > 0 && forall i :: 0 <= i < |w| ==> IsWordChar(w[i])
  }

  /** A token as the miner keeps it: a word already in lower case. */
  predicate IsLowerWord(w: string) {
    IsWord(w) && Lower(w) == w
  }

  /** The length of the run of token characters that starts `s`. */
  function WordRun(s: string): (n: nat)
    ensures n <= |s|
    ensures forall i :: 0 <= i < n ==> IsWordChar(s[i])
    ensures n < |s| ==> !IsWordChar(s[n])
  {
    if |s| == 0 || !IsWordChar(s[0]) then 0 else 1 + WordRun(s[1..])
  }

  /** All matches of a token pattern with a minimum repetition of `minLen`, left to right: the
      maximal runs of token characters that are at least `minLen` long (a shorter run cannot
      match anywhere inside itself). */
  function Tokens(s: string, minLen: nat): (r: seq<string>)
    ensures forall t | t in r :: IsWord(t) && |t| >= minLen
    decreases |s|
  {
    if |s| == 0 then []
    else if !IsWordChar(s[0]) then Tokens(s[1..], minLen)
    else
      var n := WordRun(s);
      var rest := Tokens(s[n..], minLen);
      if n >= minLen then [s[..n]] + rest else rest
  }

  /** A word ended by a character outside the token alphabet, or by the end of the text, is
      the next token when it is long enough. */
  lemma TokensLongWord(w: string, rest: string, minLen: nat)
    requires IsWord(w) && |w| >= minLen && (|rest| == 0 || !IsWordChar(rest[0]))
    ensures Tokens(w + rest, minLen) == [w] + Tokens(rest, minLen)
  {
    var s := w + rest;
    WordRunOf(w, rest);
    assert s[..|w|] == w && s[|w|..] == rest;
  }

  /** A word shorter than the minimum is skipped. */
  lemma TokensShortWord(w: string, rest: string, minLen: nat)
    requires IsWord(w) && |w| < minLen && (|rest| == 0 || !IsWordChar(rest[0]))
    ensures Tokens(w + rest, minLen) == Tokens(rest, minLen)
  {
    var s := w + rest;
    WordRunOf(w, rest);
    assert s[|w|..] == rest;
  }

  /** A character outside the token alphabet only separates tokens. */
  lemma TokensSeparator(c: char, rest: string, minLen: nat)
    requires !IsWordChar(c)
    ensures Tokens([c] + rest, minLen) == Tokens(rest, minLen)
  {
    assert ([c] + rest)[1..] == rest;
  }

  lemma {:induction false} WordRunOf(w: string, rest: string)
    requires IsWord(w) && (|rest| == 0 || !IsWordChar(rest[0]))
    ensures WordRun(w + rest) == |w|
    decreases |w|
  {
    var s := w + rest;
    assert s[0] == w[0] && s[1..] == w[1..] + rest;
    if |w| > 1 {
      WordRunOf(w[1..], rest);
    } else {
      assert s[1..] == rest;
    }
  }

  /** Words separated by single spaces are tokenized back into exactly the words that are long
      enough, in order, repeats included. */
  lemma {:induction false} TokensOfWords(ws: seq<string>, minLen: nat)
    requires forall w | w in ws :: IsWord(w)
    ensures Tokens(Join(ws, " "), minLen) == Filter(ws, (w: string) => |w| >= minLen)
    decreases |ws|
  {
    var long := (w: string) => |w| >= minLen;
    if |ws| == 1 {
      assert Join(ws, " ") == ws[0] + "";
      if |ws[0]| >= minLen {
        TokensLongWord(ws[0], "", minLen);
      } else {
        TokensShortWord(ws[0], "", minLen);
      }
      assert ws[1..] == [];
    } else if |ws| > 1 {
      var tail := Join(ws[1..], " ");
      var rest := " " + tail;
      assert Join(ws, " ") == ws[0] + rest;
      assert ws[0] in ws;
      assert forall w | w in ws[1..] :: w in ws;
      TokensOfWords(ws[1..], minLen);
      TokensSeparator(' ', tail, minLen);
      if |ws[0]| >= minLen {
        TokensLongWord(ws[0], rest, minLen);
      } else {
        TokensShortWord(ws[0], rest, minLen);
      }
    }
  }

  lemma LowerWord(w: string)
    requires IsWord(w)
    ensures IsLowerWord(Lower(w)) && |Lower(w)| == |w|
  {
    var l := Lower(w);
    assert forall i :: 0 <= i < |l| ==> Lower(l)[i] == l[i];
  }

  /** Every token of the page with its markup replaced by spaces, lower-cased: the multiset
      whose counts rank the words. */
  function PageTokens(text: string, minLen: nat): (r: seq<string>)
    ensures forall w | w in r :: IsLowerWord(w) && |w| >= minLen
  {
    var ts := Tokens(StripTags(text), minLen);
    var r := seq(|ts|, i requires 0 <= i < |ts| => Lower(ts[i]));
    assert forall w | w in r :: IsLowerWord(w) && |w| >= minLen by {
      forall w | w in r
        ensures IsLowerWord(w) && |w| >= minLen
      {
        var i :| 0 <= i < |r| && r[i] == w;
        assert ts[i] in ts;
        LowerWord(ts[i]);
      }
    }
    r
  }

  /** A page of lower-case words separated by single spaces yields exactly its words of at
      least the minimum length, in order, repeats included. */
  lemma PageTokensOfWords(ws: seq<string>, minLen: nat)
    requires forall w | w in ws :: IsLowerWord(w)
    ensures PageTokens(Join(ws, " "), minLen) == Filter(ws, (w: string) => |w| >= minLen)
  {
    var text := Join(ws, " ");
    if '<' in text {
      JoinChar(ws, " ", '<');
    }
    TokensOfWords(ws, minLen);
    TagFreeTokens(text, minLen);
  }

  /** On a page without markup whose tokens are already lower-case words, the page tokens
      are the plain tokens. */
  lemma TagFreeTokens(text: string, minLen: nat)
    requires '<' !in text
    requires forall w | w in Tokens(text, minLen) :: IsLowerWord(w)
    ensures PageTokens(text, minLen) == Tokens(text, minLen)
  {
    var ts := Tokens(text, minLen);
    var r := PageTokens(text, minLen);
    assert StripTags(text) == text;
    forall i | 0 <= i < |ts|
      ensures r[i] == ts[i]
    {
      assert ts[i] in ts;
    }
  }

  /** How often a word occurs among the tokens. */
  function Count(toks: seq<string>, w: string): nat {
    multiset(toks)[w]
  }

  /** The miner's order: more frequent first, alphabetical among equally frequent words. */
  predicate RankBefore(toks: seq<string>, a: string, b: string) {
    Count(toks, a) > Count(toks, b) || (Count(toks, a) == Count(toks, b) && LexLess(a, b))
  }

  lemma RankTransitive(toks: seq<string>, a: string, b: string, c: string)
    requires RankBefore(toks, a, b) && RankBefore(toks, b, c)
    ensures RankBefore(toks, a, c)
  {
    if Count(toks, a) == Count(toks, b) == Count(toks, c) {
      LexTransitive(a, b, c);
    }
  }

  lemma RankTotal(toks: seq<string>, a: string, b: string)
    requires a != b
    ensures RankBefore(toks, a, b) || RankBefore(toks, b, a)
  {
    LexTotal(a, b);
  }

  lemma RankAsymmetric(toks: seq<string>, a: string, b: string)
    requires RankBefore(toks, a, b)
    ensures !RankBefore(toks, b, a)
  {
    if Count(toks, a) == Count(toks, b) {
      LexAsymmetric(a, b);
    }
  }

  predicate RankSorted(toks: seq<string>, s: seq<string>) {
    forall i, j :: 0 <= i < j < |s| ==> RankBefore(toks, s[i], s[j])
  }

  function InsertByRank(toks: seq<string>, x: string, s: seq<string>): (r: seq<string>)
    requires RankSorted(toks, s) && x !in s
    ensures RankSorted(toks, r)
    ensures |r| == |s| + 1
    ensures forall y :: y in r <==> y == x || y in s
  {
    if |s| == 0 then [x]
    else if RankBefore(toks, x, s[0]) then
      RankBeforeSortedHead(toks, x, s);
      [x] + s
    else
      RankTotal(toks, x, s[0]);
      var t := InsertByRank(toks, x, s[1..]);
      HeadBeforeInserted(toks, x, s, t);
      [s[0]] + t
  }

  lemma RankBeforeSortedHead(toks: seq<string>, x: string, s: seq<string>)
    requires RankSorted(toks, s) && |s| > 0 && RankBefore(toks, x, s[0])
    ensures RankSorted(toks, [x] + s)
  {
    forall j | 1 <= j < |s|
      ensures RankBefore(toks, x, s[j])
    {
      RankTransitive(toks, x, s[0], s[j]);
    }
  }

  lemma HeadBeforeInserted(toks: seq<string>, x: string, s: seq<string>, t: seq<string>)
    requires RankSorted(toks, s) && |s| > 0 && RankBefore(toks, s[0], x)
    requires RankSorted(toks, t) && forall y :: y in t <==> y == x || y in s[1..]
    ensures RankSorted(toks, [s[0]] + t)
  {
    forall k | 0 <= k < |t|
      ensures RankBefore(toks, s[0], t[k])
    {
      assert t[k] in t;
      if t[k] != x {
        var m :| 0 <= m < |s[1..]| && s[1..][m] == t[k];
        assert s[m + 1] == t[k];
      }
    }
  }

  /** Orders a list of distinct words by rank. */
  function RankSort(toks: seq<string>, words: seq<string>): (r: seq<string>)
    requires Distinct(words)
    ensures RankSorted(toks, r)
    ensures |r| == |words|
    ensures forall y :: y in r <==> y in words
    decreases |words|
  {
    if |words| == 0 then []
    else
      var t := RankSort(toks, words[1..]);
      assert words[0] !in words[1..] by {
        forall k | 0 <= k < |words[1..]|
          ensures words[1..][k] != words[0]
        {
          assert words[1..][k] == words[k + 1];
        }
      }
      InsertByRank(toks, words[0], t)
  }

  /** `extract_words`: the `maxWords` highest-ranked distinct lower-case tokens of the page
      (markup removed, tokens at least `minLen` long), best first. */
  function ExtractWords(text: string, minLen: nat, maxWords: nat): (r: seq<string>)
    requires minLen >= 1
    ensures |r| <= maxWords
    ensures Distinct(r)
    ensures forall w | w in r :: w in PageTokens(text, minLen) && IsLowerWord(w) && |w| >= minLen
    ensures RankSorted(PageTokens(text, minLen), r)
    ensures forall w | w in PageTokens(text, minLen) && w !in r ::
      |r| == maxWords && forall v | v in r :: RankBefore(PageTokens(text, minLen), v, w)
  {
    var toks := PageTokens(text, minLen);
    var words := SortedSet(toks);
    SortedIsDistinct(words);
    var ranked := RankSort(toks, words);
    var r := Take(ranked, maxWords);
    TopRanked(toks, ranked, maxWords);
    r
  }

  /** Cutting a rank-sorted list after `k` words keeps exactly the words that outrank every
      word it drops. */
  lemma TopRanked(toks: seq<string>, ranked: seq<string>, k: nat)
    requires RankSorted(toks, ranked)
    requires forall w | w in toks :: w in ranked
    ensures Distinct(Take(ranked, k))
    ensures forall w | w in toks && w !in Take(ranked, k) ::
      |Take(ranked, k)| == k && forall v | v in Take(ranked, k) :: RankBefore(toks, v, w)
  {
    var r := Take(ranked, k);
    forall i, j | 0 <= i < j < |r|
      ensures r[i] != r[j]
    {
      assert RankBefore(toks, r[i], r[j]);
      RankAsymmetric(toks, r[i], r[j]);
    }
    forall w | w in toks && w !in r
      ensures |r| == k && forall v | v in r :: RankBefore(toks, v, w)
    {
      var m :| 0 <= m < |ranked| && ranked[m] == w;
      assert forall i | 0 <= i < |r| :: ranked[i] == r[i] && r[i] in r;
      assert m >= |r|;
      forall v | v in r
        ensures RankBefore(toks, v, w)
      {
        var i :| 0 <= i < |r| && r[i] == v;
        assert ranked[i] == v;
      }
    }
  }

  /** `common_intersection`: the words that every list holds; nothing for no lists. The source
      returns them in set order; here they come in the order of the first list. */
  function CommonIntersection(lists: seq<seq<string>>): (r: seq<string>)
    ensures |lists| == 0 ==> r == []
    ensures forall w :: w in r <==> |lists| > 0 && forall i | 0 <= i < |lists| :: w in lists[i]
    ensures |lists| > 0 && Distinct(lists[0]) ==> Distinct(r)
  {
    if |lists| == 0 then []
    else
      var r := Filter(lists[0], w => forall i | 1 <= i < |lists| :: w in lists[i]);
      FilterKeepsDistinct(lists[0], w => forall i | 1 <= i < |lists| :: w in lists[i]);
      r
  }

  lemma {:induction false} FilterKeepsDistinct<T(!new)>(s: seq<T>, p: T -> bool)
    ensures Distinct(s) ==> Distinct(Filter(s, p))
    decreases |s|
  {
    if |s| > 0 && Distinct(s) {
      assert Distinct(s[1..]);
      FilterKeepsDistinct(s[1..], p);
      forall k | 0 <= k < |s[1..]|
        ensures s[1..][k] != s[0]
      {
        assert s[1..][k] == s[k + 1];
      }
    }
  }

  /** Words too generic to say anything about a page. */
  const StopWords: set<string> :=
    {"home", "login", "about", "contact", "cookies", "terms", "policy", "help", "explore", "search"}

  const MinWordLen: nat := 4
  const MaxPageWords: nat := 80
  const MaxStableWords: nat := 30

  /** The word list the miner keeps for one page, with its default limits. */
  function PageWords(text: string): seq<string> {
    ExtractWords(text, MinWordLen, MaxPageWords)
  }

  /** `w` is in the word list of every page, and there is at least one page. */
  predicate OnEveryPage(w: string, texts: seq<string>) {
    |texts| > 0 && forall i | 0 <= i < |texts| :: w in PageWords(texts[i])
  }

  /** The word list of every page, in order. */
  function PageWordLists(texts: seq<string>): (bags: seq<seq<string>>)
    ensures |bags| == |texts|
    ensures forall i | 0 <= i < |texts| :: bags[i] == PageWords(texts[i])
  {
    seq(|texts|, i requires 0 <= i < |texts| => PageWords(texts[i]))
  }

  lemma CommonToAllPages(texts: seq<string>)
    ensures forall w :: w in CommonIntersection(PageWordLists(texts)) <==> OnEveryPage(w, texts)
  {
  }

  /** The words a group of pages shares, stop words removed, in no particular order. */
  function SharedWords(texts: seq<string>): (r: seq<string>)
    ensures forall w :: w in r <==> w !in StopWords && OnEveryPage(w, texts)
  {
    CommonToAllPages(texts);
    Filter(CommonIntersection(PageWordLists(texts)), w => w !in StopWords)
  }

  /** `stable_contains`: the words in the word list of every page, stop words removed,
      alphabetically, at most 30; all of them when fewer than 30. */
  function StableContains(texts: seq<string>): (r: seq<string>)
    ensures StrictlySorted(r)
    ensures |r| <= MaxStableWords
    ensures |texts| == 0 ==> r == []
    ensures forall w | w in r :: w in SharedWords(texts)
    ensures |r| < MaxStableWords ==> forall w | w in SharedWords(texts) :: w in r
    ensures KeepsSmallest(r, SharedWords(texts), MaxStableWords)
  {
    TakeSmallest(SharedWords(texts), MaxStableWords);
    Take(SortedSet(SharedWords(texts)), MaxStableWords)
  }
}

=== FILE: wrappers.dfy ===
/** The optional value used wherever the source returns `None` or catches an exception
    and carries on without a value. */
module Wrappers {

  datatype Option<+T> = None | Some(value: T) {

    /** Returns the value held in Some, or the given default when None. */
    function GetOr(default: T): T {
      match this
      case Some(v) => v
      case None => default
    }
  }
}
